=== FILE: README.md ===
# Recruiting dashboard — a Dafny model

This project models the client-side logic of a recruiting dashboard written
in React and TypeScript. Recruiters post jobs, candidates apply with a
resume and a timed behavioural assessment, and recruiters shortlist or
reject applicants. There is no server: an in-memory mock store
(`src/lib/api.ts`) holds the jobs, seeded from `src/lib/mockData.ts`. The
components compute scores, rankings, statistics and chart data from that
store.

The model is made of pure functions over immutable datatypes:

- `Types` holds the records of `src/types/index.ts`, with a status count
  and the "locked implies decided" invariant.
- `Scoring` models `calculateFitScore`, a weighted mean rounded like
  `Math.round`.
- `Store` models the jobs, applications and AI mock API. Each call becomes
  a function from the store to a new store and a result. Random ids, clock
  readings and random draws become parameters.
- `Auth` models the mock login and signup checks.
- `Seed` and `SeedFacts` hold the seed records and facts about them.
- `ApplicationFlow` models the candidate's four-step application dialog as
  a state machine: upload, analysis, a 180-second assessment, submitting.
- `ApplicantsDialog` models the recruiter's ranking of applicants, the
  score colours and the decide/unlock buttons.
- `CandidateDashboard` and `RecruiterDashboard` model the statistics,
  chart data, skill profile, metrics and tables each dashboard derives.
- `HiringFunnelChart`, `SkillGapChart`, `SkillRadarChart`,
  `PersonalityTraitsChart`, `FitScoreGauge`, `ApplicationTimeline` and
  `CreateJobDialog` model one component each.
- `Base`, `Seqs`, `Digits` and `Charts` are shared helpers:
  - `Base`: options, `||` fallbacks, rounding and means;
  - `Seqs`: subsequences and first-index search;
  - `Digits`: decimal rendering of numbers and reading them back;
  - `Charts`: status pie slices.

JavaScript numbers are modelled as unbounded integers. A division followed
by `Math.round` is computed exactly: `RoundDiv(n, d)` is the integer `r`
with `d*(2r-1) <= 2n < d*(2r+1)`, which is rounding half up, as
`Math.round` does.

## Model

| member | source | states |
|---|---|---|
| Types.StatusPartition | src/types/index.ts:66 | Each applicant has exactly one of the three statuses, so the three counts add up to the list length. |
| Types.CountStatusConcat | src/components/HiringFunnelChart.tsx:12-15 | The per-status count of a concatenation is the sum of the per-status counts of its parts, as the per-job reduce sums them. |
| Types.AllApplicantsConcat | src/components/RecruiterDashboard.tsx:42 | `flatMap` over two store segments is the concatenation of the two flattened segments. |
| Types.AllApplicantsMember | src/components/RecruiterDashboard.tsx:42 | An applicant is in the flattened list exactly when some job lists it. |
| Scoring.FitScore | src/lib/mockData.ts:211-214 | The result is undefined (division by zero) exactly when the weights sum to 0. Otherwise it is the weighted mean rounded half up: it satisfies the rounding bracket around `(rs*rw + bs*bw)/(rw+bw)`, and for a negative sum the same bracket with numerator and divisor negated. |
| Scoring.FitScoreUndefinedOnlyUnweighted | src/lib/mockData.ts:211-214 | With non-negative weights the score is undefined exactly when both weights are 0, and then the weighted sum is 0, so JavaScript's value is NaN. |
| Scoring.FitScoreCancellingWeights | src/lib/mockData.ts:211-214 | Weights 5 and -5 leave the score undefined, although the weighted sum is not 0. |
| Scoring.FitScoreBetween | src/lib/mockData.ts:211-214 | With non-negative weights and a positive total, the fit score lies between the two scores. |
| Scoring.FitScoreEqualWeights | src/lib/mockData.ts:211-214 | With equal positive weights the fit score is the rounded mean of the two scores. |
| Scoring.FitScoreSingleWeight | src/lib/mockData.ts:211-214 | With one weight 0 and the other positive, the fit score is exactly the score whose weight is positive. |
| Scoring.FitScoreScale | src/lib/mockData.ts:211-214 | Multiplying both weights by a positive factor does not change the fit score. |
| Scoring.ScaledQuotient | src/lib/mockData.ts:212-213 | The rounded quotient is unchanged when the numerator's weights and the total weight are all scaled by the same positive factor. |
| Scoring.FitScoreSymmetric | src/lib/mockData.ts:211-214 | Swapping the two scores together with their weights gives the same fit score. |
| Scoring.FitScoreMonotone | src/lib/mockData.ts:211-214 | With a non-negative resume weight, a higher resume score never lowers the fit score. |
| Scoring.FitScoreExample | src/lib/mockData.ts:211-214 | A resume score of 80 and a behaviour score of 60, weighted 50 and 20, give a fit score of 74. |
| Base.OrElse | src/lib/api.ts:104-105 | `x \|\| fallback` on a number: a defined, non-zero value is kept; 0, NaN or an absent value gives the fallback. |
| Base.RoundDiv | src/lib/mockData.ts:213 | `Math.round(n / d)` for a positive divisor: the result satisfies `d*(2r-1) <= 2n < d*(2r+1)`, i.e. halves round up. |
| Base.RoundDivExact | src/lib/mockData.ts:213 | An exact quotient rounds to itself. |
| Base.RoundDivMono | src/lib/mockData.ts:213 | Rounding a quotient preserves the order of numerators. |
| Base.RoundDivBounds | src/lib/mockData.ts:213 | A quotient between two integers rounds to a value between them. |
| Base.RoundDivScale | src/lib/mockData.ts:213 | Scaling the numerator and the divisor by the same positive factor does not change the rounded quotient. |
| Base.MeanBetween | src/components/RecruiterDashboard.tsx:49-51 | The rounded mean of values in [lo, hi] is in [lo, hi]. |
| Base.MeanOfEqual | src/components/RecruiterDashboard.tsx:49-51 | The rounded mean of equal values is that value. |
| Base.Utf16Length | src/lib/api.ts:25 | `String.prototype.length`: the number of UTF-16 code units, at least the number of characters and at most twice it, and 0 only for the empty string. |
| Base.Utf16LengthCases | src/lib/api.ts:25 | A string of characters beyond U+FFFF has twice as many code units as characters. A string without such characters has exactly as many. |
| Digits.NatToString | src/components/ApplicationFlow.tsx:72-73 | `n.toString()` for a natural number: a non-empty string of decimal digits, with no leading zero unless it is "0", one character exactly when n < 10. |
| Digits.ParseNatToString | src/lib/api.ts:34 | Reading back the digits of a rendered number gives the number. |
| Digits.NatToStringInjective | src/lib/api.ts:34 | Different numbers render differently. |
| Store.JobIndex | src/lib/api.ts:130 | `findIndex` on job ids: the index of the first job with the id, or none when no job has it. |
| Store.ApplicantIndex | src/lib/api.ts:158 | `find` on applicant ids: the first applicant with the id, or none when no applicant has it. |
| Store.UserIndex | src/lib/api.ts:142 | `find` on user ids: the first applicant of the user, or none when the user has no applicant. |
| Store.GetById | src/lib/api.ts:75-78 | `getById` returns null exactly when no job has the id. Otherwise it returns the first job with that id. |
| Store.Locate | src/lib/api.ts:156-159 | The applicant is found exactly when a job with the id exists and the first such job lists the applicant. The position is that of the first match in each list. |
| Store.SetApplicant | src/lib/api.ts:160-161 | Writing an applicant in place changes that one slot and no other job or applicant. Job ids and the other applicant ids are kept. |
| Store.SetApplicantSame | src/lib/api.ts:160-161 | Writing back the applicant already in a slot leaves the store unchanged. |
| Store.SetApplicantOverwrite | src/lib/api.ts:160-161 | A second write to the same slot overrides the first. |
| Store.SetApplicantKeepsLock | src/lib/api.ts:160-161 | Writing an applicant that respects "locked implies decided" keeps the whole store respecting it. |
| Store.LocateStable | src/lib/api.ts:156-159 | Rewriting an applicant without changing its id does not move any lookup. |
| Store.UpdateStatus | src/lib/api.ts:150-166 | `updateStatus` returns true exactly when the job and the applicant are found. It then sets that applicant's status and locks it, and changes nothing else. When not found, the store is unchanged. It preserves "locked implies decided". |
| Store.UnlockDecision | src/lib/api.ts:168-179 | `unlockDecision` returns true exactly when the job and the applicant are found. It then clears only that applicant's lock, keeping its status. When not found, the store is unchanged. It preserves "locked implies decided". |
| Store.UnlockIdempotent | src/lib/api.ts:168-179 | Unlocking twice is the same as unlocking once. |
| Store.RedecideAfterUnlock | src/lib/api.ts:150-179 | After decide, unlock and decide again, the stored applicant carries the second decision and is locked, as if only the second decision had been made. |
| Store.DecideUnlockDecide | src/lib/api.ts:150-179 | Shortlisting, unlocking and then rejecting a located applicant leaves it rejected and locked. |
| Store.SubmitWeights | src/lib/api.ts:104-105 | The weights used to score a submission are never 0. A missing job gives 50 and 20. A job's zero weight is replaced by the same default. |
| Store.Submit | src/lib/api.ts:90-136 | `submit` always reports success. The new applicant is Under Review and unlocked, carries the given user, name, resume name and answers, and the drawn id, time, resume URL, scores, insights, traits, extracted entities and match explanation. Its resume insights are the strengths joined by ", ", and its fit score uses the matching job's weights, each replaced by 50 or 20 when it is 0 or no job matches. It is appended to the first job with the id. When no job matches, the store is unchanged. It preserves "locked implies decided". |
| Store.SubmitFitScoreBetween | src/lib/api.ts:104-106 | When the job's weights are non-negative, the stored fit score lies between the resume and behaviour scores. |
| Store.GetMyApplications | src/lib/api.ts:138-148 | `getMyApplications` returns one entry per job that holds an applicant of the user. Each entry pairs the job with the user's first applicant in it. |
| Store.MyApplicationsInStoreOrder | src/lib/api.ts:141-146 | The jobs of the returned applications appear in store order: they form a subsequence of the store. |
| Store.JobFromRequest | src/lib/api.ts:64-70 | The new job carries exactly the request's fields, the given id, creation date and creator, and no applicants. |
| Store.Create | src/lib/api.ts:62-73 | `create` puts the new job in front of the store and returns it, with the request's fields, the new id, no applicants, the creating user and the creation date it is handed (the date is a parameter). `getById` on its id finds it. It preserves "locked implies decided". |
| Store.Delete | src/lib/api.ts:80-84 | `delete` always returns true and removes every job with the id. It keeps the other jobs in order, removes only as many jobs as had the id, and preserves "locked implies decided". |
| Store.DeleteThenGetById | src/lib/api.ts:75-84 | After deleting an id, `getById` on it returns null. |
| Auth.Before | src/lib/api.ts:30 | `split('@')[0]`: the longest prefix without '@', followed in the input by '@' when it is shorter. |
| Auth.Login | src/lib/api.ts:20-35 | Login succeeds exactly when the email is non-empty and the password has at least 4 UTF-16 code units, the JavaScript length. An empty field gives "Please fill all fields". A password of 1 to 3 code units gives "Invalid credentials". On success the user has the given id, the email, the role and the email's local part as name, and a token is issued. |
| Auth.Signup | src/lib/api.ts:37-46 | Signup succeeds exactly when name and email are non-empty and the password has at least 4 UTF-16 code units. It never returns a user or token. Its message is one of the three literal messages, according to the outcome: a present but shorter password gives "Password must be at least 4 characters". |
| Auth.SignupIsLoginPlusName | src/lib/api.ts:20-46 | Signup succeeds exactly when login with the same fields would and the name is non-empty. A missing login field is reported by both as "Please fill all fields". |
| Auth.LoginNameIsLocalPart | src/lib/api.ts:30 | The user's name contains no '@'. It is the email up to its first '@', or the whole email when there is none. |
| Auth.LoginTokenCarriesTime | src/lib/api.ts:34 | The token is the literal prefix followed by the decimal digits of the clock reading, which read back as that reading. |
| Auth.TwoAstralCharactersSuffice | src/lib/api.ts:25 | A password of two characters beyond U+FFFF, such as two emoji, passes the length check, because JavaScript counts four code units. |
| SeedFacts.SeedApplicants | src/lib/mockData.ts:41-175 | The seed store's first job holds Alice and Bob, the second job none, and the third job Charlie. |
| SeedFacts.SeedIds | src/lib/mockData.ts:57-142 | The seed applicants have ids a1, a2 and a3. |
| SeedFacts.SeedDecisions | src/lib/mockData.ts:68-154 | Alice and Bob are Under Review and unlocked. Charlie is Shortlisted and locked. |
| SeedFacts.SeedLockConsistent | src/lib/mockData.ts:41-175 | The seed store satisfies "locked implies decided". |
| SeedFacts.SeedFitScoreIsNotRecomputed | src/lib/mockData.ts:56-76 | Alice's stored fit score is 85, while the weighted formula with the default weights gives 86. |
| ApplicationFlow.Reset | src/components/ApplicationFlow.tsx:44-54 | Closing the dialog returns to the upload step with no file or analysis, three empty answers, 180 seconds and the timer stopped, a valid state. |
| ApplicationFlow.Tick | src/components/ApplicationFlow.tsx:56-69 | A stopped or expired timer does not change the state. At 1 second or less a tick sets 0 and marks the time expired and stopped. Otherwise it takes one second off. It keeps the state valid. |
| ApplicationFlow.TicksCountDown | src/components/ApplicationFlow.tsx:56-69 | Fewer ticks than the seconds left take exactly that many seconds off. |
| ApplicationFlow.TicksStopped | src/components/ApplicationFlow.tsx:57 | Ticks leave a stopped or expired timer alone. |
| ApplicationFlow.TicksExpire | src/components/ApplicationFlow.tsx:56-69 | A running timer has not expired one tick before the seconds left run out. It expires at exactly that tick, and later ticks change nothing. |
| ApplicationFlow.TicksSplit | src/components/ApplicationFlow.tsx:56-69 | m + n ticks are m ticks followed by n ticks. |
| ApplicationFlow.AssessmentLastsThreeMinutes | src/components/ApplicationFlow.tsx:40-69 | From a fresh dialog, the assessment shows 1 second left after 179 ticks and expires at tick 180. |
| ApplicationFlow.AnswerChange | src/components/ApplicationFlow.tsx:109-116 | Once time has expired an edit is ignored. Otherwise it sets only the edited answer. Nothing else in the state changes. |
| ApplicationFlow.StartBehavioural | src/components/ApplicationFlow.tsx:104-107 | Continue moves to the assessment and starts the timer, keeping the seconds left, the expiry and the answers. |
| ApplicationFlow.BackToAnalysis | src/components/ApplicationFlow.tsx:290 | Back from the assessment returns to the analysis step and pauses the timer, keeping time and answers. |
| ApplicationFlow.BackToUpload | src/components/ApplicationFlow.tsx:252 | Back from the analysis changes only the step. |
| ApplicationFlow.PauseResume | src/components/ApplicationFlow.tsx:104-107 | Pausing and resuming the assessment restores the running state. No tick changes a paused assessment. |
| ApplicationFlow.AcceptsFile | src/components/ApplicationFlow.tsx:80-81 | A file is accepted exactly when its MIME type is one of the three listed types, or its name ends in ".pdf", ".docx" or ".doc". |
| ApplicationFlow.AcceptsFileCaseSensitive | src/components/ApplicationFlow.tsx:81 | The name test is case-sensitive: "CV.PDF" with an unknown type is refused. |
| ApplicationFlow.FileUpload | src/components/ApplicationFlow.tsx:77-88 | A picked, accepted file replaces the current file. Otherwise the state is unchanged. Only the file field ever changes. |
| ApplicationFlow.AnalyzeResume | src/components/ApplicationFlow.tsx:90-102 | Without a file, or when the analysis fails, nothing changes. Otherwise the analysis is stored and the step becomes analysis. |
| ApplicationFlow.Submit | src/components/ApplicationFlow.tsx:118-133 | Without a job, a user or a file, nothing changes. A successful submission closes the dialog, which resets it. A failed one returns to the assessment step with everything else kept. |
| ApplicationFlow.Apply | src/components/ApplicationFlow.tsx:34-133 | Every user event keeps the dialog state valid. |
| ApplicationFlow.RunKeepsValid | src/components/ApplicationFlow.tsx:34-133 | Any sequence of events keeps the dialog state valid: time within 0..180, three answers, expiry only at 0. |
| ApplicationFlow.ExpiredAnswersFrozen | src/components/ApplicationFlow.tsx:109-116 | Once time has expired, no event sequence that does not close the dialog or submit successfully changes the answers or the expiry. |
| ApplicationFlow.PadStart | src/components/ApplicationFlow.tsx:72-73 | `padStart(n, c)`: the result has length max(|s|, n), ends with s, and is filled with c in front. |
| ApplicationFlow.TwoDigits | src/components/ApplicationFlow.tsx:72-73 | The zero-padded rendering reads back as the number and has exactly two digits exactly when the number is below 100. |
| ApplicationFlow.TwoDigitsIsPadStart | src/components/ApplicationFlow.tsx:72-73 | It is `toString().padStart(2, '0')`. |
| ApplicationFlow.MinutesSeconds | src/components/ApplicationFlow.tsx:72-73 | Seconds split into whole minutes and the remaining seconds below 60. The minutes have two digits exactly below 6000 seconds. |
| ApplicationFlow.FormatTime | src/components/ApplicationFlow.tsx:71-75 | `formatTime` gives digits, a colon and two digits. It is 5 characters exactly below 6000 seconds. |
| ApplicationFlow.FormatTimeReadsBack | src/components/ApplicationFlow.tsx:71-75 | The formatted time reads back as the whole minutes and the remaining seconds, which are below 60. Minutes times 60 plus seconds is the original number of seconds. |
| ApplicationFlow.FormatTimeExamples | src/components/ApplicationFlow.tsx:71-75 | 180 seconds shows as "03:00" and 1 second as "00:01". |
| ApplicantsDialog.FinalScore | src/components/ApplicantsDialog.tsx:34-38 | A truthy stored fit score is used as is. Otherwise the score is recomputed from the job's weights, undefined when they sum to 0 (NaN or an infinity in JavaScript). |
| ApplicantsDialog.FinalScoreDefined | src/components/ApplicantsDialog.tsx:34-38 | With non-negative weights of positive sum, the final score is defined, and a recomputed one lies between the two scores. |
| ApplicantsDialog.StoredZeroIsRecomputed | src/components/ApplicantsDialog.tsx:35 | A stored fit score of 0 is falsy and is recomputed: 80 and 60 under 50/20 give 74. |
| ApplicantsDialog.WithScore | src/components/ApplicantsDialog.tsx:77 | The applicants with a given final score, in list order, are no more than the list. |
| ApplicantsDialog.WithScoreIsFilter | src/components/ApplicantsDialog.tsx:77 | Those applicants form a subsequence of the list, all with that score. |
| ApplicantsDialog.WithScoreCounts | src/components/ApplicantsDialog.tsx:77 | Each applicant with that score occurs as often as in the list, and no other applicant occurs. |
| ApplicantsDialog.Insert | src/components/ApplicantsDialog.tsx:77 | Inserting an applicant adds exactly that applicant to the multiset. |
| ApplicantsDialog.InsertSorted | src/components/ApplicantsDialog.tsx:77 | Inserting into a list sorted by descending score keeps it sorted. |
| ApplicantsDialog.InsertWithScore | src/components/ApplicantsDialog.tsx:77 | Insertion puts the new applicant before every applicant of equal score, and keeps the others' relative order. |
| ApplicantsDialog.SortByScore | src/components/ApplicantsDialog.tsx:77 | The sort is a permutation of the applicants. |
| ApplicantsDialog.SortByScoreSorted | src/components/ApplicantsDialog.tsx:77 | The sorted list is in descending final score. |
| ApplicantsDialog.SortByScoreStable | src/components/ApplicantsDialog.tsx:77 | Applicants with equal scores keep their submission order, as in the stable `Array.prototype.sort`. |
| ApplicantsDialog.SortedApplicants | src/components/ApplicantsDialog.tsx:77 | `sortedApplicants` is a permutation of the job's applicants, in descending final score, with ties in submission order. |
| ApplicantsDialog.Ranked | src/components/ApplicantsDialog.tsx:101-111 | The rank badge of the i-th card is i + 1, over the sorted list. |
| ApplicantsDialog.RankOneIsBest | src/components/ApplicantsDialog.tsx:77-111 | The applicant ranked 1 is one of the job's applicants, and has a final score at least that of every applicant. |
| ApplicantsDialog.TiesKeepSubmissionOrder | src/components/ApplicantsDialog.tsx:77 | For every score, the applicants with that score appear in the ranking in the order they applied. |
| ApplicantsDialog.ScoreColour | src/components/ApplicantsDialog.tsx:123-125 | The score is green from 80, blue from 60 to 79, and amber below 60 or when undefined (NaN). |
| ApplicantsDialog.ScoreColourMonotone | src/components/ApplicantsDialog.tsx:123-125 | A higher score never gets a worse colour. |
| ApplicantsDialog.ButtonsExclusive | src/components/ApplicantsDialog.tsx:235-241 | With an applicant selected and no update running, exactly one of "decide" and "Edit Decision" is enabled. During an update neither is. |
| ApplicantsDialog.StatusUpdateLocal | src/components/ApplicantsDialog.tsx:40-53 | With no selection nothing happens. Otherwise the updating flag ends cleared. A thrown call keeps the selection. A completed one shows the selection with the new status and locked. |
| ApplicantsDialog.EditDecisionLocal | src/components/ApplicantsDialog.tsx:55-67 | With no selection nothing happens. Otherwise the updating flag ends cleared. A thrown call keeps the selection. A completed one shows the selection unlocked. |
| ApplicantsDialog.DecisionKeepsSync | src/components/ApplicantsDialog.tsx:40-53 | When the shown applicant equals the stored one, it still does after a decision is stored and shown. |
| ApplicantsDialog.UnlockKeepsSync | src/components/ApplicantsDialog.tsx:55-67 | The same for unlocking. |
| ApplicantsDialog.PressDecide | src/components/ApplicantsDialog.tsx:235-238 | Pressing a disabled decide button changes nothing. An enabled one stores the decision and shows it. |
| ApplicantsDialog.GuardProtectsLockedDecision | src/components/ApplicantsDialog.tsx:235-238 | When the store holds the applicant as locked and the dialog's copy is in sync with it, pressing decide leaves the store, and that stored applicant, unchanged. |
| ApplicantsDialog.StoreOverwritesLockedDecision | src/lib/api.ts:150-166 | The store itself does not check the lock: `updateStatus` on a locked applicant overwrites its decision. |
| CandidateDashboard.Stats | src/components/CandidateDashboard.tsx:50-58 | Applied counts every application. Shortlisted and rejected count the applications with that status. |
| CandidateDashboard.UnderReviewSlice | src/components/CandidateDashboard.tsx:90 | `applied - shortlisted - rejected` is never negative and is exactly the number of undecided applications. |
| CandidateDashboard.ChartData | src/components/CandidateDashboard.tsx:89-93 | The chart keeps, in order, only the status slices with a positive value. |
| CandidateDashboard.ChartShowsStatusesPresent | src/components/CandidateDashboard.tsx:89-93 | A status appears in the chart exactly when the candidate has an application with that status. |
| CandidateDashboard.NameIndex | src/components/CandidateDashboard.tsx:97 | `acc.find(s => s.name === name)` finds a skill with the name, or none when no skill has it. |
| CandidateDashboard.UniqueSkills | src/components/CandidateDashboard.tsx:95-99 | The de-duplicated skill list is no longer than the input. |
| CandidateDashboard.UniqueSkillsDistinct | src/components/CandidateDashboard.tsx:96-99 | No two kept skills share a name. |
| CandidateDashboard.UniqueSkillsCover | src/components/CandidateDashboard.tsx:96-99 | Every skill name in the input is kept. |
| CandidateDashboard.UniqueSkillsFirst | src/components/CandidateDashboard.tsx:96-99 | The kept skill for each name is its first occurrence. |
| CandidateDashboard.UniqueSkillsOrder | src/components/CandidateDashboard.tsx:96-99 | Kept skills appear in the order of their first occurrences. |
| CandidateDashboard.ProfileSkills | src/components/CandidateDashboard.tsx:145 | The profile shows at most 8 skills, a prefix of the de-duplicated list, and all of it when fewer than 8. |
| CandidateDashboard.IsApplied | src/components/CandidateDashboard.tsx:79 | A job is marked applied exactly when one of the candidate's applications is for a job with that id. |
| CandidateDashboard.AppliedIffInStore | src/components/CandidateDashboard.tsx:79 | On the store's answer, a job is marked applied exactly when some job with that id holds an applicant of the user. |
| CandidateDashboard.DisplayedFitScore | src/components/CandidateDashboard.tsx:188-191 | The displayed score is the stored fit score when truthy, otherwise the resume score. |
| CandidateDashboard.DisplayedDiffersFromFinal | src/components/CandidateDashboard.tsx:226 | For a stored fit score of 0 the candidate sees the resume score 80, while the recruiter's list recomputes 74. |
| CandidateDashboard.DisplayedAgreesWhenStored | src/components/CandidateDashboard.tsx:188-191 | When a truthy fit score is stored, candidate and recruiter see the same score. |
| Charts.Positive | src/components/RecruiterDashboard.tsx:71 | `filter(d => d.value > 0)`: keeps, in order, exactly the slices with a positive value. |
| Charts.PositiveCounts | src/components/RecruiterDashboard.tsx:71 | Each positive slice occurs in the result as often as in the input, and no other slice occurs. |
| Charts.PositiveStatusSlices | src/components/RecruiterDashboard.tsx:67-71 | A status is shown exactly when its count is positive, with at most three slices in the fixed order. |
| RecruiterDashboard.Metrics | src/components/RecruiterDashboard.tsx:41-53 | The totals count all applicants and each status. The average is the rounded mean of the displayed scores, or 0 without applicants. |
| RecruiterDashboard.MetricsPartition | src/components/RecruiterDashboard.tsx:44-47 | Under review, shortlisted and rejected add up to the total. |
| RecruiterDashboard.AverageFitScoreBetween | src/components/RecruiterDashboard.tsx:49-51 | When every displayed score lies in [lo, hi], so does the average. |
| RecruiterDashboard.AverageOfEqualScores | src/components/RecruiterDashboard.tsx:49-51 | When every applicant shows the same score, the average is that score. |
| RecruiterDashboard.FunnelMatchesMetrics | src/components/HiringFunnelChart.tsx:11-21 | The funnel bars equal the metric cards' total, under-review and shortlisted counts. |
| RecruiterDashboard.StatusChartData | src/components/RecruiterDashboard.tsx:67-71 | The status pie keeps, in order, only the positive slices of the metrics. |
| RecruiterDashboard.StatusPieShownIffApplicants | src/components/RecruiterDashboard.tsx:110-119 | The status pie has a slice exactly when there is an applicant, so it shows exactly when the funnel panel does. |
| RecruiterDashboard.JobForSkillGap | src/components/RecruiterDashboard.tsx:73-75 | For "all" it is the first job, absent when there are none. Otherwise it is the first job with the selected id, absent exactly when no job has it. |
| RecruiterDashboard.SkillGapShown | src/components/RecruiterDashboard.tsx:140 | The panel is shown exactly when a job is selected and it carries a `requiredSkills` array, even an empty one. For "all" that is the first job. Otherwise it is the first job with the selected id. |
| RecruiterDashboard.FirstMatchUnique | src/components/RecruiterDashboard.tsx:75 | Two first indices of the same job id coincide. |
| RecruiterDashboard.EmptyRequiredSkillsShowPanel | src/components/RecruiterDashboard.tsx:140 | A first job with an empty `requiredSkills` array still shows the panel under "all". |
| RecruiterDashboard.SelectFirstIsAll | src/components/RecruiterDashboard.tsx:73-75 | Selecting the first job's id shows the same job as "all". |
| RecruiterDashboard.DeletedSelectionHidesPanel | src/components/RecruiterDashboard.tsx:140 | After the selected job is deleted, the skill-gap panel is hidden. |
| RecruiterDashboard.Profiled | src/components/RecruiterDashboard.tsx:79 | `filter(a => a.personalityTraits)`: the result is a subsequence of the applicants and every element has a profile. Each applicant with a profile occurs as often as in the input, and others not at all. |
| RecruiterDashboard.WithTraits | src/components/RecruiterDashboard.tsx:79-86 | The k-th profile is that of the k-th profiled applicant, so the profiles keep the applicants' order and multiplicity. The list is empty exactly when no applicant has a profile, and it contains exactly the profiles some applicant has. |
| RecruiterDashboard.WithTraitsMembers | src/components/RecruiterDashboard.tsx:79-86 | A list that pairs up with the profiled applicants is empty exactly when no applicant has a profile, and it holds exactly the profiles some applicant has. |
| RecruiterDashboard.Aggregate | src/components/RecruiterDashboard.tsx:80-87 | Absent exactly for no profiles. Otherwise each trait is the rounded mean of that trait over the profiles. |
| RecruiterDashboard.AggregatedTraits | src/components/RecruiterDashboard.tsx:77-88 | `aggregatedTraits` is null exactly when no applicant in any job has a personality profile. Otherwise each trait is the rounded mean of that trait over the profiled applicants, in order. |
| RecruiterDashboard.AggregatedTraitBetween | src/components/RecruiterDashboard.tsx:77-88 | When every profile's trait lies in [lo, hi], so does the averaged trait. |
| RecruiterDashboard.AggregateOfEqualProfiles | src/components/RecruiterDashboard.tsx:80-87 | Averaging copies of one profile gives that profile. |
| RecruiterDashboard.ApplicantWithoutTraitsIsSkipped | src/components/RecruiterDashboard.tsx:79 | An applicant without a profile does not pull the averages down: one profile alongside one without gives that profile. |
| RecruiterDashboard.Truncate | src/components/RecruiterDashboard.tsx:61 | A title up to n characters is kept. A longer one becomes its first n characters followed by "...". |
| RecruiterDashboard.TruncateFixedPoints | src/components/RecruiterDashboard.tsx:153 | A title is shown unchanged exactly when it fits, or when it is already n characters followed by "...". |
| RecruiterDashboard.TruncateCollides | src/components/RecruiterDashboard.tsx:153 | Two long titles that share their first n characters get the same label. |
| RecruiterDashboard.ApplicantsByJob | src/components/RecruiterDashboard.tsx:60-63 | One bar per job, in job order, with the title cut at 15 characters and the job's applicant count. |
| RecruiterDashboard.BarsSumToTotal | src/components/RecruiterDashboard.tsx:44-62 | The bars add up to the total-applicants metric. |
| RecruiterDashboard.Rows | src/components/RecruiterDashboard.tsx:215-229 | One table row per job, in job order, with title, company, applicant count and shortlisted count. |
| RecruiterDashboard.RowShortlistedAtMostApplicants | src/components/RecruiterDashboard.tsx:224-227 | A row's shortlisted count never exceeds its applicant count. |
| RecruiterDashboard.RowsSumToShortlisted | src/components/RecruiterDashboard.tsx:45-227 | The table's shortlisted column adds up to the shortlisted metric. |
| HiringFunnelChart.TotalApplicants | src/components/HiringFunnelChart.tsx:11 | The reduce over jobs counts every applicant of every job. |
| HiringFunnelChart.CountInJobs | src/components/HiringFunnelChart.tsx:12-15 | The per-job filtered reduce counts the applicants of a status across all jobs. |
| HiringFunnelChart.Funnel | src/components/HiringFunnelChart.tsx:17-21 | Three bars, Applications, Under Review and Shortlisted, with the total, under-review and shortlisted counts. |
| HiringFunnelChart.FunnelNarrows | src/components/HiringFunnelChart.tsx:11-21 | The two later bars together never exceed the first, and the difference is the rejected count. |
| HiringFunnelChart.FunnelOrderIndependent | src/components/HiringFunnelChart.tsx:11-21 | The bars do not depend on the order of the jobs. |
| HiringFunnelChart.EmptyJobChangesNothing | src/components/HiringFunnelChart.tsx:11-21 | Adding a job without applicants anywhere leaves the bars unchanged. |
| SkillGapChart.Lower | src/components/SkillGapChart.tsx:13 | `toLowerCase` on one character: 'A'..'Z' map to 'a'..'z', other characters are kept. |
| SkillGapChart.LowerString | src/components/SkillGapChart.tsx:13 | Lower-casing is character by character and keeps the length. |
| SkillGapChart.LowerStringIdempotent | src/components/SkillGapChart.tsx:13 | Lower-casing twice is lower-casing once. |
| SkillGapChart.CountWithSkill | src/components/SkillGapChart.tsx:12-14 | The number of applicants with a matching skill: 0 exactly when nobody has it, and the list length exactly when everyone has it. |
| SkillGapChart.Percentages | src/components/SkillGapChart.tsx:15-22 | With no applicants, available is 0 and gap is 100. Otherwise each percentage is the rounding of its exact value. |
| SkillGapChart.Row | src/components/SkillGapChart.tsx:18-23 | A row keeps the skill, requires 100, and carries the rounded available and gap percentages of the job's applicants. |
| SkillGapChart.SkillGapData | src/components/SkillGapChart.tsx:11-24 | One row per required skill, in order, with none when the job has no required skills. |
| SkillGapChart.NoRowsIffNoRequiredSkills | src/components/SkillGapChart.tsx:11-26 | The chart shows its empty message exactly when `requiredSkills` is missing or empty. |
| SkillGapChart.PercentagesBetween | src/components/SkillGapChart.tsx:15-22 | Both percentages lie in 0..100. |
| SkillGapChart.PercentagesSum | src/components/SkillGapChart.tsx:21-22 | For a job with applicants and over exact arithmetic, available and gap sum to 100, or to 101 exactly when the available percentage falls on a half. JavaScript's doubles can round such a half down, as for 23 of 40. |
| SkillGapChart.ExactHalfExample | src/components/SkillGapChart.tsx:16-22 | With exact arithmetic 23 applicants of 40 give 58 available and 43 gap. |
| SkillGapChart.NoApplicantsFullGap | src/components/SkillGapChart.tsx:16 | A job without applicants shows 0% available and a 100% gap. |
| SkillGapChart.EveryoneHasSkillNoGap | src/components/SkillGapChart.tsx:12-22 | When every applicant has the skill, it is 100% available with no gap. |
| SkillGapChart.PercentagesMonotone | src/components/SkillGapChart.tsx:15-22 | More applicants with the skill never lower availability and never raise the gap. |
| SkillGapChart.RowIgnoresCase | src/components/SkillGapChart.tsx:13 | Two skill names that differ only in letter case give the same percentages. |
| SkillGapChart.CountIgnoresCase | src/components/SkillGapChart.tsx:12-14 | Two skill names that differ only in letter case match the same applicants. |
| SkillGapChart.OneOfEightExample | src/components/SkillGapChart.tsx:21-22 | One applicant in eight gives 13% available and 88% gap (12.5 and 87.5 both round up). |
| SkillRadarChart.OfCategory | src/components/SkillRadarChart.tsx:19-21 | The category filter keeps, in order, exactly the skills of that category. |
| SkillRadarChart.GroupsPartition | src/components/SkillRadarChart.tsx:19-21 | The three groups together are the input skills, as a multiset. |
| SkillRadarChart.GroupSizes | src/components/SkillRadarChart.tsx:19-21 | The group sizes add up to the number of skills. |
| SkillRadarChart.Rendered | src/components/SkillRadarChart.tsx:23-24 | `renderSkillGroup` renders nothing exactly for an empty group. |
| SkillRadarChart.RenderedGroups | src/components/SkillRadarChart.tsx:48-52 | At most three groups are shown, none of them empty. |
| SkillRadarChart.GroupShownIffCategoryPresent | src/components/SkillRadarChart.tsx:19-51 | A category's group is shown exactly when some skill has that category. |
| PersonalityTraitsChart.Rows | src/components/PersonalityTraitsChart.tsx:11-17 | Five rows in the fixed order, each with a full mark of 100. The first four carry the traits, and the fifth shows 100 minus neuroticism. |
| PersonalityTraitsChart.RowsRoundTrip | src/components/PersonalityTraitsChart.tsx:11-17 | The profile can be read back from the five rows. |
| PersonalityTraitsChart.RowsWithinFullMark | src/components/PersonalityTraitsChart.tsx:11-17 | Traits on the 0..100 scale give values within the full mark, the inverted row included. |
| PersonalityTraitsChart.AveragedProfileWithinFullMark | src/components/RecruiterDashboard.tsx:77-88 | The recruiter's averaged profile stays on the 0..100 scale when every applicant's does. |
| PersonalityTraitsChart.AveragedTraitWithinFullMark | src/components/RecruiterDashboard.tsx:82-86 | The same, for one trait. |
| FitScoreGauge.BandOf | src/components/FitScoreGauge.tsx:26-38 | The four bands: at least 85, 70 to 84, 50 to 69, below 50. |
| FitScoreGauge.ScoreBand | src/components/FitScoreGauge.tsx:26-38 | A NaN score falls in the lowest band, a number in its `BandOf` band. |
| FitScoreGauge.ScoreColour | src/components/FitScoreGauge.tsx:26-31 | Green exactly from 85, blue from 70 to 84, amber from 50 to 69, red exactly below 50 or for a NaN score. |
| FitScoreGauge.ScoreLabel | src/components/FitScoreGauge.tsx:33-38 | "Excellent" exactly from 85, "Good" from 70 to 84, "Fair" from 50 to 69, "Needs Work" exactly below 50 or for a NaN score. |
| FitScoreGauge.ColourAndLabelAgree | src/components/FitScoreGauge.tsx:26-38 | Colour and label are determined by the same band, and the label identifies the band. |
| FitScoreGauge.LabelsDistinct | src/components/FitScoreGauge.tsx:33-38 | Different bands have different labels. |
| FitScoreGauge.BandMonotone | src/components/FitScoreGauge.tsx:26-38 | A higher score never falls in a lower band. |
| FitScoreGauge.UndefinedScoreNeedsWork | src/components/ApplicantsDialog.tsx:148-150 | An undefined `calculateFinalScore` handed to the gauge shows red "Needs Work", while the ranked list shows it amber. |
| FitScoreGauge.CancellingWeightsNeedWork | src/lib/mockData.ts:211-214 | Job weights -20 and 20 with no stored score and equal sub-scores give 0/0, shown on the gauge as red "Needs Work". |
| FitScoreGauge.GaugeAndListBandsDiffer | src/components/FitScoreGauge.tsx:26-31 | The gauge and the applicant list use different thresholds: 82 is green in the list but blue "Good" on the gauge. |
| ApplicationTimeline.Steps | src/components/ApplicationTimeline.tsx:20-37 | Five steps. The first three are completed, and only the first carries a timestamp. "Under Review" is current exactly while undecided. The last step is "Shortlisted", "Not Selected" or a pending "Final Decision", according to the status. |
| ApplicationTimeline.StepIdsDistinct | src/components/ApplicationTimeline.tsx:21-34 | The step ids are distinct. |
| ApplicationTimeline.PendingIffCurrentIffUndecided | src/components/ApplicationTimeline.tsx:25-33 | The timeline has a pending step exactly when it has a current step, and that is exactly while the application is undecided. |
| ApplicationTimeline.DecisionCompletesTimeline | src/components/ApplicationTimeline.tsx:25-31 | After a decision every step is completed. |
| ApplicationTimeline.StatusOnlyChangesLastSteps | src/components/ApplicationTimeline.tsx:21-24 | The first three steps do not depend on the status. |
| CreateJobDialog.DigitPrefix | src/components/CreateJobDialog.tsx:75 | The longest leading run of decimal digits. |
| CreateJobDialog.ParseInt | src/components/CreateJobDialog.tsx:75 | `parseInt` gives NaN exactly when no digit follows the optional minus sign. Otherwise it reads the leading digits, negated after a minus. |
| CreateJobDialog.ParseIntRendered | src/components/CreateJobDialog.tsx:75 | `parseInt` reads back a rendered natural number. |
| CreateJobDialog.ParseIntNegative | src/components/CreateJobDialog.tsx:75 | A minus sign in front negates the number read. |
| CreateJobDialog.ResetForm | src/components/CreateJobDialog.tsx:24-42 | The initial and reset form has every text field empty and weight fields that read as 50 and 20. |
| CreateJobDialog.DefaultWeightsAreLiterals | src/components/CreateJobDialog.tsx:31-32 | The reset weight fields are the literals "50" and "20". |
| CreateJobDialog.NonEmpty | src/components/CreateJobDialog.tsx:74 | `filter(Boolean)` on strings keeps, in order, exactly the non-empty ones. |
| CreateJobDialog.NonEmptyCounts | src/components/CreateJobDialog.tsx:74 | Each non-empty string occurs in the result as often as in the input, and the empty string not at all. |
| CreateJobDialog.BuildRequest | src/components/CreateJobDialog.tsx:61-76 | The form is refused exactly when title, description or deadline is empty. Otherwise the request carries those fields. The company defaults to "Not specified". The questions are the non-empty ones in order, each as often as it was typed. Each weight is the parsed field, or 50 and 20 when that is 0 or NaN, so never 0. |
| CreateJobDialog.AfterSubmit | src/components/CreateJobDialog.tsx:61-85 | A refused or failed post keeps the form open as typed. A successful one resets and closes it. |
| CreateJobDialog.ResetFormIsRefused | src/components/CreateJobDialog.tsx:38-66 | A fresh or just-reset form cannot be posted. |
| CreateJobDialog.ResetFormDefaults | src/components/CreateJobDialog.tsx:61-76 | Filling only the required fields posts weights 50/20, no questions and "Not specified" as company. |
| CreateJobDialog.ZeroOrNaNWeightIsDefaulted | src/components/CreateJobDialog.tsx:75 | A resume weight typed as "0", or not a number, is posted as 50. |
| CreateJobDialog.CreatedJobKeepsItsWeights | src/lib/api.ts:104-105 | A job created from the form is scored with exactly its own weights, because neither is 0. |
| CreateJobDialog.GenerateQuestions | src/components/CreateJobDialog.tsx:44-59 | The service is asked exactly when the description is non-empty. Without an answer the form is unchanged. Otherwise the three question fields take the answer's first three entries, and no other field changes. |
| CreateJobDialog.GeneratedQuestionsArePosted | src/components/CreateJobDialog.tsx:44-76 | Up to three generated non-empty questions are posted exactly, in order. |
| CreateJobDialog.MockQuestionsArePosted | src/lib/api.ts:190-197 | With the mock service, generating then posting sends its three questions. |

## Behaviour worth noting

- `updateStatus` (`src/lib/api.ts:150-166`) does not check the lock and overwrites a locked decision (`ApplicantsDialog.StoreOverwritesLockedDecision`). Only the disabled buttons at `ApplicantsDialog.tsx:235-238` prevent it (`ApplicantsDialog.GuardProtectsLockedDecision`).
- `unlockDecision` (`src/lib/api.ts:168-179`) returns true for an applicant that is already unlocked and leaves it as it was (`Store.UnlockDecision`, `Store.UnlockIdempotent`).
- Back from the assessment pauses the timer, and Continue (`ApplicationFlow.tsx:255`) restarts it from the time left (`ApplicationFlow.PauseResume`).
- With both weights 0, `calculateFitScore` (`src/lib/mockData.ts:211-214`) divides 0 by 0 and yields NaN. `Scoring.FitScore` models this as `None`. The applicant view hands that NaN to the gauge (`src/components/ApplicantsDialog.tsx:149`), which shows it as red "Needs Work" (`FitScoreGauge.UndefinedScoreNeedsWork`); weights -20 and 20, which the job form accepts, reach it too (`FitScoreGauge.CancellingWeightsNeedWork`).

## Left out

- The `averageTimeToHire` metric is the constant 5.2 and is not modelled (`RecruiterDashboard.tsx:48`).
- Scoring.FitScore: does not tell the three non-finite results apart. Weights summing to 0 give NaN when the weighted sum is 0, and +Infinity or -Infinity otherwise (only possible with a negative weight). The model returns `None` for all three.
- Floating point: every division followed by `Math.round` is computed exactly over the integers, rounding halves up. Binary rounding of intermediate values is not modelled. For example, with 23 of 40 applicants holding a skill, `(23 / 40) * 100` is 57.49999999999999 in doubles, so `SkillGapChart.tsx:21-22` gives 57 and 43, while the exact 57.5 gives 58 and 43 (`SkillGapChart.ExactHalfExample`).
- The gauge's circumference and stroke offset (`FitScoreGauge.tsx:40-41`) are not modelled. They are display geometry only.
- Dates are opaque strings:
  - the deadline badge's comparison with the current date (`RecruiterDashboard.tsx:220-221`) is not modelled, and neither is date formatting;
  - `toISOString`, `toLocaleString` and `Date.now()` become parameters.
- Bar colours (`colors[index % 5]`), pie colours, toasts, icons and all layout are not modelled.
- SkillGapChart.Lower: only ASCII letters are lower-cased. JavaScript's Unicode case mapping is not modelled.
- CreateJobDialog.ParseInt: leading white space, a '+' sign and radix prefixes are not modelled. It reads an optional '-' and decimal digits, then stops at the first non-digit, as `parseInt` does.
- ApplicantsDialog.SortedApplicants requires every final score to be defined. A job whose weights sum to 0 recomputes scores as NaN or an infinity. A comparator that returns NaN leaves the engine's order unspecified, and infinite scores are not modelled.
- The `isSubmitting`, `isAnalyzing`, `isGenerating` and `isLoading` flags are not modelled. Neither are the artificial `delay` calls or the interleaving of asynchronous callbacks. Each operation is modelled as completing at once.
- The React contexts (`AuthContext`, `JobContext`) are not part of this model. The store is passed explicitly.
- Randomness is supplied from outside: `crypto.randomUUID`, the random scores and the random traits from `generateBehaviouralScores`, `generateResumeAnalysis` and `generatePersonalityTraits` become inputs (the `Draw` record and the seed's trait parameters).
- The random generators in `src/lib/mockData.ts` are not modelled. Only the fixed skills, experience and education lists are copied.
- RecruiterDashboard.Aggregate: the per-trait `|| 0` is the identity on the integer traits, since only applicants with a profile are averaged.
- SkillGapChart is only rendered behind the guard at `RecruiterDashboard.tsx:140`. That guard is modelled by `RecruiterDashboard.SkillGapShown`.
- `authAPI.logout` and `jobsAPI.getAll` are not modelled: the first only resolves `{ success: true }`, and the second returns the store as is.
- `aiAPI.parseResume` is modelled only through its outcome, a parameter of `ApplicationFlow.AnalyzeResume`.
- RecruiterDashboard.Truncate: counts and slices characters, not UTF-16 code units. The two agree for titles without characters beyond U+FFFF. JavaScript's `slice` can cut such a character in half and leave a lone surrogate, which a Dafny string cannot hold.
- Auth.Login: the `!data.role` test is not modelled, because the role is always one of the two roles in the model.
- `SplashScreen`, `TopBar`, `AuthDialog`, `HomePage`, `JobCard` and `StatCard` are presentation components and are not modelled.

=== FILE: applicants_dialog.dfy ===
/** The recruiter's applicants dialog: final scores, the ranked list, and the
    decision buttons with the dialog's local copy of the selected applicant. */
module ApplicantsDialog {
  import opened Base
  import opened Types
  import opened Seqs
  import Scoring
  import Store

  /** `calculateFinalScore`: the stored fit score when it is truthy,
      otherwise the weighted recomputation with the job's weights. A stored 0
      is recomputed, and `None` is the NaN of zero total weight. */
  function FinalScore(w: Weights, a: Applicant): (r: Option<int>)
    ensures Truthy(a.fitScore) ==> r == a.fitScore
    ensures !Truthy(a.fitScore) ==> r == Scoring.FitScore(a.resumeScore, a.behaviourScore, w.resume, w.behaviour)
  {
    if Truthy(a.fitScore) then a.fitScore
    else Scoring.FitScore(a.resumeScore, a.behaviourScore, w.resume, w.behaviour)
  }

  /** A final score is always defined when the weights are non-negative with
      a positive sum; a recomputed one then lies between the sub-scores. */
  lemma FinalScoreDefined(w: Weights, a: Applicant)
    requires w.resume >= 0 && w.behaviour >= 0 && w.resume + w.behaviour > 0
    ensures FinalScore(w, a).Some?
    ensures !Truthy(a.fitScore) ==>
      Scoring.Min(a.resumeScore, a.behaviourScore) <= FinalScore(w, a).value <= Scoring.Max(a.resumeScore, a.behaviourScore)
  {
    Scoring.FitScoreBetween(a.resumeScore, a.behaviourScore, w.resume, w.behaviour);
  }

  /** A stored score of 0 is not shown as 0: an applicant with resume 80 and
      behaviour 60 under weights 50/20 ranks with 74. */
  lemma StoredZeroIsRecomputed(a: Applicant)
    requires a.fitScore == Some(0) && a.resumeScore == 80 && a.behaviourScore == 60
    ensures FinalScore(Weights(50, 20), a) == Some(74)
  {
    Scoring.FitScoreExample();
  }

  // ------------------------------------------------------------- ranking

  /** Every applicant of the list has a defined final score. The source's
      comparator subtracts scores; with a NaN score it is inconsistent and
      the resulting order is implementation-defined, so the ranking is only
      modelled when every score is defined. */
  predicate AllScored(w: Weights, s: seq<Applicant>) {
    forall i :: 0 <= i < |s| ==> FinalScore(w, s[i]).Some?
  }

  function Score(w: Weights, a: Applicant): int {
    FinalScore(w, a).GetOr(0)
  }

  /** Non-increasing final scores. */
  predicate SortedDesc(w: Weights, s: seq<Applicant>) {
    forall i, j :: 0 <= i < j < |s| ==> Score(w, s[i]) >= Score(w, s[j])
  }

  /** The applicants of `s` whose score is `k`, in the order of `s`. */
  function WithScore(w: Weights, s: seq<Applicant>, k: int): (r: seq<Applicant>)
    ensures |r| <= |s|
  {
    if s == [] then []
    else (if Score(w, s[0]) == k then [s[0]] else []) + WithScore(w, s[1..], k)
  }

  /** `WithScore` is a subsequence of the list whose elements all have
      score `k`. */
  lemma {:induction false} WithScoreIsFilter(w: Weights, s: seq<Applicant>, k: int)
    ensures IsSubseq(WithScore(w, s, k), s)
    ensures forall i :: 0 <= i < |WithScore(w, s, k)| ==> Score(w, WithScore(w, s, k)[i]) == k
  {
    if s != [] {
      var rest := WithScore(w, s[1..], k);
      WithScoreIsFilter(w, s[1..], k);
      assert s == [s[0]] + s[1..];
      if Score(w, s[0]) == k {
        assert ([s[0]] + rest)[1..] == rest;
      } else {
        assert [] + rest == rest;
        SubseqSkip(rest, s[0], s[1..]);
      }
    }
  }

  /** `WithScore` holds each applicant of score `k` as often as the list
      does, and no other; with `WithScoreIsFilter` this makes it exactly the
      filter by score. */
  lemma {:induction false} WithScoreCounts(w: Weights, s: seq<Applicant>, k: int)
    ensures forall a :: multiset(WithScore(w, s, k))[a] == if Score(w, a) == k then multiset(s)[a] else 0
  {
    if s != [] {
      WithScoreCounts(w, s[1..], k);
      assert s == [s[0]] + s[1..];
    }
  }

  /** Places `x` in front of the first element whose score is not above its
      own, so it stays ahead of the equal scores behind it. */
  function Insert(w: Weights, x: Applicant, t: seq<Applicant>): (r: seq<Applicant>)
    ensures multiset(r) == multiset(t) + multiset{x}
    ensures |r| == |t| + 1
  {
    if t == [] then [x]
    else if Score(w, t[0]) <= Score(w, x) then [x] + t
    else
      assert t == [t[0]] + t[1..];
      [t[0]] + Insert(w, x, t[1..])
  }

  lemma SortedTail(w: Weights, t: seq<Applicant>)
    requires t != [] && SortedDesc(w, t)
    ensures SortedDesc(w, t[1..])
    ensures forall y :: y in t[1..] ==> Score(w, t[0]) >= Score(w, y)
  {
    forall i, j | 0 <= i < j < |t[1..]| ensures Score(w, t[1..][i]) >= Score(w, t[1..][j]) {
      assert t[1..][i] == t[i + 1] && t[1..][j] == t[j + 1];
    }
    forall y | y in t[1..] ensures Score(w, t[0]) >= Score(w, y) {
      var m :| 0 <= m < |t[1..]| && t[1..][m] == y;
      assert t[1..][m] == t[m + 1];
    }
  }

  lemma SortedCons(w: Weights, x: Applicant, t: seq<Applicant>)
    requires SortedDesc(w, t) && forall y :: y in t ==> Score(w, x) >= Score(w, y)
    ensures SortedDesc(w, [x] + t)
  {
    var r := [x] + t;
    forall i, j | 0 <= i < j < |r| ensures Score(w, r[i]) >= Score(w, r[j]) {
      assert r[j] == t[j - 1];
      if i > 0 { assert r[i] == t[i - 1]; }
    }
  }

  /** Insertion keeps a list sorted. */
  lemma {:induction false} InsertSorted(w: Weights, x: Applicant, t: seq<Applicant>)
    requires SortedDesc(w, t)
    ensures SortedDesc(w, Insert(w, x, t))
  {
    if t == [] {
    } else if Score(w, t[0]) <= Score(w, x) {
      forall y | y in t ensures Score(w, x) >= Score(w, y) {
        if y != t[0] { SortedTail(w, t); }
      }
      SortedCons(w, x, t);
    } else {
      SortedTail(w, t);
      InsertSorted(w, x, t[1..]);
      var rest := Insert(w, x, t[1..]);
      forall y | y in rest ensures Score(w, t[0]) >= Score(w, y) {
        assert y in multiset(rest);
      }
      SortedCons(w, t[0], rest);
    }
  }

  lemma WithScoreCons(w: Weights, x: Applicant, t: seq<Applicant>, k: int)
    ensures WithScore(w, [x] + t, k) == (if Score(w, x) == k then [x] else []) + WithScore(w, t, k)
  {
    assert ([x] + t)[1..] == t;
  }

  /** Insertion puts `x` ahead of the other applicants with its score and
      leaves every other score's applicants as they were. */
  lemma {:induction false} InsertWithScore(w: Weights, x: Applicant, t: seq<Applicant>, k: int)
    ensures WithScore(w, Insert(w, x, t), k) == (if Score(w, x) == k then [x] else []) + WithScore(w, t, k)
  {
    if t == [] {
      WithScoreCons(w, x, [], k);
    } else if Score(w, t[0]) <= Score(w, x) {
      WithScoreCons(w, x, t, k);
    } else {
      var u, rest := t[0], t[1..];
      assert t == [u] + rest;
      var iu := if Score(w, u) == k then [u] else [];
      var ix := if Score(w, x) == k then [x] else [];
      assert iu + ix == ix + iu by {
        if iu != [] { assert ix == []; }
      }
      calc {
        WithScore(w, Insert(w, x, t), k);
        { assert Insert(w, x, t) == [u] + Insert(w, x, rest);
          WithScoreCons(w, u, Insert(w, x, rest), k); }
        iu + WithScore(w, Insert(w, x, rest), k);
        { InsertWithScore(w, x, rest, k); }
        iu + (ix + WithScore(w, rest, k));
        ix + (iu + WithScore(w, rest, k));
        { WithScoreCons(w, u, rest, k); }
        ix + WithScore(w, t, k);
      }
    }
  }

  /** A stable insertion sort by descending final score. */
  function SortByScore(w: Weights, s: seq<Applicant>): (r: seq<Applicant>)
    ensures multiset(r) == multiset(s) && |r| == |s|
  {
    if s == [] then []
    else
      assert s == [s[0]] + s[1..];
      Insert(w, s[0], SortByScore(w, s[1..]))
  }

  /** The sort's output is in non-increasing score order. */
  lemma {:induction false} SortByScoreSorted(w: Weights, s: seq<Applicant>)
    ensures SortedDesc(w, SortByScore(w, s))
  {
    if s != [] {
      SortByScoreSorted(w, s[1..]);
      InsertSorted(w, s[0], SortByScore(w, s[1..]));
    }
  }

  /** The sort is stable: for each score, the applicants with that score
      come out in their input order. */
  lemma {:induction false} SortByScoreStable(w: Weights, s: seq<Applicant>, k: int)
    ensures WithScore(w, SortByScore(w, s), k) == WithScore(w, s, k)
  {
    if s != [] {
      SortByScoreStable(w, s[1..], k);
      InsertWithScore(w, s[0], SortByScore(w, s[1..]), k);
      WithScoreCons(w, s[0], s[1..], k);
      assert s == [s[0]] + s[1..];
    }
  }

  /** `sortedApplicants`: a new list (the job's own is not touched) holding
      exactly the job's applicants, highest final score first, applicants
      with equal scores in their submission order. */
  function SortedApplicants(job: Job): (r: seq<Applicant>)
    requires AllScored(job.weights, job.applicants)
    ensures multiset(r) == multiset(job.applicants) && AllScored(job.weights, r)
    ensures forall i, j :: 0 <= i < j < |r| ==>
      FinalScore(job.weights, r[i]).value >= FinalScore(job.weights, r[j]).value
    ensures forall k :: WithScore(job.weights, r, k) == WithScore(job.weights, job.applicants, k)
  {
    var w := job.weights;
    var r := SortByScore(w, job.applicants);
    forall i | 0 <= i < |r| ensures FinalScore(w, r[i]).Some? {
      assert r[i] in multiset(job.applicants);
    }
    SortByScoreSorted(w, job.applicants);
    forall k ensures WithScore(w, r, k) == WithScore(w, job.applicants, k) {
      SortByScoreStable(w, job.applicants, k);
    }
    r
  }

  /** One card of the list: the rank badge and the applicant. */
  datatype RankedRow = RankedRow(rank: nat, applicant: Applicant)

  /** The badges `index + 1` over the sorted list. */
  function Ranked(job: Job): (r: seq<RankedRow>)
    requires AllScored(job.weights, job.applicants)
    ensures |r| == |job.applicants|
    ensures forall i :: 0 <= i < |r| ==> r[i].rank == i + 1 && r[i].applicant == SortedApplicants(job)[i]
  {
    var s := SortedApplicants(job);
    seq(|s|, i requires 0 <= i < |s| => RankedRow(i + 1, s[i]))
  }

  /** The applicant with badge 1 has the highest final score of the job. */
  lemma RankOneIsBest(job: Job, a: Applicant)
    requires AllScored(job.weights, job.applicants) && a in job.applicants
    ensures Ranked(job) != [] && Ranked(job)[0].applicant in job.applicants
    ensures FinalScore(job.weights, Ranked(job)[0].applicant).value >= FinalScore(job.weights, a).value
  {
    var s := SortedApplicants(job);
    assert s[0] in multiset(job.applicants);
    assert a in multiset(s);
    var j :| 0 <= j < |s| && s[j] == a;
  }

  /** Two applicants with the same final score keep their submission order. */
  lemma TiesKeepSubmissionOrder(job: Job, k: int)
    requires AllScored(job.weights, job.applicants)
    ensures WithScore(job.weights, SortedApplicants(job), k) == WithScore(job.weights, job.applicants, k)
  {
  }

  // ---------------------------------------------------- score colours

  datatype Colour = Success | Primary | Warning

  /** The colour of a final score: from 80 success, from 60 primary,
      otherwise warning. A NaN score compares false and is warning. */
  function ScoreColour(score: Option<int>): (c: Colour)
    ensures c == Success <==> score.Some? && score.value >= 80
    ensures c == Primary <==> score.Some? && 60 <= score.value < 80
    ensures c == Warning <==> score.None? || score.value < 60
  {
    if score.Some? && score.value >= 80 then Success
    else if score.Some? && score.value >= 60 then Primary
    else Warning
  }

  function ColourRank(c: Colour): nat {
    match c
    case Warning => 0
    case Primary => 1
    case Success => 2
  }

  /** A higher score never gets a lower colour. */
  lemma ScoreColourMonotone(a: int, b: int)
    requires a <= b
    ensures ColourRank(ScoreColour(Some(a))) <= ColourRank(ScoreColour(Some(b)))
  {
  }

  // ------------------------------------------- decisions in the dialog

  /** The dialog's state: the local copy of the selected applicant and the
      in-flight flag. */
  datatype DialogState = DialogState(selected: Option<Applicant>, updating: bool)

  /** Proceed and Reject are enabled only for an unlocked applicant with no
      request in flight. */
  predicate DecideEnabled(d: DialogState) {
    d.selected.Some? && !d.selected.value.locked && !d.updating
  }

  /** Edit Decision is enabled only for a locked applicant with no request
      in flight. */
  predicate EditEnabled(d: DialogState) {
    d.selected.Some? && d.selected.value.locked && !d.updating
  }

  /** With an applicant selected and nothing in flight, exactly one of the
      two button groups is enabled; while a request is in flight, none is. */
  lemma ButtonsExclusive(d: DialogState)
    ensures d.selected.Some? && !d.updating ==> (DecideEnabled(d) != EditEnabled(d))
    ensures d.updating ==> !DecideEnabled(d) && !EditEnabled(d)
  {
  }

  /** `handleStatusUpdate`, after the request settles. `threw` is whether the
      API call raised; the mock never does, and its `false` result for a
      missing applicant does not stop the local copy from changing. */
  function StatusUpdateLocal(d: DialogState, status: Decision, threw: bool): (r: DialogState)
    ensures d.selected.None? ==> r == d
    ensures d.selected.Some? ==> !r.updating
    ensures threw ==> r.selected == d.selected
    ensures d.selected.Some? && !threw ==> r.selected == Some(d.selected.value.(status := status, locked := true))
  {
    match d.selected
    case None => d
    case Some(a) => if threw then DialogState(d.selected, false) else DialogState(Some(a.(status := status, locked := true)), false)
  }

  /** `handleEditDecision`, after the request settles. */
  function EditDecisionLocal(d: DialogState, threw: bool): (r: DialogState)
    ensures d.selected.None? ==> r == d
    ensures d.selected.Some? ==> !r.updating
    ensures threw ==> r.selected == d.selected
    ensures d.selected.Some? && !threw ==> r.selected == Some(d.selected.value.(locked := false))
  {
    match d.selected
    case None => d
    case Some(a) => if threw then DialogState(d.selected, false) else DialogState(Some(a.(locked := false)), false)
  }

  /** The local copy matches the store's record of the same applicant. */
  predicate InSync(jobs: seq<Job>, jobId: string, d: DialogState) {
    && d.selected.Some?
    && var p := Store.Locate(jobs, jobId, d.selected.value.id);
       p.Some? && Store.ValidPosition(jobs, p.value)
       && jobs[p.value.job].applicants[p.value.applicant] == d.selected.value
  }

  /** A decision made in the dialog keeps the local copy equal to the
      store's record. */
  lemma DecisionKeepsSync(jobs: seq<Job>, jobId: string, d: DialogState, status: Decision)
    requires InSync(jobs, jobId, d)
    ensures InSync(Store.UpdateStatus(jobs, jobId, d.selected.value.id, status).0, jobId,
                   StatusUpdateLocal(d, status, false))
  {
    var a := d.selected.value;
    var p := Store.Locate(jobs, jobId, a.id).value;
    Store.LocateStable(jobs, p, a.(status := status, locked := true), jobId, a.id);
  }

  /** An unlock made in the dialog keeps the local copy equal to the
      store's record. */
  lemma UnlockKeepsSync(jobs: seq<Job>, jobId: string, d: DialogState)
    requires InSync(jobs, jobId, d)
    ensures InSync(Store.UnlockDecision(jobs, jobId, d.selected.value.id).0, jobId, EditDecisionLocal(d, false))
  {
    var a := d.selected.value;
    var p := Store.Locate(jobs, jobId, a.id).value;
    Store.LocateStable(jobs, p, a.(locked := false), jobId, a.id);
  }

  /** Pressing Proceed or Reject: the request only goes out when the buttons
      are enabled. */
  function PressDecide(jobs: seq<Job>, jobId: string, d: DialogState, status: Decision): (r: (seq<Job>, DialogState))
    ensures !DecideEnabled(d) ==> r == (jobs, d)
    ensures DecideEnabled(d) ==>
      r == (Store.UpdateStatus(jobs, jobId, d.selected.value.id, status).0, StatusUpdateLocal(d, status, false))
  {
    if DecideEnabled(d) then (Store.UpdateStatus(jobs, jobId, d.selected.value.id, status).0, StatusUpdateLocal(d, status, false))
    else (jobs, d)
  }

  /** The dialog's guard is what protects a locked decision: while the local
      copy is in sync with the store, pressing a decision button never
      changes an applicant the store holds as locked. The store itself would
      overwrite it (`Store.UpdateStatus` has no such check). */
  lemma GuardProtectsLockedDecision(jobs: seq<Job>, jobId: string, applicantId: string, d: DialogState, status: Decision)
    requires InSync(jobs, jobId, d) && d.selected.value.id == applicantId
    requires Store.Locate(jobs, jobId, applicantId).Some?
    requires var p := Store.Locate(jobs, jobId, applicantId).value;
      jobs[p.job].applicants[p.applicant].locked
    ensures PressDecide(jobs, jobId, d, status).0 == jobs
    ensures var p := Store.Locate(jobs, jobId, applicantId).value;
      PressDecide(jobs, jobId, d, status).0[p.job].applicants[p.applicant] == jobs[p.job].applicants[p.applicant]
  {
    var p := Store.Locate(jobs, jobId, applicantId).value;
    assert d.selected.value == jobs[p.job].applicants[p.applicant];
  }

  /** Without the dialog's guard a locked, shortlisted applicant can be
      rejected straight through the store. */
  lemma StoreOverwritesLockedDecision(jobs: seq<Job>, jobId: string, applicantId: string)
    requires Store.Locate(jobs, jobId, applicantId).Some?
    requires var p := Store.Locate(jobs, jobId, applicantId).value;
      jobs[p.job].applicants[p.applicant].locked && jobs[p.job].applicants[p.applicant].status == Shortlisted
    ensures var p := Store.Locate(jobs, jobId, applicantId).value;
      var r := Store.UpdateStatus(jobs, jobId, applicantId, Rejected);
      r.1 && r.0[p.job].applicants[p.applicant].status == Rejected
  {
  }
}

=== FILE: application_flow.dfy ===
/** The candidate's application dialog: resume upload, analysis review, and a
    timed three-question behavioural assessment. Each handler and each
    one-second timer tick is one transition of an immutable `FlowState`. */
module ApplicationFlow {
  import opened Base
  import opened Types
  import opened Seqs
  import opened Digits

  datatype Step = Upload | Analysis | Behavioural | Submitting

  /** The parts of a browser `File` the dialog looks at. */
  datatype FileInfo = FileInfo(name: string, mimeType: string)

  datatype FlowState = FlowState(
    step: Step,
    file: Option<FileInfo>,
    analysis: Option<ResumeAnalysis>,
    answers: seq<string>,
    timeLeft: int,
    timerActive: bool,
    timeExpired: bool)

  /** Seconds allowed for the assessment. */
  const AssessmentSeconds: int := 180

  /** The state on mount and after the dialog closes. */
  const Initial: FlowState := FlowState(Upload, None, None, ["", "", ""], AssessmentSeconds, false, false)

  /** What every reachable state satisfies: the countdown stays within
      0..180, there are always three answer slots, and an expired timer
      reads 0. */
  predicate Valid(s: FlowState) {
    && 0 <= s.timeLeft <= AssessmentSeconds
    && |s.answers| == 3
    && (s.timeExpired ==> s.timeLeft == 0)
  }

  /** Closing the dialog resets every field. */
  function Reset(s: FlowState): (r: FlowState)
    ensures Valid(r)
    ensures r.step == Upload && r.file.None? && r.analysis.None?
    ensures r.answers == ["", "", ""] && r.timeLeft == 180 && !r.timerActive && !r.timeExpired
  {
    Initial
  }

  /** One firing of the one-second interval. The interval only exists while
      the timer is active and not expired. */
  function Tick(s: FlowState): (r: FlowState)
    ensures !s.timerActive || s.timeExpired ==> r == s
    ensures s.timerActive && !s.timeExpired && s.timeLeft <= 1 ==>
      r == s.(timeLeft := 0, timeExpired := true, timerActive := false)
    ensures s.timerActive && !s.timeExpired && s.timeLeft > 1 ==> r == s.(timeLeft := s.timeLeft - 1)
    ensures Valid(s) ==> Valid(r)
    ensures s.timeLeft >= 0 ==> r.timeLeft >= 0
  {
    if !s.timerActive || s.timeExpired then s
    else if s.timeLeft <= 1 then s.(timeLeft := 0, timeExpired := true, timerActive := false)
    else s.(timeLeft := s.timeLeft - 1)
  }

  /** `n` consecutive ticks. */
  function Ticks(s: FlowState, n: nat): FlowState
    decreases n
  {
    if n == 0 then s else Ticks(Tick(s), n - 1)
  }

  /** While running, each of the first `n < timeLeft` ticks takes one second
      off and leaves the rest of the state alone. */
  lemma {:induction false} TicksCountDown(s: FlowState, n: nat)
    requires s.timerActive && !s.timeExpired && n < s.timeLeft
    ensures Ticks(s, n) == s.(timeLeft := s.timeLeft - n)
    decreases n
  {
    if n > 0 {
      TicksCountDown(Tick(s), n - 1);
    }
  }

  /** Nothing moves once the timer has expired or is paused. */
  lemma {:induction false} TicksStopped(s: FlowState, n: nat)
    requires !s.timerActive || s.timeExpired
    ensures Ticks(s, n) == s
    decreases n
  {
    if n > 0 {
      TicksStopped(Tick(s), n - 1);
    }
  }

  /** A running timer with `t >= 1` seconds left expires after exactly `t`
      ticks, and stays at 0 however many further ticks arrive. */
  lemma TicksExpire(s: FlowState, extra: nat)
    requires s.timerActive && !s.timeExpired && s.timeLeft >= 1
    ensures !Ticks(s, s.timeLeft - 1).timeExpired
    ensures Ticks(s, s.timeLeft) == s.(timeLeft := 0, timeExpired := true, timerActive := false)
    ensures Ticks(s, s.timeLeft + extra) == Ticks(s, s.timeLeft)
  {
    var t: nat := s.timeLeft;
    TicksCountDown(s, t - 1);
    var before := Ticks(s, t - 1);
    assert Ticks(s, t) == Tick(before) by { TicksSplit(s, t - 1, 1); }
    TicksSplit(s, t, extra);
    TicksStopped(Ticks(s, t), extra);
  }

  lemma {:induction false} TicksSplit(s: FlowState, m: nat, n: nat)
    ensures Ticks(s, m + n) == Ticks(Ticks(s, m), n)
    decreases m
  {
    if m > 0 {
      TicksSplit(Tick(s), m - 1, n);
    }
  }

  /** From a fresh dialog, entering the assessment and waiting 180 seconds
      locks the answers; after 179 seconds they are still open. */
  lemma AssessmentLastsThreeMinutes(s: FlowState)
    ensures var running := StartBehavioural(Reset(s));
      && !Ticks(running, 179).timeExpired && Ticks(running, 179).timeLeft == 1
      && Ticks(running, 180).timeExpired && Ticks(running, 180).timeLeft == 0
  {
    var running := StartBehavioural(Reset(s));
    TicksExpire(running, 0);
    TicksCountDown(running, 179);
  }

  /** `handleAnswerChange`: ignored after expiry, otherwise overwrites the one
      slot. The textareas only pass indices of the (at most three) shown
      questions, so `index` is within the answers. */
  function AnswerChange(s: FlowState, index: nat, value: string): (r: FlowState)
    requires index < |s.answers|
    ensures s.timeExpired ==> r == s
    ensures !s.timeExpired ==> |r.answers| == |s.answers| && r.answers[index] == value
    ensures forall k :: 0 <= k < |s.answers| && k != index ==> r.answers[k] == s.answers[k]
    ensures r.(answers := s.answers) == s
    ensures Valid(s) ==> Valid(r)
  {
    if s.timeExpired then s else s.(answers := s.answers[index := value])
  }

  /** "Continue to Assessment": enters the behavioural step and (re)starts the
      timer with whatever time is left. */
  function StartBehavioural(s: FlowState): (r: FlowState)
    ensures r.step == Behavioural && r.timerActive
    ensures r.timeLeft == s.timeLeft && r.timeExpired == s.timeExpired && r.answers == s.answers
    ensures Valid(s) ==> Valid(r)
  {
    s.(step := Behavioural, timerActive := true)
  }

  /** "Back" from the assessment: pauses the timer without touching the
      remaining time. */
  function BackToAnalysis(s: FlowState): (r: FlowState)
    ensures r.step == Analysis && !r.timerActive
    ensures r.timeLeft == s.timeLeft && r.timeExpired == s.timeExpired && r.answers == s.answers
    ensures Valid(s) ==> Valid(r)
  {
    s.(timerActive := false, step := Analysis)
  }

  /** "Back" from the analysis review: only the step changes. */
  function BackToUpload(s: FlowState): (r: FlowState)
    ensures r.step == Upload && r.(step := s.step) == s
    ensures Valid(s) ==> Valid(r)
  {
    s.(step := Upload)
  }

  /** Pausing and continuing is invisible: the running assessment comes back
      exactly as it was, and no time passes while paused. */
  lemma PauseResume(s: FlowState, n: nat)
    requires s.step == Behavioural && s.timerActive
    ensures StartBehavioural(BackToAnalysis(s)) == s
    ensures Ticks(BackToAnalysis(s), n) == BackToAnalysis(s)
  {
    TicksStopped(BackToAnalysis(s), n);
  }

  /** The three MIME types the upload accepts. */
  const ValidTypes: seq<string> := [
    "application/pdf",
    "application/msword",
    "application/vnd.openxmlformats-officedocument.wordprocessingml.document"
  ]

  /** The acceptance test of `handleFileUpload`: a listed MIME type, or a
      name ending (case-sensitively) in .pdf, .docx or .doc. */
  function AcceptsFile(f: FileInfo): (r: bool)
    ensures r <==> f.mimeType in ValidTypes
                   || (exists p: string :: f.name == p + ".pdf")
                   || (exists p: string :: f.name == p + ".docx")
                   || (exists p: string :: f.name == p + ".doc")
  {
    EndsWithSplit(f.name, ".pdf");
    EndsWithSplit(f.name, ".docx");
    EndsWithSplit(f.name, ".doc");
    f.mimeType in ValidTypes || EndsWith(f.name, ".pdf") || EndsWith(f.name, ".docx") || EndsWith(f.name, ".doc")
  }

  /** The extension test is case-sensitive: an upper-case ".PDF" with an
      unlisted type is refused, while the same name with the PDF type or a
      lower-case extension is taken. */
  lemma AcceptsFileCaseSensitive()
    ensures !AcceptsFile(FileInfo("CV.PDF", "application/octet-stream"))
    ensures AcceptsFile(FileInfo("CV.PDF", "application/pdf"))
    ensures AcceptsFile(FileInfo("cv.pdf", ""))
  {
    assert !EndsWith("CV.PDF", ".pdf") by { assert "CV.PDF"[2..] != ".pdf"; }
    assert !EndsWith("CV.PDF", ".docx");
    assert !EndsWith("CV.PDF", ".doc") by { assert "CV.PDF"[2..] != ".doc"; }
    assert "application/octet-stream" != ValidTypes[0];
    assert "application/octet-stream" != ValidTypes[1];
    assert "application/octet-stream" != ValidTypes[2] by {
      assert |"application/octet-stream"| != |ValidTypes[2]|;
    }
    assert ValidTypes[0] == "application/pdf";
    assert "cv.pdf"[2..] == ".pdf";
  }

  /** `handleFileUpload`: no file picked changes nothing; an accepted file
      replaces the current one; a refused file leaves it. */
  function FileUpload(s: FlowState, picked: Option<FileInfo>): (r: FlowState)
    ensures r.(file := s.file) == s
    ensures r.file != s.file ==> picked.Some? && AcceptsFile(picked.value) && r.file == picked
    ensures picked.Some? && AcceptsFile(picked.value) ==> r.file == picked
    ensures Valid(s) ==> Valid(r)
  {
    match picked
    case None => s
    case Some(f) => if AcceptsFile(f) then s.(file := Some(f)) else s
  }

  /** `handleAnalyzeResume`, with the analyser's outcome as a parameter
      (`None` when it throws). */
  function AnalyzeResume(s: FlowState, outcome: Option<ResumeAnalysis>): (r: FlowState)
    ensures s.file.None? || outcome.None? ==> r == s
    ensures s.file.Some? && outcome.Some? ==> r == s.(analysis := outcome, step := Analysis)
    ensures Valid(s) ==> Valid(r)
  {
    if s.file.None? then s
    else match outcome
      case None => s
      case Some(a) => s.(analysis := Some(a), step := Analysis)
  }

  /** `handleSubmit`. Without job, user or file nothing happens. A successful
      submission closes the dialog, which resets it; a failed one returns
      to the assessment with answers and timer untouched. */
  function Submit(s: FlowState, hasJob: bool, hasUser: bool, succeeded: bool): (r: FlowState)
    ensures !(hasJob && hasUser && s.file.Some?) ==> r == s
    ensures hasJob && hasUser && s.file.Some? && succeeded ==> r == Initial
    ensures hasJob && hasUser && s.file.Some? && !succeeded ==>
      r.step == Behavioural && r.(step := s.step) == s
    ensures Valid(s) ==> Valid(r)
  {
    if !(hasJob && hasUser && s.file.Some?) then s
    else if succeeded then Reset(s)
    else s.(step := Behavioural)
  }

  /** Everything that can happen to the dialog. */
  datatype Event =
    | Close
    | TickEvent
    | EditAnswer(index: nat, value: string)
    | Continue
    | BackFromAssessment
    | BackFromAnalysis
    | PickFile(picked: Option<FileInfo>)
    | Analyze(outcome: Option<ResumeAnalysis>)
    | SubmitEvent(hasJob: bool, hasUser: bool, succeeded: bool)

  function Apply(s: FlowState, e: Event): (r: FlowState)
    requires Valid(s)
    ensures Valid(r)
  {
    match e
    case Close => Reset(s)
    case TickEvent => Tick(s)
    case EditAnswer(i, v) => if i < |s.answers| then AnswerChange(s, i, v) else s
    case Continue => StartBehavioural(s)
    case BackFromAssessment => BackToAnalysis(s)
    case BackFromAnalysis => BackToUpload(s)
    case PickFile(f) => FileUpload(s, f)
    case Analyze(o) => AnalyzeResume(s, o)
    case SubmitEvent(j, u, ok) => Submit(s, j, u, ok)
  }

  function Run(s: FlowState, events: seq<Event>): FlowState
    requires Valid(s)
    decreases |events|
  {
    if events == [] then s else Run(Apply(s, events[0]), events[1..])
  }

  /** Every state reachable from a valid one is valid: the countdown is
      never negative and never above 180. */
  lemma {:induction false} RunKeepsValid(s: FlowState, events: seq<Event>)
    requires Valid(s)
    ensures Valid(Run(s, events))
    decreases |events|
  {
    if events != [] {
      RunKeepsValid(Apply(s, events[0]), events[1..]);
    }
  }

  /** Once expired, the answers are frozen and the timer stays expired until
      the dialog resets (by closing or by a successful submission). */
  lemma {:induction false} ExpiredAnswersFrozen(s: FlowState, events: seq<Event>)
    requires Valid(s) && s.timeExpired
    requires forall k :: 0 <= k < |events| ==> events[k] != Close && !(events[k].SubmitEvent? && events[k].succeeded)
    ensures Run(s, events).answers == s.answers && Run(s, events).timeExpired
    decreases |events|
  {
    if events != [] {
      ExpiredAnswersFrozen(Apply(s, events[0]), events[1..]);
    }
  }

  // ---------------------------------------------------------------- mm:ss

  function Repeat(c: char, n: nat): (r: string)
    ensures |r| == n && forall k :: 0 <= k < n ==> r[k] == c
  {
    if n == 0 then [] else [c] + Repeat(c, n - 1)
  }

  /** `s.padStart(n, c)` for a one-character pad. */
  function PadStart(s: string, n: nat, c: char): (r: string)
    ensures |r| == if |s| >= n then |s| else n
    ensures r[|r| - |s|..] == s
    ensures forall k :: 0 <= k < |r| - |s| ==> r[k] == c
  {
    if |s| >= n then s else Repeat(c, n - |s|) + s
  }

  /** Leading zeros do not change a digit string's value. */
  lemma {:induction false} ParseLeadingZeros(z: string, s: string)
    requires forall k :: 0 <= k < |z| ==> z[k] == '0'
    requires AllDigits(s)
    ensures ParseDigits(z + s) == ParseDigits(s)
    decreases |s|, |z|
  {
    if s == [] {
      assert z + s == z;
      if z != [] {
        ParseLeadingZeros(z[..|z| - 1], []);
        assert z[..|z| - 1] + [] == z[..|z| - 1];
      }
    } else {
      assert (z + s)[..|z + s| - 1] == z + s[..|s| - 1];
      ParseLeadingZeros(z, s[..|s| - 1]);
    }
  }

  /** A number rendered with `padStart(2, '0')`: digits only, at least two
      of them, exactly two below 100, reading back as the number. */
  function TwoDigits(n: nat): (r: string)
    ensures |r| >= 2 && (n < 100 <==> |r| == 2)
    ensures AllDigits(r) && ParseDigits(r) == n
  {
    var t := NatToString(n);
    assert n < 100 <==> |t| <= 2 by {
      if n < 100 { NatToStringLength(n, 2); } else { NatToStringAtLeast(n); }
    }
    ParseNatToString(n);
    if n < 10 then ParseLeadingZeros("0", t); "0" + t else t
  }

  /** `TwoDigits` is the two-character zero padding of the decimal form. */
  lemma TwoDigitsIsPadStart(n: nat)
    ensures TwoDigits(n) == PadStart(NatToString(n), 2, '0')
  {
  }

  lemma NatToStringAtLeast(n: nat)
    requires n >= 100
    ensures |NatToString(n)| >= 3
  {
    assert NatToString(n) == NatToString(n / 10) + [DigitChar(n % 10)];
  }

  /** "m:s" for two strings of at least two characters each. */
  function JoinTime(m: string, s: string): (r: string)
    requires |m| >= 2 && |s| >= 2
    ensures |r| == |m| + 1 + |s| && r[|m|] == ':'
    ensures r[..|m|] == m && r[|m| + 1..] == s
  {
    m + ":" + s
  }

  lemma MinutesSeconds(seconds: nat)
    ensures seconds == (seconds / 60) * 60 + seconds % 60 && seconds % 60 < 60
    ensures seconds < 6000 <==> seconds / 60 < 100
  {
  }

  /** `formatTime`: minutes and seconds, each at least two digits, joined by
      a colon. */
  function FormatTime(seconds: nat): (r: string)
    ensures |r| >= 5 && r[|r| - 3] == ':'
    ensures AllDigits(r[..|r| - 3]) && AllDigits(r[|r| - 2..])
    ensures seconds < 6000 <==> |r| == 5
  {
    var m, s := TwoDigits(seconds / 60), TwoDigits(seconds % 60);
    assert |s| == 2 by { assert seconds % 60 < 100; }
    MinutesSeconds(seconds);
    JoinTime(m, s)
  }

  /** The display reads back as the input: the whole minutes, then the
      remaining seconds below 60, so minutes times 60 plus seconds. */
  lemma FormatTimeReadsBack(seconds: nat)
    ensures var r := FormatTime(seconds);
      ParseDigits(r[..|r| - 3]) * 60 + ParseDigits(r[|r| - 2..]) == seconds
    ensures var r := FormatTime(seconds);
      ParseDigits(r[..|r| - 3]) == seconds / 60 && ParseDigits(r[|r| - 2..]) == seconds % 60
      && ParseDigits(r[|r| - 2..]) < 60
  {
    var m, s := TwoDigits(seconds / 60), TwoDigits(seconds % 60);
    assert |s| == 2 by { assert seconds % 60 < 100; }
    MinutesSeconds(seconds);
    var r := JoinTime(m, s);
    assert r == FormatTime(seconds);
    assert r[..|r| - 3] == m && r[|r| - 2..] == s;
  }

  /** The full three minutes show as "03:00" and the last second as "00:01". */
  lemma FormatTimeExamples()
    ensures FormatTime(180) == "03:00"
    ensures FormatTime(1) == "00:01"
  {
  }
}

=== FILE: application_timeline.dfy ===
/** The candidate's application timeline: five steps whose last two follow
    the applicant's status. */
module ApplicationTimeline {
  import opened Base
  import opened Types

  datatype StepStatus = Completed | Current | Pending

  datatype TimelineStep = TimelineStep(id: string, caption: string, status: StepStatus, timestamp: Option<string>)

  /** `getSteps`: four fixed steps, then the decision step. */
  function Steps(a: Applicant): (r: seq<TimelineStep>)
    ensures |r| == 5
    ensures r[0].status == Completed && r[1].status == Completed && r[2].status == Completed
    ensures r[0].timestamp == Some(a.appliedAt)
    ensures forall i :: 1 <= i < 5 ==> r[i].timestamp.None?
    ensures r[3].status == Current <==> a.status == UnderReview
    ensures r[3].status == Completed <==> a.status != UnderReview
    ensures a.status == Shortlisted ==> r[4] == TimelineStep("shortlisted", "Shortlisted", Completed, None)
    ensures a.status == Rejected ==> r[4] == TimelineStep("decision", "Not Selected", Completed, None)
    ensures a.status == UnderReview ==> r[4] == TimelineStep("decision", "Final Decision", Pending, None)
  {
    var base := [
      TimelineStep("applied", "Application Submitted", Completed, Some(a.appliedAt)),
      TimelineStep("resume", "Resume Analyzed", Completed, None),
      TimelineStep("behavioural", "Behavioural Assessment", Completed, None),
      TimelineStep("review", "Under Review", if a.status == UnderReview then Current else Completed, None)];
    match a.status
    case Shortlisted => base + [TimelineStep("shortlisted", "Shortlisted", Completed, None)]
    case Rejected => base + [TimelineStep("decision", "Not Selected", Completed, None)]
    case UnderReview => base + [TimelineStep("decision", "Final Decision", Pending, None)]
  }

  predicate HasStatus(steps: seq<TimelineStep>, st: StepStatus) {
    exists i :: 0 <= i < |steps| && steps[i].status == st
  }

  /** Every status yields five steps with pairwise distinct ids. */
  lemma StepIdsDistinct(a: Applicant)
    ensures forall i, j :: 0 <= i < j < |Steps(a)| ==> Steps(a)[i].id != Steps(a)[j].id
  {
    var r := Steps(a);
    assert r[0].id[0] == 'a' && r[1].id[0] == 'r' && r[2].id[0] == 'b' && r[3].id[0] == 'r';
    assert r[1].id[1] == 'e' && r[3].id[1] == 'e' && r[1].id[2] == 's' && r[3].id[2] == 'v';
    assert r[4].id[0] == 's' || r[4].id[0] == 'd';
  }

  /** A pending step, a current step and an undecided status go together. */
  lemma PendingIffCurrentIffUndecided(a: Applicant)
    ensures HasStatus(Steps(a), Pending) <==> a.status == UnderReview
    ensures HasStatus(Steps(a), Current) <==> a.status == UnderReview
  {
    var r := Steps(a);
    if a.status == UnderReview {
      assert r[4].status == Pending && r[3].status == Current;
    } else {
      forall i | 0 <= i < |r| ensures r[i].status == Completed {
      }
    }
  }

  /** A decided applicant's timeline is complete; for the status that a
      recruiter's decision sets, every step is completed. */
  lemma DecisionCompletesTimeline(a: Applicant, d: Decision)
    ensures var r := Steps(a.(status := d));
      forall i :: 0 <= i < |r| ==> r[i].status == Completed
  {
  }

  /** The status changes only the last two steps. */
  lemma StatusOnlyChangesLastSteps(a: Applicant, st: Status)
    ensures Steps(a)[..3] == Steps(a.(status := st))[..3]
  {
  }
}

=== FILE: auth.dfy ===
/** The field checks of the mock authentication API. No credential is
    verified: any email with a password of at least four UTF-16 code units
    logs in. The generated user id and the clock reading are parameters. */
module Auth {
  import opened Base
  import opened Types
  import opened Digits

  const FillAllFields: string := "Please fill all fields"
  const InvalidCredentials: string := "Invalid credentials"
  const PasswordTooShort: string := "Password must be at least 4 characters"
  const AccountCreated: string := "Account created successfully"
  const TokenPrefix: string := "simulated_jwt_token_"

  /** `s.split(c)[0]`: the part of `s` before the first `c`, or all of `s`. */
  function Before(s: string, c: char): (r: string)
    ensures |r| <= |s| && r == s[..|r|]
    ensures forall k :: 0 <= k < |r| ==> r[k] != c
    ensures |r| < |s| ==> s[|r|] == c
  {
    if s == [] || s[0] == c then [] else [s[0]] + Before(s[1..], c)
  }

  /** `authAPI.login`. The role check of the source can never fail, because
      a role is always one of the two values. The password length is the
      JavaScript one, in UTF-16 code units. */
  function Login(req: LoginRequest, userId: string, now: nat): (r: LoginResponse)
    ensures r.success <==> req.email != [] && Utf16Length(req.password) >= 4
    ensures (req.email == [] || req.password == []) ==> r == LoginResponse(false, None, None, Some(FillAllFields))
    ensures req.email != [] && 0 < Utf16Length(req.password) < 4 ==> r == LoginResponse(false, None, None, Some(InvalidCredentials))
    ensures r.success ==> r.message.None? && r.user.Some? && r.token.Some?
    ensures r.success ==> var u := r.user.value;
      u.id == userId && u.email == req.email && u.role == req.role && u.name == Before(req.email, '@')
  {
    if req.email == [] || req.password == [] then LoginResponse(false, None, None, Some(FillAllFields))
    else if Utf16Length(req.password) < 4 then LoginResponse(false, None, None, Some(InvalidCredentials))
    else
      LoginResponse(true, Some(User(userId, Before(req.email, '@'), req.email, req.role)),
                    Some(TokenPrefix + NatToString(now)), None)
  }

  /** `authAPI.signup`: the login checks plus a non-empty name, with the
      password again measured in UTF-16 code units. Nothing is stored. */
  function Signup(req: SignupRequest): (r: LoginResponse)
    ensures r.user.None? && r.token.None? && r.message.Some?
    ensures r.success <==> req.name != [] && req.email != [] && Utf16Length(req.password) >= 4
    ensures req.name != [] && req.email != [] && 0 < Utf16Length(req.password) < 4 ==> r.message.value == PasswordTooShort
    ensures r.success ==> r.message.value == AccountCreated
    ensures !r.success ==> r.message.value in {FillAllFields, PasswordTooShort}
  {
    if req.name == [] || req.email == [] || req.password == [] then LoginResponse(false, None, None, Some(FillAllFields))
    else if Utf16Length(req.password) < 4 then LoginResponse(false, None, None, Some(PasswordTooShort))
    else LoginResponse(true, None, None, Some(AccountCreated))
  }

  /** Signup accepts exactly the requests whose login would be accepted and
      that also carry a name, and both reject on the same empty fields. */
  lemma SignupIsLoginPlusName(req: SignupRequest, userId: string, now: nat)
    ensures var login := Login(LoginRequest(req.email, req.password, req.role), userId, now);
      && (Signup(req).success <==> req.name != [] && login.success)
      && (login.message == Some(FillAllFields) ==> Signup(req).message == Some(FillAllFields))
  {
  }

  /** The derived user name is the email's local part: when the email holds
      an '@', the name, the '@' and the remainder rebuild it. */
  lemma LoginNameIsLocalPart(req: LoginRequest, userId: string, now: nat)
    requires Login(req, userId, now).success
    ensures var name := Login(req, userId, now).user.value.name;
      && '@' !in name
      && ('@' in req.email ==> req.email == name + "@" + req.email[|name| + 1..])
      && ('@' !in req.email ==> name == req.email)
  {
    var name := Before(req.email, '@');
    if '@' in req.email {
      assert req.email == req.email[..|name|] + [req.email[|name|]] + req.email[|name| + 1..];
    }
  }

  /** The token carries the clock reading, which can be read back from it. */
  lemma LoginTokenCarriesTime(req: LoginRequest, userId: string, now: nat)
    requires Login(req, userId, now).success
    ensures var t := Login(req, userId, now).token.value;
      |t| > |TokenPrefix| && t[..|TokenPrefix|] == TokenPrefix
      && (forall k :: |TokenPrefix| <= k < |t| ==> IsDigit(t[k]))
      && ParseDigits(t[|TokenPrefix|..]) == now
  {
    var t := TokenPrefix + NatToString(now);
    assert t[|TokenPrefix|..] == NatToString(now);
    ParseNatToString(now);
  }

  /** Two characters beyond U+FFFF, an emoji pair say, already make a valid
      password, since JavaScript counts four code units in them. */
  lemma TwoAstralCharactersSuffice(email: string, role: Role, userId: string, now: nat)
    requires email != []
    ensures Login(LoginRequest(email, "\U{1F600}\U{1F600}", role), userId, now).success
  {
    Utf16LengthCases("\U{1F600}\U{1F600}");
  }
}

=== FILE: base.dfy ===
/** Shared vocabulary of the model: an optional value, the exact rounding that
    stands in for JavaScript's `Math.round` of a quotient, and a few facts about
    integer multiplication that the rounding lemmas lean on. */
module Base {

  /** A value that may be absent: an optional field of a record, a failed
      parse, or the `undefined` that `Array.prototype.find` returns. */
  datatype Option<+T> = None | Some(value: T) {

    /** The value when present, otherwise the given default. */
    function GetOr(default: T): T {
      match this
      case Some(v) => v
      case None => default
    }
  }

  /** JavaScript truthiness of an optional number: present and non-zero.
      (NaN is falsy too; the model represents a NaN score as `None`.) */
  predicate Truthy(x: Option<int>) {
    x.Some? && x.value != 0
  }

  /** `x || fallback` for an optional number. */
  function OrElse(x: Option<int>, fallback: int): (r: int)
    ensures Truthy(x) ==> r == x.value
    ensures !Truthy(x) ==> r == fallback
  {
    if Truthy(x) then x.value else fallback
  }

  /** `Math.round(n / d)` for a positive divisor: the integer nearest to n/d,
      halves rounded up. Dafny's `/` floors for a positive divisor, so this is
      floor(n/d + 1/2) for every integer n. */
  function RoundDiv(n: int, d: int): (r: int)
    requires d > 0
    ensures d * (2 * r - 1) <= 2 * n < d * (2 * r + 1)
  {
    var q := (2 * n + d) / (2 * d);
    var m := (2 * n + d) % (2 * d);
    assert 2 * n + d == q * (2 * d) + m && 0 <= m < 2 * d;
    assert d * (2 * q - 1) == q * (2 * d) - d;
    assert d * (2 * q + 1) == q * (2 * d) + d;
    q
  }

  /** `Math.round(n / d)` for any non-zero divisor. */
  function RoundQuot(n: int, d: int): (r: int)
    requires d != 0
    ensures d > 0 ==> r == RoundDiv(n, d)
    ensures d < 0 ==> r == RoundDiv(-n, -d)
  {
    if d > 0 then RoundDiv(n, d) else RoundDiv(-n, -d)
  }

  lemma MulLeftMono(d: int, a: int, b: int)
    requires d >= 0 && a <= b
    ensures d * a <= d * b
  {
    assert d * b - d * a == d * (b - a);
  }

  lemma MulLeftStrict(d: int, a: int, b: int)
    requires d > 0 && d * a < d * b
    ensures a < b
  {
    if a >= b {
      MulLeftMono(d, b, a);
    }
  }

  /** The bracketing in `RoundDiv`'s contract determines its result. */
  lemma RoundDivUnique(n: int, d: int, r: int)
    requires d > 0
    requires d * (2 * r - 1) <= 2 * n < d * (2 * r + 1)
    ensures RoundDiv(n, d) == r
  {
    var q := RoundDiv(n, d);
    MulLeftStrict(d, 2 * r - 1, 2 * q + 1);
    MulLeftStrict(d, 2 * q - 1, 2 * r + 1);
  }

  /** Rounding an exact quotient gives the quotient. */
  lemma RoundDivExact(q: int, d: int)
    requires d > 0
    ensures RoundDiv(q * d, d) == q
  {
    assert d * (2 * q - 1) == 2 * (q * d) - d;
    assert d * (2 * q + 1) == 2 * (q * d) + d;
    RoundDivUnique(q * d, d, q);
  }

  /** A larger numerator never rounds to a smaller integer. */
  lemma RoundDivMono(n1: int, n2: int, d: int)
    requires d > 0 && n1 <= n2
    ensures RoundDiv(n1, d) <= RoundDiv(n2, d)
  {
    var r1, r2 := RoundDiv(n1, d), RoundDiv(n2, d);
    MulLeftStrict(d, 2 * r1 - 1, 2 * r2 + 1);
  }

  /** If n/d lies in [lo, hi], so does its rounding. */
  lemma RoundDivBounds(n: int, d: int, lo: int, hi: int)
    requires d > 0
    requires d * lo <= n <= d * hi
    ensures lo <= RoundDiv(n, d) <= hi
  {
    var r := RoundDiv(n, d);
    assert d * (2 * lo - 1) == 2 * (d * lo) - d;
    assert d * (2 * hi + 1) == 2 * (d * hi) + d;
    MulLeftStrict(d, 2 * lo - 1, 2 * r + 1);
    MulLeftStrict(d, 2 * r - 1, 2 * hi + 1);
  }

  /** Scaling numerator and divisor by the same positive factor does not
      change the rounded quotient. */
  lemma RoundDivScale(n: int, d: int, k: int)
    requires d > 0 && k > 0
    ensures RoundDiv(k * n, k * d) == RoundDiv(n, d)
  {
    var r := RoundDiv(n, d);
    MulLeftMono(k, d * (2 * r - 1), 2 * n);
    MulLeftMono(k, 2 * n, d * (2 * r + 1) - 1);
    assert k * (d * (2 * r - 1)) == (k * d) * (2 * r - 1);
    assert k * (d * (2 * r + 1) - 1) == (k * d) * (2 * r + 1) - k;
    assert k * (2 * n) == 2 * (k * n);
    RoundDivUnique(k * n, k * d, r);
  }
  /** `reduce((sum, x) => sum + x, 0)`, folding from the left. */
  function Sum(xs: seq<int>): int {
    if xs == [] then 0 else Sum(xs[..|xs| - 1]) + xs[|xs| - 1]
  }

  /** `Math.round(sum / length)` of a non-empty list. */
  function Mean(xs: seq<int>): int
    requires |xs| > 0
  {
    RoundDiv(Sum(xs), |xs|)
  }

  /** `RoundDivScale` for a divisor of either sign. */
  lemma RoundQuotScale(n: int, d: int, k: int)
    requires d != 0 && k > 0
    ensures RoundQuot(k * n, k * d) == RoundQuot(n, d)
  {
    if d > 0 {
      MulLeftStrict(k, 0, d);
      RoundDivScale(n, d, k);
    } else {
      assert -(k * n) == k * (-n) && -(k * d) == k * (-d);
      RoundDivScale(-n, -d, k);
    }
  }

  /** A sum of values in [lo, hi] lies between length * lo and length * hi. */
  lemma {:induction false} SumBounds(xs: seq<int>, lo: int, hi: int)
    requires forall i :: 0 <= i < |xs| ==> lo <= xs[i] <= hi
    ensures |xs| * lo <= Sum(xs) <= |xs| * hi
  {
    if xs != [] {
      var init := xs[..|xs| - 1];
      assert forall i :: 0 <= i < |init| ==> init[i] == xs[i];
      SumBounds(init, lo, hi);
      assert |xs| * lo == |init| * lo + lo;
      assert |xs| * hi == |init| * hi + hi;
    }
  }

  /** The rounded mean of values in [lo, hi] lies in [lo, hi]. */
  lemma MeanBetween(xs: seq<int>, lo: int, hi: int)
    requires |xs| > 0
    requires forall i :: 0 <= i < |xs| ==> lo <= xs[i] <= hi
    ensures lo <= Mean(xs) <= hi
  {
    SumBounds(xs, lo, hi);
    RoundDivBounds(Sum(xs), |xs|, lo, hi);
  }

  /** The rounded mean of equal values is that value. */
  lemma MeanOfEqual(xs: seq<int>, v: int)
    requires |xs| > 0
    requires forall i :: 0 <= i < |xs| ==> xs[i] == v
    ensures Mean(xs) == v
  {
    SumBounds(xs, v, v);
    assert Sum(xs) == v * |xs|;
    RoundDivExact(v, |xs|);
  }

  /** The sum of a concatenation is the sum of the parts. */
  lemma {:induction false} SumConcat(a: seq<int>, b: seq<int>)
    ensures Sum(a + b) == Sum(a) + Sum(b)
  {
    if b == [] {
      assert a + b == a;
    } else {
      assert (a + b)[..|a + b| - 1] == a + b[..|b| - 1];
      SumConcat(a, b[..|b| - 1]);
    }
  }

  /** The length JavaScript reports for a string: its number of UTF-16 code
      units, in which a character beyond U+FFFF takes two. */
  function Utf16Length(s: string): (n: nat)
    ensures |s| <= n <= 2 * |s|
    ensures n == 0 <==> s == []
  {
    if s == [] then 0 else (if s[0] as int >= 0x1_0000 then 2 else 1) + Utf16Length(s[1..])
  }

  /** Only characters beyond U+FFFF make the two lengths differ: a string of
      such characters has twice as many code units as characters, and a
      string without any has exactly as many. */
  lemma {:induction false} Utf16LengthCases(s: string)
    ensures (forall k :: 0 <= k < |s| ==> s[k] as int >= 0x1_0000) ==> Utf16Length(s) == 2 * |s|
    ensures (forall k :: 0 <= k < |s| ==> s[k] as int < 0x1_0000) ==> Utf16Length(s) == |s|
  {
    if s != [] {
      Utf16LengthCases(s[1..]);
      assert forall k :: 0 <= k < |s[1..]| ==> s[1..][k] == s[k + 1];
    }
  }
}

=== FILE: candidate_dashboard.dfy ===
/** The candidate's dashboard: application counts, the status chart, the
    de-duplicated skills profile, the applied badge, and the fit score shown
    in the applications table. */
module CandidateDashboard {
  import opened Base
  import opened Types
  import opened Seqs
  import opened Charts
  import Store
  import ApplicantsDialog

  type Application = Store.Application

  function ApplicantsOf(apps: seq<Application>): (r: seq<Applicant>)
    ensures |r| == |apps| && forall i :: 0 <= i < |apps| ==> r[i] == apps[i].applicant
  {
    seq(|apps|, i requires 0 <= i < |apps| => apps[i].applicant)
  }

  /** The `reduce` over the applications: one per row, plus one per
      shortlisted and per rejected applicant. */
  function Stats(apps: seq<Application>): (r: ApplicationStats)
    ensures r.applied == |apps|
    ensures r.shortlisted == CountStatus(ApplicantsOf(apps), Shortlisted)
    ensures r.rejected == CountStatus(ApplicantsOf(apps), Rejected)
  {
    if apps == [] then ApplicationStats(0, 0, 0)
    else
      var acc := Stats(apps[..|apps| - 1]);
      var a := apps[|apps| - 1].applicant;
      assert ApplicantsOf(apps)[..|apps| - 1] == ApplicantsOf(apps[..|apps| - 1]);
      ApplicationStats(acc.applied + 1,
                       acc.shortlisted + (if a.status == Shortlisted then 1 else 0),
                       acc.rejected + (if a.status == Rejected then 1 else 0))
  }

  /** The Under Review slice, `applied - shortlisted - rejected`, is exactly
      the number of undecided applications, so it is never negative. */
  lemma UnderReviewSlice(apps: seq<Application>)
    ensures var st := Stats(apps);
      st.shortlisted + st.rejected <= st.applied
      && st.applied - st.shortlisted - st.rejected == CountStatus(ApplicantsOf(apps), UnderReview)
  {
    StatusPartition(ApplicantsOf(apps));
  }

  /** `chartData`: the non-empty status slices, in the fixed order. */
  function ChartData(st: ApplicationStats): (r: seq<Slice>)
    ensures forall i :: 0 <= i < |r| ==> r[i].value > 0
    ensures IsSubseq(r, StatusSlices(st.applied - st.shortlisted - st.rejected, st.shortlisted, st.rejected))
  {
    Positive(StatusSlices(st.applied - st.shortlisted - st.rejected, st.shortlisted, st.rejected))
  }

  /** The chart shows a status exactly when the candidate has an application
      with that status. */
  lemma ChartShowsStatusesPresent(apps: seq<Application>)
    ensures var st := Stats(apps);
      var r := ChartData(st);
      && (Slice(UnderReview, CountStatus(ApplicantsOf(apps), UnderReview)) in r <==>
          CountStatus(ApplicantsOf(apps), UnderReview) > 0)
      && (Slice(Shortlisted, st.shortlisted) in r <==> st.shortlisted > 0)
      && (Slice(Rejected, st.rejected) in r <==> st.rejected > 0)
  {
    var st := Stats(apps);
    var u := CountStatus(ApplicantsOf(apps), UnderReview);
    UnderReviewSlice(apps);
    assert ChartData(st) == Positive(StatusSlices(u, st.shortlisted, st.rejected));
    PositiveStatusSlices(u, st.shortlisted, st.rejected);
  }

  // ------------------------------------------------------------ skills

  /** `extractedSkills || []` over all applications, concatenated. */
  function AllSkills(apps: seq<Application>): (r: seq<ExtractedSkill>)
  {
    if apps == [] then []
    else AllSkills(apps[..|apps| - 1]) + apps[|apps| - 1].applicant.extractedSkills.GetOr([])
  }

  /** The first skill in `s` with the name, as `acc.find` looks it up. */
  function NameIndex(s: seq<ExtractedSkill>, name: string): (r: Option<nat>)
    ensures r.Some? ==> r.value < |s| && s[r.value].name == name
    ensures r.None? <==> forall k :: 0 <= k < |s| ==> s[k].name != name
  {
    FindIndex(s, (x: ExtractedSkill) => x.name == name)
  }

  /** `uniqueSkills`: a left fold that appends a skill unless one with the
      same name is already kept. Names are compared exactly, case included. */
  function UniqueSkills(s: seq<ExtractedSkill>): (r: seq<ExtractedSkill>)
    ensures |r| <= |s|
  {
    if s == [] then []
    else
      var acc := UniqueSkills(s[..|s| - 1]);
      if NameIndex(acc, s[|s| - 1].name).Some? then acc else acc + [s[|s| - 1]]
  }

  predicate DistinctNames(r: seq<ExtractedSkill>) {
    forall i, j :: 0 <= i < j < |r| ==> r[i].name != r[j].name
  }

  /** Every name of `s` is among the names of `r`. */
  predicate CoversNames(r: seq<ExtractedSkill>, s: seq<ExtractedSkill>) {
    forall k :: 0 <= k < |s| ==> NameIndex(r, s[k].name).Some?
  }

  /** Each element of `r` is the first skill of `s` with its name. */
  predicate FirstOccurrences(r: seq<ExtractedSkill>, s: seq<ExtractedSkill>) {
    forall i :: 0 <= i < |r| ==> NameIndex(s, r[i].name).Some? && s[NameIndex(s, r[i].name).value] == r[i]
  }

  /** The elements of `r` appear in the order of their first occurrence in `s`. */
  predicate FirstOccurrenceOrder(r: seq<ExtractedSkill>, s: seq<ExtractedSkill>)
    requires FirstOccurrences(r, s)
  {
    forall i, j :: 0 <= i < j < |r| ==> NameIndex(s, r[i].name).value < NameIndex(s, r[j].name).value
  }

  lemma NameIndexAppend(p: seq<ExtractedSkill>, x: ExtractedSkill, name: string)
    ensures NameIndex(p + [x], name) ==
      if NameIndex(p, name).Some? then NameIndex(p, name) else if x.name == name then Some(|p|) else None
  {
    FindIndexAppend(p, x, (y: ExtractedSkill) => y.name == name);
  }

  /** The unique skills have pairwise distinct names. */
  lemma {:induction false} UniqueSkillsDistinct(s: seq<ExtractedSkill>)
    ensures DistinctNames(UniqueSkills(s))
  {
    if s != [] {
      var p, x := s[..|s| - 1], s[|s| - 1];
      var acc := UniqueSkills(p);
      UniqueSkillsDistinct(p);
      if NameIndex(acc, x.name).None? {
        var r := acc + [x];
        forall i, j | 0 <= i < j < |r| ensures r[i].name != r[j].name {
          assert r[i] == acc[i];
          if j < |acc| { assert r[j] == acc[j]; }
        }
      }
    }
  }

  /** Every input skill name is kept. */
  lemma {:induction false} UniqueSkillsCover(s: seq<ExtractedSkill>)
    ensures CoversNames(UniqueSkills(s), s)
  {
    if s != [] {
      var p, x := s[..|s| - 1], s[|s| - 1];
      var acc := UniqueSkills(p);
      var r := UniqueSkills(s);
      UniqueSkillsCover(p);
      forall k | 0 <= k < |s| ensures NameIndex(r, s[k].name).Some? {
        if NameIndex(acc, x.name).None? { NameIndexAppend(acc, x, s[k].name); }
        if k < |p| { assert s[k] == p[k]; }
      }
    }
  }

  /** A name not kept from a prefix does not occur in it. */
  lemma NotKeptNotInPrefix(p: seq<ExtractedSkill>, name: string)
    requires NameIndex(UniqueSkills(p), name).None?
    ensures NameIndex(p, name).None?
  {
    UniqueSkillsCover(p);
    forall k | 0 <= k < |p| ensures p[k].name != name {
      assert NameIndex(UniqueSkills(p), p[k].name).Some?;
    }
  }

  /** Each kept skill is the first input skill with its name. */
  lemma {:induction false} UniqueSkillsFirst(s: seq<ExtractedSkill>)
    ensures FirstOccurrences(UniqueSkills(s), s)
  {
    if s != [] {
      var p, x := s[..|s| - 1], s[|s| - 1];
      assert s == p + [x];
      var acc := UniqueSkills(p);
      var r := UniqueSkills(s);
      UniqueSkillsFirst(p);
      forall i | 0 <= i < |acc|
        ensures NameIndex(s, acc[i].name) == NameIndex(p, acc[i].name)
        ensures s[NameIndex(s, acc[i].name).value] == acc[i]
      {
        NameIndexAppend(p, x, acc[i].name);
        assert s[NameIndex(p, acc[i].name).value] == p[NameIndex(p, acc[i].name).value];
      }
      if NameIndex(acc, x.name).None? {
        NotKeptNotInPrefix(p, x.name);
        NameIndexAppend(p, x, x.name);
        forall i | 0 <= i < |r|
          ensures NameIndex(s, r[i].name).Some? && s[NameIndex(s, r[i].name).value] == r[i]
        {
          if i < |acc| { assert r[i] == acc[i]; }
        }
      }
    }
  }

  /** The kept skills appear in the order of their first occurrences. */
  lemma {:induction false} UniqueSkillsOrder(s: seq<ExtractedSkill>)
    ensures FirstOccurrences(UniqueSkills(s), s) && FirstOccurrenceOrder(UniqueSkills(s), s)
  {
    UniqueSkillsFirst(s);
    if s != [] {
      var p, x := s[..|s| - 1], s[|s| - 1];
      assert s == p + [x];
      var acc := UniqueSkills(p);
      var r := UniqueSkills(s);
      UniqueSkillsOrder(p);
      forall i | 0 <= i < |acc|
        ensures NameIndex(s, acc[i].name) == NameIndex(p, acc[i].name)
      {
        NameIndexAppend(p, x, acc[i].name);
      }
      if NameIndex(acc, x.name).None? {
        NotKeptNotInPrefix(p, x.name);
        NameIndexAppend(p, x, x.name);
        forall i, j | 0 <= i < j < |r|
          ensures NameIndex(s, r[i].name).value < NameIndex(s, r[j].name).value
        {
          assert r[i] == acc[i];
          if j < |acc| { assert r[j] == acc[j]; }
        }
      }
    }
  }

  /** The skills profile shows at most the first eight unique skills. */
  function ProfileSkills(apps: seq<Application>): (r: seq<ExtractedSkill>)
    ensures |r| <= 8 && |r| <= |UniqueSkills(AllSkills(apps))|
    ensures var u := UniqueSkills(AllSkills(apps)); r == u[..|r|] && (|r| < 8 ==> r == u)
  {
    var u := UniqueSkills(AllSkills(apps));
    if |u| <= 8 then u else u[..8]
  }

  // ------------------------------------------------------ applied badge

  /** `isApplied`: some application row is for the job. */
  function IsApplied(apps: seq<Application>, jobId: string): (r: bool)
    ensures r <==> exists i :: 0 <= i < |apps| && apps[i].job.id == jobId
  {
    if apps == [] then false
    else
      assert forall i :: 1 <= i < |apps| ==> apps[i] == apps[1..][i - 1];
      apps[0].job.id == jobId || IsApplied(apps[1..], jobId)
  }

  /** On the rows the store returns, a job is marked applied exactly when
      some job with that id holds an applicant of the user. */
  lemma {:induction false} AppliedIffInStore(jobs: seq<Job>, userId: string, jobId: string)
    ensures IsApplied(Store.GetMyApplications(jobs, userId), jobId) <==>
      exists k :: 0 <= k < |jobs| && jobs[k].id == jobId && Store.UserIndex(jobs[k].applicants, userId).Some?
  {
    if jobs != [] {
      AppliedIffInStore(jobs[1..], userId, jobId);
      assert forall k :: 1 <= k < |jobs| ==> jobs[k] == jobs[1..][k - 1];
      var rest := Store.GetMyApplications(jobs[1..], userId);
      match Store.UserIndex(jobs[0].applicants, userId)
      case None =>
      case Some(m) =>
        var r := [Store.Application(jobs[0], jobs[0].applicants[m])] + rest;
        assert r[1..] == rest;
        assert IsApplied(r, jobId) == (jobs[0].id == jobId || IsApplied(rest, jobId));
    }
  }

  // ------------------------------------------------- displayed fit score

  /** The score shown in the applications table and the details gauge:
      `fitScore || resumeScore`. There is no weighted recomputation here. */
  function DisplayedFitScore(a: Applicant): (r: int)
    ensures Truthy(a.fitScore) ==> r == a.fitScore.value
    ensures !Truthy(a.fitScore) ==> r == a.resumeScore
  {
    OrElse(a.fitScore, a.resumeScore)
  }

  /** The candidate and the recruiter can see different numbers for the same
      application: with a stored 0 the candidate sees the resume score and
      the recruiter's dialog the recomputed fit. */
  lemma DisplayedDiffersFromFinal(a: Applicant)
    requires a.fitScore == Some(0) && a.resumeScore == 80 && a.behaviourScore == 60
    ensures DisplayedFitScore(a) == 80
    ensures ApplicantsDialog.FinalScore(Weights(50, 20), a) == Some(74)
  {
    ApplicantsDialog.StoredZeroIsRecomputed(a);
  }

  /** When both are defined and the stored score is truthy, the candidate's
      and the recruiter's numbers agree. */
  lemma DisplayedAgreesWhenStored(w: Weights, a: Applicant)
    requires Truthy(a.fitScore)
    ensures ApplicantsDialog.FinalScore(w, a) == Some(DisplayedFitScore(a))
  {
  }
}

=== FILE: charts.dfy ===
/** The status pie charts of both dashboards: one slice per status, in the
    fixed order Under Review, Shortlisted, Rejected, with empty slices
    dropped. */
module Charts {
  import opened Types
  import opened Seqs

  datatype Slice = Slice(status: Status, value: int)

  /** The three slices before filtering. */
  function StatusSlices(underReview: int, shortlisted: int, rejected: int): (r: seq<Slice>)
    ensures |r| == 3
    ensures r[0] == Slice(UnderReview, underReview) && r[1] == Slice(Shortlisted, shortlisted)
            && r[2] == Slice(Rejected, rejected)
  {
    [Slice(UnderReview, underReview), Slice(Shortlisted, shortlisted), Slice(Rejected, rejected)]
  }

  /** `.filter(d => d.value > 0)`: the positive slices, in their order. */
  function Positive(s: seq<Slice>): (r: seq<Slice>)
    ensures forall i :: 0 <= i < |r| ==> r[i].value > 0
    ensures IsSubseq(r, s)
    ensures forall i :: 0 <= i < |s| && s[i].value > 0 ==> s[i] in r
  {
    if s == [] then []
    else
      var rest := Positive(s[1..]);
      assert s == [s[0]] + s[1..];
      assert forall i :: 1 <= i < |s| ==> s[i] == s[1..][i - 1];
      if s[0].value > 0 then
        var r := [s[0]] + rest;
        assert r[1..] == rest;
        r
      else
        SubseqSkip(rest, s[0], s[1..]);
        rest
  }

  /** `Positive` keeps each positive slice as often as the input holds it,
      and no other slice. */
  lemma {:induction false} PositiveCounts(s: seq<Slice>)
    ensures forall x :: multiset(Positive(s))[x] == if x.value > 0 then multiset(s)[x] else 0
  {
    if s != [] {
      PositiveCounts(s[1..]);
      assert s == [s[0]] + s[1..];
    }
  }

  /** The filtered chart names each status at most once, in the fixed order,
      and shows exactly the statuses with a positive count. */
  lemma PositiveStatusSlices(underReview: int, shortlisted: int, rejected: int)
    ensures var r := Positive(StatusSlices(underReview, shortlisted, rejected));
      && (Slice(UnderReview, underReview) in r <==> underReview > 0)
      && (Slice(Shortlisted, shortlisted) in r <==> shortlisted > 0)
      && (Slice(Rejected, rejected) in r <==> rejected > 0)
      && |r| <= 3
      && forall i, j :: 0 <= i < j < |r| ==> StatusOrder(r[i].status) < StatusOrder(r[j].status)
  {
    var s := StatusSlices(underReview, shortlisted, rejected);
    var r := Positive(s);
    SubseqOrder(r, s);
    SubseqLength(r, s);
    forall x | x in r ensures x in s && x.value > 0 {
      SubseqMember(r, s, x);
    }
  }

  function StatusOrder(st: Status): nat {
    match st
    case UnderReview => 0
    case Shortlisted => 1
    case Rejected => 2
  }

  /** Elements of a subsequence of the slice list keep the list's status
      order. */
  lemma {:induction false} SubseqOrder(a: seq<Slice>, b: seq<Slice>)
    requires IsSubseq(a, b)
    requires forall i, j :: 0 <= i < j < |b| ==> StatusOrder(b[i].status) < StatusOrder(b[j].status)
    ensures forall i, j :: 0 <= i < j < |a| ==> StatusOrder(a[i].status) < StatusOrder(a[j].status)
    decreases |b|
  {
    if a != [] && b != [] {
      assert forall i, j :: 0 <= i < j < |b[1..]| ==> b[1..][i] == b[i + 1] && b[1..][j] == b[j + 1];
      if a[0] == b[0] {
        SubseqOrder(a[1..], b[1..]);
        forall j | 0 < j < |a| ensures StatusOrder(a[0].status) < StatusOrder(a[j].status) {
          assert a[j] == a[1..][j - 1];
          SubseqMember(a[1..], b[1..], a[j]);
          var m :| 0 <= m < |b[1..]| && b[1..][m] == a[j];
          assert b[1..][m] == b[m + 1];
        }
        forall i, j | 0 < i < j < |a| ensures StatusOrder(a[i].status) < StatusOrder(a[j].status) {
          assert a[i] == a[1..][i - 1] && a[j] == a[1..][j - 1];
        }
      } else {
        SubseqOrder(a, b[1..]);
      }
    }
  }
}

=== FILE: create_job_dialog.dfy ===
/** The create-job form: the fields a recruiter types, the request built on
    submit, the AI question fill and the reset after a successful post.
    The form's weight fields are strings read with `parseInt`. */
module CreateJobDialog {
  import opened Base
  import opened Types
  import opened Seqs
  import opened Digits
  import Store

  // ------------------------------------------------------------ parseInt

  /** The longest prefix of decimal digits. */
  function DigitPrefix(s: string): (r: string)
    ensures AllDigits(r) && |r| <= |s| && r == s[..|r|]
    ensures |r| < |s| ==> !IsDigit(s[|r|])
  {
    if s == [] || !IsDigit(s[0]) then [] else [s[0]] + DigitPrefix(s[1..])
  }

  /** `parseInt(s)` on an optional minus sign and decimal digits, reading
      as many digits as there are and ignoring the rest; `None` is NaN. */
  function ParseInt(s: string): (r: Option<int>)
    ensures r.None? <==> DigitPrefix(if s != [] && s[0] == '-' then s[1..] else s) == []
  {
    if s != [] && s[0] == '-' then
      var d := DigitPrefix(s[1..]);
      var p: int := ParseDigits(d);
      if d == [] then None else Some(-p)
    else
      var d := DigitPrefix(s);
      if d == [] then None else Some(ParseDigits(d))
  }

  lemma {:induction false} DigitPrefixOfDigits(s: string)
    requires AllDigits(s)
    ensures DigitPrefix(s) == s
  {
    if s != [] {
      assert AllDigits(s[1..]) by {
        forall k | 0 <= k < |s[1..]| ensures IsDigit(s[1..][k]) {
          assert s[1..][k] == s[k + 1];
        }
      }
      DigitPrefixOfDigits(s[1..]);
    }
  }

  /** `parseInt` reads back a rendered natural number. */
  lemma ParseIntRendered(n: nat)
    ensures ParseInt(NatToString(n)) == Some(n)
  {
    var s := NatToString(n);
    assert IsDigit(s[0]);
    DigitPrefixOfDigits(s);
    ParseNatToString(n);
  }

  /** A minus sign in front negates the number read. */
  lemma ParseIntNegative(n: nat)
    ensures ParseInt("-" + NatToString(n)) == Some(-(n as int))
  {
    var s := NatToString(n);
    assert ("-" + s)[1..] == s;
    DigitPrefixOfDigits(s);
    ParseNatToString(n);
  }

  // ---------------------------------------------------------------- form

  datatype Form = Form(
    title: string, company: string, description: string, deadline: string,
    q1: string, q2: string, q3: string,
    resumeWeight: string, behaviourWeight: string)

  const DefaultResumeWeight: string := "50"
  const DefaultBehaviourWeight: string := "20"
  const NotSpecified: string := "Not specified"

  /** `resetForm`, also the form's initial state. */
  function ResetForm(): (f: Form)
    ensures f.title == [] && f.company == [] && f.description == [] && f.deadline == []
    ensures f.q1 == [] && f.q2 == [] && f.q3 == []
    ensures ParseInt(f.resumeWeight) == Some(50) && ParseInt(f.behaviourWeight) == Some(20)
  {
    ParseIntRendered(50);
    ParseIntRendered(20);
    Form([], [], [], [], [], [], [], NatToString(50), NatToString(20))
  }

  /** The rendered defaults are the source's literals. */
  lemma DefaultWeightsAreLiterals()
    ensures ResetForm().resumeWeight == DefaultResumeWeight
    ensures ResetForm().behaviourWeight == DefaultBehaviourWeight
  {
  }

  // ------------------------------------------------------------- submit

  /** `[q1, q2, q3].filter(Boolean)` for any list of strings. */
  function NonEmpty(qs: seq<string>): (r: seq<string>)
    ensures forall i :: 0 <= i < |r| ==> r[i] != []
    ensures IsSubseq(r, qs)
    ensures forall i :: 0 <= i < |qs| && qs[i] != [] ==> qs[i] in r
  {
    if qs == [] then []
    else
      var rest := NonEmpty(qs[1..]);
      assert qs == [qs[0]] + qs[1..];
      assert forall i :: 1 <= i < |qs| ==> qs[i] == qs[1..][i - 1];
      if qs[0] != [] then
        var r := [qs[0]] + rest;
        assert r[1..] == rest;
        r
      else
        SubseqSkip(rest, qs[0], qs[1..]);
        rest
  }

  /** `NonEmpty` keeps each non-empty string as often as the input holds it,
      and no empty one. */
  lemma {:induction false} NonEmptyCounts(qs: seq<string>)
    ensures forall q :: multiset(NonEmpty(qs))[q] == if q != [] then multiset(qs)[q] else 0
  {
    if qs != [] {
      NonEmptyCounts(qs[1..]);
      assert qs == [qs[0]] + qs[1..];
    }
  }

  datatype SubmitOutcome = MissingFields | Send(req: CreateJobRequest)

  /** `handleSubmit` up to the `onSubmit` call: the required-field check,
      then the request. */
  function BuildRequest(f: Form): (r: SubmitOutcome)
    ensures r.MissingFields? <==> f.title == [] || f.description == [] || f.deadline == []
    ensures r.Send? ==> r.req.title == f.title && r.req.description == f.description
                        && r.req.deadline == f.deadline && r.req.requiredSkills.None?
    ensures r.Send? ==> r.req.company == (if f.company == [] then NotSpecified else f.company)
    ensures r.Send? ==> |r.req.questions| <= 3 && IsSubseq(r.req.questions, [f.q1, f.q2, f.q3])
    ensures r.Send? ==> forall q :: q in [f.q1, f.q2, f.q3] && q != [] <==> q in r.req.questions
    ensures r.Send? ==> forall q :: multiset(r.req.questions)[q] ==
                          if q != [] then multiset([f.q1, f.q2, f.q3])[q] else 0
    ensures r.Send? ==> r.req.weights.resume != 0 && r.req.weights.behaviour != 0
    ensures r.Send? ==> r.req.weights.resume == OrElse(ParseInt(f.resumeWeight), 50)
                        && r.req.weights.behaviour == OrElse(ParseInt(f.behaviourWeight), 20)
  {
    if f.title == [] || f.description == [] || f.deadline == [] then MissingFields
    else
      var qs := [f.q1, f.q2, f.q3];
      var questions := NonEmpty(qs);
      SubseqLength(questions, qs);
      NonEmptyCounts(qs);
      forall q | q in questions ensures q in qs && q != [] {
        SubseqMember(questions, qs, q);
      }
      Send(CreateJobRequest(
        f.title,
        if f.company == [] then NotSpecified else f.company,
        f.description,
        f.deadline,
        questions,
        Weights(OrElse(ParseInt(f.resumeWeight), 50), OrElse(ParseInt(f.behaviourWeight), 20)),
        None))
  }

  /** After `onSubmit`: a successful post resets and closes the form; a
      refused or failed one keeps it open with every field as typed. The
      result is the form and whether the dialog stays open. */
  function AfterSubmit(f: Form, succeeded: bool): (r: (Form, bool))
    ensures BuildRequest(f).MissingFields? ==> r == (f, true)
    ensures BuildRequest(f).Send? && succeeded ==> r == (ResetForm(), false)
    ensures BuildRequest(f).Send? && !succeeded ==> r == (f, true)
  {
    if BuildRequest(f).Send? && succeeded then (ResetForm(), false) else (f, true)
  }

  /** A fresh or just-reset form cannot be posted. */
  lemma ResetFormIsRefused()
    ensures BuildRequest(ResetForm()).MissingFields?
  {
  }

  /** Filling in the required fields of a reset form posts the default
      weights 50 and 20, no questions, and "Not specified" as company. */
  lemma ResetFormDefaults(title: string, description: string, deadline: string)
    requires title != [] && description != [] && deadline != []
    ensures var f := ResetForm().(title := title, description := description, deadline := deadline);
      BuildRequest(f).Send? && BuildRequest(f).req.weights == Weights(50, 20)
      && BuildRequest(f).req.questions == [] && BuildRequest(f).req.company == NotSpecified
  {
    var f := ResetForm().(title := title, description := description, deadline := deadline);
    NonEmptyConcat([], [[], [], []]);
  }

  /** A weight typed as 0, or as text that is not a number, is posted as
      the default. */
  lemma ZeroOrNaNWeightIsDefaulted(f: Form)
    requires BuildRequest(f).Send?
    requires f.resumeWeight == "0" || ParseInt(f.resumeWeight).None?
    ensures BuildRequest(f).req.weights.resume == 50
  {
    if f.resumeWeight == "0" {
      ParseIntRendered(0);
      assert NatToString(0) == "0";
    }
  }

  /** A job created from the form never falls back on the submission
      defaults: both its weights are already non-zero, so an application
      to it is scored with exactly the weights the recruiter entered. */
  lemma CreatedJobKeepsItsWeights(f: Form, jobs: seq<Job>, id: string, createdAt: string, userId: string)
    requires BuildRequest(f).Send?
    ensures var r := Store.Create(jobs, BuildRequest(f).req, id, createdAt, userId);
      Store.SubmitWeights(r.0, id) == r.1.weights
  {
    var r := Store.Create(jobs, BuildRequest(f).req, id, createdAt, userId);
    var k := Store.JobIndex(r.0, id);
    assert r.0[0].id == id;
    assert k.Some? && k.value == 0;
  }

  // ---------------------------------------------------- AI questions

  /** `questions[i] || ''`. */
  function At(qs: seq<string>, i: nat): (r: string)
    ensures i < |qs| ==> r == qs[i]
    ensures i >= |qs| ==> r == []
  {
    if i < |qs| then qs[i] else []
  }

  /** `handleGenerateQuestions` with the service's answer as a parameter
      (`None` when it throws). The result is the form and whether the
      service was asked at all. */
  function GenerateQuestions(f: Form, generated: Option<seq<string>>): (r: (Form, bool))
    ensures r.1 <==> f.description != []
    ensures !r.1 || generated.None? ==> r.0 == f
    ensures r.0.(q1 := f.q1, q2 := f.q2, q3 := f.q3) == f
    ensures r.1 && generated.Some? ==>
      r.0.q1 == At(generated.value, 0) && r.0.q2 == At(generated.value, 1) && r.0.q3 == At(generated.value, 2)
  {
    if f.description == [] then (f, false)
    else match generated
      case None => (f, true)
      case Some(qs) => (f.(q1 := At(qs, 0), q2 := At(qs, 1), q3 := At(qs, 2)), true)
  }

  /** The mock service's three questions. */
  function MockQuestions(): seq<string> {
    ["Tell us about a challenging situation you handled at work.",
     "How do you handle pressure and tight deadlines?",
     "Describe a failure and what you learned from it."]
  }

  /** Generated questions that are all non-empty are posted exactly, in
      order; a shorter answer leaves the later fields empty and posts
      fewer. */
  lemma GeneratedQuestionsArePosted(f: Form, qs: seq<string>)
    requires f.title != [] && f.description != [] && f.deadline != []
    requires |qs| <= 3 && forall i :: 0 <= i < |qs| ==> qs[i] != []
    ensures BuildRequest(GenerateQuestions(f, Some(qs)).0).req.questions == qs
  {
    var g := GenerateQuestions(f, Some(qs)).0;
    var blanks := seq(3 - |qs|, _ => []);
    assert [g.q1, g.q2, g.q3] == qs + blanks;
    NonEmptyConcat(qs, blanks);
    NonEmptyKeepsNonEmpty(qs);
  }

  lemma {:induction false} NonEmptyConcat(a: seq<string>, b: seq<string>)
    requires forall i :: 0 <= i < |b| ==> b[i] == []
    ensures NonEmpty(a + b) == NonEmpty(a)
  {
    if a == [] {
      assert a + b == b;
      if b != [] {
        assert [] + b[1..] == b[1..];
        NonEmptyConcat([], b[1..]);
      }
    } else {
      assert (a + b)[1..] == a[1..] + b;
      NonEmptyConcat(a[1..], b);
    }
  }

  lemma {:induction false} NonEmptyKeepsNonEmpty(a: seq<string>)
    requires forall i :: 0 <= i < |a| ==> a[i] != []
    ensures NonEmpty(a) == a
  {
    if a != [] {
      NonEmptyKeepsNonEmpty(a[1..]);
    }
  }

  /** With the mock service, generating and posting sends its three
      questions. */
  lemma MockQuestionsArePosted(f: Form)
    requires f.title != [] && f.description != [] && f.deadline != []
    ensures BuildRequest(GenerateQuestions(f, Some(MockQuestions())).0).req.questions == MockQuestions()
  {
    GeneratedQuestionsArePosted(f, MockQuestions());
  }
}

=== FILE: digits.dfy ===
/** Decimal rendering of natural numbers (`String(n)`), with the parser that
    undoes it. */
module Digits {
  predicate IsDigit(c: char) { '0' <= c <= '9' }

  predicate AllDigits(s: string) {
    forall k :: 0 <= k < |s| ==> IsDigit(s[k])
  }

  function DigitValue(c: char): (d: nat)
    requires IsDigit(c)
    ensures d < 10
  {
    c as int - '0' as int
  }

  function DigitChar(d: nat): (c: char)
    requires d < 10
    ensures IsDigit(c) && DigitValue(c) == d
  {
    ('0' as int + d) as char
  }

  /** `String(n)` for a natural number: no leading zeros, "0" for zero. */
  function NatToString(n: nat): (s: string)
    ensures |s| >= 1 && AllDigits(s)
    ensures |s| > 1 ==> s[0] != '0'
    ensures n < 10 <==> |s| == 1
    decreases n
  {
    if n < 10 then [DigitChar(n)] else NatToString(n / 10) + [DigitChar(n % 10)]
  }

  /** The value of a string of decimal digits (0 for the empty string). */
  function ParseDigits(s: string): nat
    requires AllDigits(s)
  {
    if s == [] then 0 else 10 * ParseDigits(s[..|s| - 1]) + DigitValue(s[|s| - 1])
  }

  /** Parsing a rendered number gives the number back. */
  lemma {:induction false} ParseNatToString(n: nat)
    ensures ParseDigits(NatToString(n)) == n
    decreases n
  {
    var s := NatToString(n);
    if n >= 10 {
      ParseNatToString(n / 10);
      assert s[..|s| - 1] == NatToString(n / 10);
    }
  }

  /** Rendering is injective. */
  lemma NatToStringInjective(m: nat, n: nat)
    requires NatToString(m) == NatToString(n)
    ensures m == n
  {
    ParseNatToString(m);
    ParseNatToString(n);
  }

  /** A number below 10^k renders with at most k digits. */
  lemma {:induction false} NatToStringLength(n: nat, k: nat)
    requires n < Pow10(k)
    ensures |NatToString(n)| <= k || (n == 0 && k == 0)
    decreases n
  {
    if n >= 10 {
      assert k >= 1;
      assert n / 10 < Pow10(k - 1);
      NatToStringLength(n / 10, k - 1);
    }
  }

  function Pow10(k: nat): (p: nat)
    ensures p >= 1
  {
    if k == 0 then 1 else 10 * Pow10(k - 1)
  }
}

=== FILE: fit_score_gauge.dfy ===
/** The fit-score gauge's colour and label. Both use the bands 85, 70 and
    50, which differ from the 80 and 60 of the ranked list's colours. */
module FitScoreGauge {
  import Base
  import Types
  import ApplicantsDialog

  datatype GaugeColour = Success | Primary | Warning | Destructive

  /** The four bands, lowest first. */
  datatype Band = NeedsWork | Fair | Good | Excellent

  function BandRank(b: Band): nat {
    match b
    case NeedsWork => 0
    case Fair => 1
    case Good => 2
    case Excellent => 3
  }

  function BandOf(s: int): (b: Band)
    ensures b == Excellent <==> s >= 85
    ensures b == Good <==> 70 <= s < 85
    ensures b == Fair <==> 50 <= s < 70
    ensures b == NeedsWork <==> s < 50
  {
    if s >= 85 then Excellent else if s >= 70 then Good else if s >= 50 then Fair else NeedsWork
  }

  /** The band of a gauge score. The gauge is handed `calculateFinalScore`,
      which is NaN (`None`) for a zero total weight; NaN fails every `>=`
      test and so falls through to the lowest band. */
  function ScoreBand(s: Base.Option<int>): (b: Band)
    ensures s.None? ==> b == NeedsWork
    ensures s.Some? ==> b == BandOf(s.value)
  {
    if s.None? then NeedsWork else BandOf(s.value)
  }

  /** `getScoreColor`, on a score that may be NaN. */
  function ScoreColour(s: Base.Option<int>): (c: GaugeColour)
    ensures c == Success <==> s.Some? && s.value >= 85
    ensures c == Primary <==> s.Some? && 70 <= s.value < 85
    ensures c == Warning <==> s.Some? && 50 <= s.value < 70
    ensures c == Destructive <==> s.None? || s.value < 50
  {
    if s.Some? && s.value >= 85 then Success
    else if s.Some? && s.value >= 70 then Primary
    else if s.Some? && s.value >= 50 then Warning
    else Destructive
  }

  /** `getScoreLabel`, on a score that may be NaN. */
  function ScoreLabel(s: Base.Option<int>): (l: string)
    ensures l == "Excellent" <==> s.Some? && s.value >= 85
    ensures l == "Good" <==> s.Some? && 70 <= s.value < 85
    ensures l == "Fair" <==> s.Some? && 50 <= s.value < 70
    ensures l == "Needs Work" <==> s.None? || s.value < 50
  {
    if s.Some? && s.value >= 85 then "Excellent"
    else if s.Some? && s.value >= 70 then "Good"
    else if s.Some? && s.value >= 50 then "Fair"
    else "Needs Work"
  }

  function BandColour(b: Band): GaugeColour {
    match b
    case Excellent => Success
    case Good => Primary
    case Fair => Warning
    case NeedsWork => Destructive
  }

  function BandLabel(b: Band): string {
    match b
    case Excellent => "Excellent"
    case Good => "Good"
    case Fair => "Fair"
    case NeedsWork => "Needs Work"
  }

  /** Colour and label always come from the same band, and distinct bands
      have distinct labels, so every score, negative ones included, gets
      exactly one of the four labels. */
  lemma ColourAndLabelAgree(s: Base.Option<int>)
    ensures ScoreColour(s) == BandColour(ScoreBand(s))
    ensures ScoreLabel(s) == BandLabel(ScoreBand(s))
    ensures forall b :: BandLabel(b) == ScoreLabel(s) ==> b == ScoreBand(s)
  {
    forall b | BandLabel(b) == ScoreLabel(s) ensures b == ScoreBand(s) {
      LabelsDistinct(b, ScoreBand(s));
    }
  }

  lemma LabelsDistinct(b1: Band, b2: Band)
    requires BandLabel(b1) == BandLabel(b2)
    ensures b1 == b2
  {
    assert |BandLabel(b1)| == |BandLabel(b2)|;
    assert BandLabel(b1)[0] == BandLabel(b2)[0];
  }

  /** A higher score never gets a lower band. */
  lemma BandMonotone(s1: int, s2: int)
    requires s1 <= s2
    ensures BandRank(BandOf(s1)) <= BandRank(BandOf(s2))
  {
  }

  /** The gauge and the ranked list can colour the same score differently:
      82 is the list's best colour but only the gauge's second band. */
  lemma GaugeAndListBandsDiffer()
    ensures ApplicantsDialog.ScoreColour(Base.Some(82)) == ApplicantsDialog.Success
    ensures ScoreColour(Base.Some(82)) == Primary && ScoreLabel(Base.Some(82)) == "Good"
  {
  }

  /** An undefined final score reaches the gauge as NaN and is shown in the
      destructive colour as "Needs Work", while the ranked list shows the
      same score in its warning colour. */
  lemma UndefinedScoreNeedsWork(w: Types.Weights, a: Types.Applicant)
    requires ApplicantsDialog.FinalScore(w, a).None?
    ensures ScoreColour(ApplicantsDialog.FinalScore(w, a)) == Destructive
    ensures ScoreLabel(ApplicantsDialog.FinalScore(w, a)) == "Needs Work"
    ensures ApplicantsDialog.ScoreColour(ApplicantsDialog.FinalScore(w, a)) == ApplicantsDialog.Warning
  {
  }

  /** The form lets a recruiter post weights -20 and 20 (both non-zero, so
      `parseInt(...) || default` keeps them); an applicant with no stored
      score and equal sub-scores then gets 0/0, and the gauge shows
      "Needs Work" in the destructive colour whatever the sub-scores are. */
  lemma CancellingWeightsNeedWork(a: Types.Applicant)
    requires !Base.Truthy(a.fitScore) && a.resumeScore == a.behaviourScore
    ensures ApplicantsDialog.FinalScore(Types.Weights(-20, 20), a).None?
    ensures ScoreColour(ApplicantsDialog.FinalScore(Types.Weights(-20, 20), a)) == Destructive
    ensures ScoreLabel(ApplicantsDialog.FinalScore(Types.Weights(-20, 20), a)) == "Needs Work"
  {
  }
}

=== FILE: hiring_funnel_chart.dfy ===
/** The hiring funnel: three bars summed over every job's applicants. */
module HiringFunnelChart {
  import opened Types

  datatype Bar = Bar(name: string, value: int)

  /** `jobs.reduce((sum, job) => sum + job.applicants.length, 0)`. */
  function TotalApplicants(jobs: seq<Job>): (r: nat)
    ensures r == |AllApplicants(jobs)|
  {
    if jobs == [] then 0 else TotalApplicants(jobs[..|jobs| - 1]) + |jobs[|jobs| - 1].applicants|
  }

  /** The per-job filter counts of one status, summed over the jobs. */
  function CountInJobs(jobs: seq<Job>, st: Status): (r: nat)
    ensures r == CountStatus(AllApplicants(jobs), st)
  {
    if jobs == [] then 0
    else
      var init := jobs[..|jobs| - 1];
      CountStatusConcat(AllApplicants(init), jobs[|jobs| - 1].applicants, st);
      CountInJobs(init, st) + CountStatus(jobs[|jobs| - 1].applicants, st)
  }

  /** The chart's data: Applications, Under Review, Shortlisted. */
  function Funnel(jobs: seq<Job>): (r: seq<Bar>)
    ensures |r| == 3
    ensures r[0].name == "Applications" && r[1].name == "Under Review" && r[2].name == "Shortlisted"
    ensures r[0].value == |AllApplicants(jobs)|
    ensures r[1].value == CountStatus(AllApplicants(jobs), UnderReview)
    ensures r[2].value == CountStatus(AllApplicants(jobs), Shortlisted)
  {
    [Bar("Applications", TotalApplicants(jobs)),
     Bar("Under Review", CountInJobs(jobs, UnderReview)),
     Bar("Shortlisted", CountInJobs(jobs, Shortlisted))]
  }

  /** The funnel narrows: the two later stages together never exceed the
      applications, and what is missing from them is the rejected count. */
  lemma FunnelNarrows(jobs: seq<Job>)
    ensures var r := Funnel(jobs);
      && r[1].value + r[2].value <= r[0].value
      && r[0].value - r[1].value - r[2].value == CountStatus(AllApplicants(jobs), Rejected)
  {
    StatusPartition(AllApplicants(jobs));
  }

  /** The bars do not depend on the order of the jobs. */
  lemma FunnelOrderIndependent(a: seq<Job>, b: seq<Job>)
    ensures Funnel(a + b) == Funnel(b + a)
  {
    AllApplicantsConcat(a, b);
    AllApplicantsConcat(b, a);
    var x, y := AllApplicants(a), AllApplicants(b);
    CountStatusConcat(x, y, UnderReview);
    CountStatusConcat(y, x, UnderReview);
    CountStatusConcat(x, y, Shortlisted);
    CountStatusConcat(y, x, Shortlisted);
    var f, g := Funnel(a + b), Funnel(b + a);
    assert f[0] == g[0] && f[1] == g[1] && f[2] == g[2];
  }

  /** A job without applicants, inserted anywhere, changes no bar. */
  lemma EmptyJobChangesNothing(jobs: seq<Job>, i: nat, j: Job)
    requires i <= |jobs| && j.applicants == []
    ensures Funnel(jobs[..i] + [j] + jobs[i..]) == Funnel(jobs)
  {
    var pre, post := jobs[..i], jobs[i..];
    AllApplicantsConcat(pre + [j], post);
    AllApplicantsConcat(pre, [j]);
    AllApplicantsConcat(pre, post);
    assert AllApplicants([j]) == AllApplicants([]) + j.applicants;
    assert pre + post == jobs;
    assert AllApplicants(pre + [j]) == AllApplicants(pre);
  }
}

=== FILE: personality_traits_chart.dfy ===
/** The Big Five radar chart: five rows on a 0..100 scale, neuroticism
    shown inverted as emotional stability. */
module PersonalityTraitsChart {
  import opened Types
  import RecruiterDashboard

  datatype TraitRow = TraitRow(name: string, value: int, fullMark: int)

  const FullMark: int := 100

  /** The chart's `data`. */
  function Rows(p: PersonalityTraits): (r: seq<TraitRow>)
    ensures |r| == 5
    ensures r[0].name == "Openness" && r[1].name == "Conscientiousness" && r[2].name == "Extraversion"
            && r[3].name == "Agreeableness" && r[4].name == "Emotional Stability"
    ensures r[0].value == p.openness && r[1].value == p.conscientiousness
            && r[2].value == p.extraversion && r[3].value == p.agreeableness
    ensures r[4].value + p.neuroticism == 100
    ensures forall i :: 0 <= i < 5 ==> r[i].fullMark == FullMark
  {
    [TraitRow("Openness", p.openness, FullMark),
     TraitRow("Conscientiousness", p.conscientiousness, FullMark),
     TraitRow("Extraversion", p.extraversion, FullMark),
     TraitRow("Agreeableness", p.agreeableness, FullMark),
     TraitRow("Emotional Stability", 100 - p.neuroticism, FullMark)]
  }

  /** The traits read back from the chart's five values. */
  function FromRows(rows: seq<TraitRow>): PersonalityTraits
    requires |rows| == 5
  {
    PersonalityTraits(rows[0].value, rows[1].value, rows[2].value, rows[3].value, 100 - rows[4].value)
  }

  /** The chart loses nothing: the profile can be read back from it. */
  lemma RowsRoundTrip(p: PersonalityTraits)
    ensures FromRows(Rows(p)) == p
  {
  }

  predicate InRange(p: PersonalityTraits) {
    && 0 <= p.openness <= 100 && 0 <= p.conscientiousness <= 100 && 0 <= p.extraversion <= 100
    && 0 <= p.agreeableness <= 100 && 0 <= p.neuroticism <= 100
  }

  /** Traits on the 0..100 scale give values within the chart's full mark,
      the inverted row included. */
  lemma RowsWithinFullMark(p: PersonalityTraits)
    requires InRange(p)
    ensures forall i :: 0 <= i < 5 ==> 0 <= Rows(p)[i].value <= Rows(p)[i].fullMark
  {
  }

  /** The recruiter's averaged profile stays on the chart's scale when every
      applicant's profile does. */
  lemma AveragedProfileWithinFullMark(jobs: seq<Job>)
    requires forall a :: a in AllApplicants(jobs) && a.personalityTraits.Some? ==> InRange(a.personalityTraits.value)
    ensures RecruiterDashboard.AggregatedTraits(jobs).Some? ==> InRange(RecruiterDashboard.AggregatedTraits(jobs).value)
  {
    AveragedTraitWithinFullMark(jobs, RecruiterDashboard.Openness);
    AveragedTraitWithinFullMark(jobs, RecruiterDashboard.Conscientiousness);
    AveragedTraitWithinFullMark(jobs, RecruiterDashboard.Extraversion);
    AveragedTraitWithinFullMark(jobs, RecruiterDashboard.Agreeableness);
    AveragedTraitWithinFullMark(jobs, RecruiterDashboard.Neuroticism);
  }

  lemma AveragedTraitWithinFullMark(jobs: seq<Job>, t: RecruiterDashboard.Trait)
    requires forall a :: a in AllApplicants(jobs) && a.personalityTraits.Some? ==> InRange(a.personalityTraits.value)
    ensures RecruiterDashboard.AggregatedTraits(jobs).Some? ==>
      0 <= RecruiterDashboard.TraitOf(RecruiterDashboard.AggregatedTraits(jobs).value, t) <= 100
  {
    forall a | a in AllApplicants(jobs) && a.personalityTraits.Some?
      ensures 0 <= RecruiterDashboard.TraitOf(a.personalityTraits.value, t) <= 100
    {
      assert InRange(a.personalityTraits.value);
    }
    RecruiterDashboard.AggregatedTraitBetween(jobs, t, 0, 100);
  }
}

=== FILE: recruiter_dashboard.dfy ===
/** The recruiter's dashboard: the hiring metrics over every job, the status
    pie, the job shown in the skill-gap panel, the averaged personality
    profile, the applicants-by-job bars and the posted-jobs table. */
module RecruiterDashboard {
  import opened Base
  import opened Types
  import opened Seqs
  import opened Charts
  import Store
  import CandidateDashboard
  import HiringFunnelChart

  // ------------------------------------------------------------ metrics

  /** `fitScore || resumeScore` for every applicant, in order. */
  function DisplayedScores(all: seq<Applicant>): (r: seq<int>)
    ensures |r| == |all|
    ensures forall i :: 0 <= i < |all| ==> r[i] == CandidateDashboard.DisplayedFitScore(all[i])
  {
    seq(|all|, i requires 0 <= i < |all| => CandidateDashboard.DisplayedFitScore(all[i]))
  }

  /** The `metrics` memo. The average counts every applicant, falling back
      to the resume score where the stored fit score is missing or 0. */
  function Metrics(jobs: seq<Job>): (r: HiringMetrics)
    ensures r.totalApplicants == |AllApplicants(jobs)|
    ensures r.shortlisted == CountStatus(AllApplicants(jobs), Shortlisted)
    ensures r.rejected == CountStatus(AllApplicants(jobs), Rejected)
    ensures r.underReview == CountStatus(AllApplicants(jobs), UnderReview)
    ensures r.totalApplicants == 0 ==> r.averageFitScore == 0
    ensures r.totalApplicants > 0 ==> r.averageFitScore == Mean(DisplayedScores(AllApplicants(jobs)))
  {
    var all := AllApplicants(jobs);
    HiringMetrics(|all|, CountStatus(all, Shortlisted), CountStatus(all, Rejected),
                  CountStatus(all, UnderReview),
                  if |all| > 0 then Mean(DisplayedScores(all)) else 0)
  }

  /** Every applicant is counted under exactly one status. */
  lemma MetricsPartition(jobs: seq<Job>)
    ensures var m := Metrics(jobs);
      m.underReview + m.shortlisted + m.rejected == m.totalApplicants
  {
    StatusPartition(AllApplicants(jobs));
  }

  /** When every displayed score lies in [lo, hi], so does the average;
      in particular scores on the 0..100 scale average to a percentage. */
  lemma AverageFitScoreBetween(jobs: seq<Job>, lo: int, hi: int)
    requires forall a :: a in AllApplicants(jobs) ==> lo <= CandidateDashboard.DisplayedFitScore(a) <= hi
    ensures |AllApplicants(jobs)| > 0 ==> lo <= Metrics(jobs).averageFitScore <= hi
  {
    var all := AllApplicants(jobs);
    if |all| > 0 {
      var xs := DisplayedScores(all);
      assert forall i :: 0 <= i < |xs| ==> lo <= xs[i] <= hi by {
        forall i | 0 <= i < |xs| ensures lo <= xs[i] <= hi {
          assert all[i] in all;
        }
      }
      MeanBetween(xs, lo, hi);
    }
  }

  /** When every applicant shows the same score, that is the average. */
  lemma AverageOfEqualScores(jobs: seq<Job>, v: int)
    requires |AllApplicants(jobs)| > 0
    requires forall a :: a in AllApplicants(jobs) ==> CandidateDashboard.DisplayedFitScore(a) == v
    ensures Metrics(jobs).averageFitScore == v
  {
    var all := AllApplicants(jobs);
    var xs := DisplayedScores(all);
    forall i | 0 <= i < |xs| ensures xs[i] == v {
      assert all[i] in all;
    }
    MeanOfEqual(xs, v);
  }

  /** The funnel chart and the metric cards agree. */
  lemma FunnelMatchesMetrics(jobs: seq<Job>)
    ensures var f, m := HiringFunnelChart.Funnel(jobs), Metrics(jobs);
      f[0].value == m.totalApplicants && f[1].value == m.underReview && f[2].value == m.shortlisted
  {
  }

  // --------------------------------------------------------- status pie

  /** `statusChartData`: the non-empty slices of the metrics. */
  function StatusChartData(m: HiringMetrics): (r: seq<Slice>)
    ensures forall i :: 0 <= i < |r| ==> r[i].value > 0
    ensures IsSubseq(r, StatusSlices(m.underReview, m.shortlisted, m.rejected))
  {
    Positive(StatusSlices(m.underReview, m.shortlisted, m.rejected))
  }

  /** The pie panel is shown exactly when the funnel panel is: both need at
      least one applicant. */
  lemma StatusPieShownIffApplicants(jobs: seq<Job>)
    ensures |StatusChartData(Metrics(jobs))| > 0 <==> Metrics(jobs).totalApplicants > 0
  {
    var m := Metrics(jobs);
    MetricsPartition(jobs);
    var s := StatusSlices(m.underReview, m.shortlisted, m.rejected);
    var r := StatusChartData(m);
    PositiveStatusSlices(m.underReview, m.shortlisted, m.rejected);
    if |r| > 0 {
      assert r[0] in r;
      SubseqMember(r, s, r[0]);
    }
  }

  // ------------------------------------------------------ skill-gap job

  /** The selector value that stands for "the first job". */
  const AllJobs: string := "all"

  /** `jobForSkillGap`: the first job for "all", otherwise the first job
      with the selected id. */
  function JobForSkillGap(jobs: seq<Job>, selected: string): (r: Option<Job>)
    ensures selected == AllJobs ==> (r.Some? <==> |jobs| > 0) && (r.Some? ==> r.value == jobs[0])
    ensures selected != AllJobs ==>
      (r.Some? <==> exists k :: 0 <= k < |jobs| && jobs[k].id == selected)
    ensures selected != AllJobs && r.Some? ==> r.value.id == selected && r.value in jobs
    ensures selected != AllJobs && r.Some? ==>
      exists i :: 0 <= i < |jobs| && jobs[i] == r.value && forall k :: 0 <= k < i ==> jobs[k].id != selected
  {
    if selected == AllJobs then (if |jobs| > 0 then Some(jobs[0]) else None)
    else Store.GetById(jobs, selected)
  }

  /** The skill-gap panel renders when there is a job and it has a
      `requiredSkills` array, even an empty one. */
  predicate SkillGapShown(jobs: seq<Job>, selected: string): (r: bool)
    ensures selected == AllJobs ==> (r <==> |jobs| > 0 && jobs[0].requiredSkills.Some?)
    ensures selected != AllJobs ==>
      (r <==> exists i :: 0 <= i < |jobs| && jobs[i].id == selected && jobs[i].requiredSkills.Some?
                          && forall k :: 0 <= k < i ==> jobs[k].id != selected)
  {
    var j := JobForSkillGap(jobs, selected);
    FirstMatchUnique(jobs, selected);
    j.Some? && j.value.requiredSkills.Some?
  }

  /** Two first indices of the same id are the same index. */
  lemma FirstMatchUnique(jobs: seq<Job>, id: string)
    ensures forall i, i' ::
              && 0 <= i < |jobs| && 0 <= i' < |jobs| && jobs[i].id == id && jobs[i'].id == id
              && (forall k :: 0 <= k < i ==> jobs[k].id != id) && (forall k :: 0 <= k < i' ==> jobs[k].id != id)
              ==> i == i'
  {
  }

  /** A job whose `requiredSkills` array is empty still shows the panel,
      since an empty array is truthy. */
  lemma EmptyRequiredSkillsShowPanel(jobs: seq<Job>)
    requires |jobs| > 0 && jobs[0].requiredSkills == Some([])
    ensures SkillGapShown(jobs, AllJobs)
  {
  }

  /** Selecting the first job's id shows the same job as "all". */
  lemma SelectFirstIsAll(jobs: seq<Job>)
    requires |jobs| > 0 && jobs[0].id != AllJobs
    ensures JobForSkillGap(jobs, jobs[0].id) == JobForSkillGap(jobs, AllJobs)
  {
  }

  /** A selection whose job has been deleted hides the panel. */
  lemma DeletedSelectionHidesPanel(jobs: seq<Job>, id: string)
    requires id != AllJobs
    ensures !SkillGapShown(Store.Delete(jobs, id).0, id)
  {
  }

  // ------------------------------------------------ personality profile

  datatype Trait = Openness | Conscientiousness | Extraversion | Agreeableness | Neuroticism

  function TraitOf(p: PersonalityTraits, t: Trait): int {
    match t
    case Openness => p.openness
    case Conscientiousness => p.conscientiousness
    case Extraversion => p.extraversion
    case Agreeableness => p.agreeableness
    case Neuroticism => p.neuroticism
  }

  /** `filter(a => a.personalityTraits)`: the applicants with a profile, in
      their order and with their multiplicity. */
  function Profiled(all: seq<Applicant>): (r: seq<Applicant>)
    ensures IsSubseq(r, all)
    ensures forall i :: 0 <= i < |r| ==> r[i].personalityTraits.Some?
    ensures forall a :: multiset(r)[a] == if a.personalityTraits.Some? then multiset(all)[a] else 0
    ensures forall a :: a in r <==> a in all && a.personalityTraits.Some?
    ensures |r| <= |all|
  {
    if all == [] then []
    else
      var rest := Profiled(all[1..]);
      assert all == [all[0]] + all[1..];
      assert multiset(all) == multiset{all[0]} + multiset(all[1..]);
      if all[0].personalityTraits.Some? then
        var r := [all[0]] + rest;
        assert r[1..] == rest;
        assert multiset(r) == multiset{all[0]} + multiset(rest);
        r
      else
        SubseqSkip(rest, all[0], all[1..]);
        rest
  }

  /** The profiles of `Profiled(all)`, one per applicant, in order. */
  function WithTraits(all: seq<Applicant>): (r: seq<PersonalityTraits>)
    ensures |r| == |Profiled(all)|
    ensures forall k :: 0 <= k < |r| ==> Profiled(all)[k].personalityTraits == Some(r[k])
    ensures |r| <= |all|
    ensures |r| == 0 <==> forall i :: 0 <= i < |all| ==> all[i].personalityTraits.None?
    ensures forall p :: p in r <==> exists i :: 0 <= i < |all| && all[i].personalityTraits == Some(p)
  {
    var ps := Profiled(all);
    var r := seq(|ps|, k requires 0 <= k < |ps| => ps[k].personalityTraits.value);
    WithTraitsMembers(all, ps, r);
    r
  }

  /** The membership facts of `WithTraits`, from those of `Profiled`. */
  lemma WithTraitsMembers(all: seq<Applicant>, ps: seq<Applicant>, r: seq<PersonalityTraits>)
    requires forall a :: a in ps <==> a in all && a.personalityTraits.Some?
    requires |r| == |ps| && forall k :: 0 <= k < |r| ==> ps[k].personalityTraits == Some(r[k])
    ensures |r| == 0 <==> forall i :: 0 <= i < |all| ==> all[i].personalityTraits.None?
    ensures forall p :: p in r <==> exists i :: 0 <= i < |all| && all[i].personalityTraits == Some(p)
  {
    if |r| != 0 {
      assert ps[0] in all;
    }
    forall i | 0 <= i < |all| && all[i].personalityTraits.Some?
      ensures all[i].personalityTraits.value in r
    {
      assert all[i] in ps;
      var k :| 0 <= k < |ps| && ps[k] == all[i];
      assert r[k] == all[i].personalityTraits.value;
    }
    forall p | p in r
      ensures exists i :: 0 <= i < |all| && all[i].personalityTraits == Some(p)
    {
      var k :| 0 <= k < |r| && r[k] == p;
      assert ps[k] in ps;
      var i :| 0 <= i < |all| && all[i] == ps[k];
    }
  }

  /** One trait of every profile, in order. */
  function Column(ts: seq<PersonalityTraits>, t: Trait): (r: seq<int>)
    ensures |r| == |ts| && forall i :: 0 <= i < |ts| ==> r[i] == TraitOf(ts[i], t)
  {
    seq(|ts|, i requires 0 <= i < |ts| => TraitOf(ts[i], t))
  }

  /** Per-trait rounded means, or `null` for no profiles. */
  function Aggregate(ts: seq<PersonalityTraits>): (r: Option<PersonalityTraits>)
    ensures r.None? <==> ts == []
    ensures r.Some? ==> forall t :: TraitOf(r.value, t) == Mean(Column(ts, t))
  {
    if ts == [] then None
    else Some(PersonalityTraits(Mean(Column(ts, Openness)), Mean(Column(ts, Conscientiousness)),
                                Mean(Column(ts, Extraversion)), Mean(Column(ts, Agreeableness)),
                                Mean(Column(ts, Neuroticism))))
  }

  /** The `aggregatedTraits` memo: only applicants with a profile count. */
  function AggregatedTraits(jobs: seq<Job>): (r: Option<PersonalityTraits>)
    ensures r.None? <==> forall a :: a in AllApplicants(jobs) ==> a.personalityTraits.None?
    ensures r.Some? ==> forall t :: TraitOf(r.value, t) == Mean(Column(WithTraits(AllApplicants(jobs)), t))
  {
    var all := AllApplicants(jobs);
    assert (forall a :: a in all ==> a.personalityTraits.None?) <==>
           (forall i :: 0 <= i < |all| ==> all[i].personalityTraits.None?);
    Aggregate(WithTraits(all))
  }

  /** Each averaged trait lies within the range of that trait over the
      applicants that have a profile. */
  lemma AggregatedTraitBetween(jobs: seq<Job>, t: Trait, lo: int, hi: int)
    requires forall a :: a in AllApplicants(jobs) && a.personalityTraits.Some? ==>
      lo <= TraitOf(a.personalityTraits.value, t) <= hi
    ensures AggregatedTraits(jobs).Some? ==> lo <= TraitOf(AggregatedTraits(jobs).value, t) <= hi
  {
    var all := AllApplicants(jobs);
    var ts := WithTraits(all);
    if ts != [] {
      var xs := Column(ts, t);
      var ps := Profiled(all);
      forall i | 0 <= i < |xs| ensures lo <= xs[i] <= hi {
        assert ps[i] in ps;
      }
      MeanBetween(xs, lo, hi);
    }
  }

  /** Profiles that are all the same average to that profile. */
  lemma AggregateOfEqualProfiles(ts: seq<PersonalityTraits>, p: PersonalityTraits)
    requires ts != [] && forall i :: 0 <= i < |ts| ==> ts[i] == p
    ensures Aggregate(ts) == Some(p)
  {
    forall t ensures Mean(Column(ts, t)) == TraitOf(p, t) {
      MeanOfEqual(Column(ts, t), TraitOf(p, t));
    }
    var r := Aggregate(ts).value;
    assert TraitOf(r, Openness) == p.openness && TraitOf(r, Conscientiousness) == p.conscientiousness;
    assert TraitOf(r, Extraversion) == p.extraversion && TraitOf(r, Agreeableness) == p.agreeableness;
    assert TraitOf(r, Neuroticism) == p.neuroticism;
  }

  /** An applicant without a profile is not averaged in as zeros: one
      profiled applicant and one without give that applicant's profile. */
  lemma ApplicantWithoutTraitsIsSkipped(a: Applicant, b: Applicant, j: Job)
    requires a.personalityTraits.Some? && b.personalityTraits.None? && j.applicants == [a, b]
    ensures AggregatedTraits([j]) == a.personalityTraits
  {
    assert AllApplicants([j]) == [a, b] by { assert [j][..0] == []; }
    ProfiledPair(a, b);
    var ts := WithTraits([a, b]);
    assert |ts| == 1 && Some(ts[0]) == a.personalityTraits;
    AggregateOfEqualProfiles(ts, a.personalityTraits.value);
  }

  /** The filter step of the example above. */
  lemma ProfiledPair(a: Applicant, b: Applicant)
    requires a.personalityTraits.Some? && b.personalityTraits.None?
    ensures Profiled([a, b]) == [a]
  {
    assert [a, b][1..] == [b] && [b][1..] == [];
  }

  // ------------------------------------------------------- job titles

  const ChartNameLength: nat := 15
  const SelectLabelLength: nat := 20

  /** `title.length > n ? title.slice(0, n) + '...' : title`. */
  function Truncate(title: string, n: nat): (r: string)
    ensures |title| <= n ==> r == title
    ensures |title| > n ==> |r| == n + 3 && r[..n] == title[..n] && r[n..] == "..."
  {
    if |title| > n then title[..n] + "..." else title
  }

  /** A title is shown unchanged exactly when it fits, or when it already is
      its own truncation: n characters followed by "...". */
  lemma TruncateFixedPoints(title: string, n: nat)
    ensures Truncate(title, n) == title <==>
      |title| <= n || (|title| == n + 3 && title[n..] == "...")
  {
    if |title| > n && |title| == n + 3 && title[n..] == "..." {
      assert title == title[..n] + title[n..];
    }
  }

  /** Titles that share their first n characters get the same label. */
  lemma TruncateCollides(t1: string, t2: string, n: nat)
    requires |t1| > n && |t2| > n && t1[..n] == t2[..n]
    ensures Truncate(t1, n) == Truncate(t2, n)
  {
  }

  // ---------------------------------------------- applicants by job

  datatype JobBar = JobBar(name: string, applicants: nat)

  /** `chartData`: one bar per job, in the jobs' order. */
  function ApplicantsByJob(jobs: seq<Job>): (r: seq<JobBar>)
    ensures |r| == |jobs|
    ensures forall i :: 0 <= i < |jobs| ==>
      r[i] == JobBar(Truncate(jobs[i].title, ChartNameLength), |jobs[i].applicants|)
  {
    seq(|jobs|, i requires 0 <= i < |jobs| => JobBar(Truncate(jobs[i].title, ChartNameLength), |jobs[i].applicants|))
  }

  function BarValues(bars: seq<JobBar>): (r: seq<int>)
    ensures |r| == |bars| && forall i :: 0 <= i < |bars| ==> r[i] == bars[i].applicants
  {
    seq(|bars|, i requires 0 <= i < |bars| => bars[i].applicants)
  }

  /** The bars add up to the total-applicants card. */
  lemma {:induction false} BarsSumToTotal(jobs: seq<Job>)
    ensures Sum(BarValues(ApplicantsByJob(jobs))) == Metrics(jobs).totalApplicants
  {
    if jobs != [] {
      var init := jobs[..|jobs| - 1];
      BarsSumToTotal(init);
      var xs := BarValues(ApplicantsByJob(jobs));
      assert xs[..|xs| - 1] == BarValues(ApplicantsByJob(init));
    }
  }

  // ---------------------------------------------------- posted jobs

  /** One row of the posted-jobs table (the deadline badge is left out). */
  datatype JobRow = JobRow(title: string, company: string, applicants: nat, shortlisted: nat)

  function Rows(jobs: seq<Job>): (r: seq<JobRow>)
    ensures |r| == |jobs|
    ensures forall i :: 0 <= i < |jobs| ==> r[i].title == jobs[i].title && r[i].company == jobs[i].company
    ensures forall i :: 0 <= i < |jobs| ==> r[i].applicants == |jobs[i].applicants|
    ensures forall i :: 0 <= i < |jobs| ==> r[i].shortlisted == CountStatus(jobs[i].applicants, Shortlisted)
  {
    seq(|jobs|, i requires 0 <= i < |jobs| =>
      JobRow(jobs[i].title, jobs[i].company, |jobs[i].applicants|, CountStatus(jobs[i].applicants, Shortlisted)))
  }

  /** No row shows more shortlisted applicants than applicants. */
  lemma RowShortlistedAtMostApplicants(jobs: seq<Job>, i: nat)
    requires i < |jobs|
    ensures Rows(jobs)[i].shortlisted <= Rows(jobs)[i].applicants
  {
  }

  function ShortlistedColumn(rows: seq<JobRow>): (r: seq<int>)
    ensures |r| == |rows| && forall i :: 0 <= i < |rows| ==> r[i] == rows[i].shortlisted
  {
    seq(|rows|, i requires 0 <= i < |rows| => rows[i].shortlisted)
  }

  /** The rows' shortlisted badges add up to the shortlisted card. */
  lemma {:induction false} RowsSumToShortlisted(jobs: seq<Job>)
    ensures Sum(ShortlistedColumn(Rows(jobs))) == Metrics(jobs).shortlisted
  {
    if jobs != [] {
      var init := jobs[..|jobs| - 1];
      RowsSumToShortlisted(init);
      var xs := ShortlistedColumn(Rows(jobs));
      assert xs[..|xs| - 1] == ShortlistedColumn(Rows(init));
      CountStatusConcat(AllApplicants(init), jobs[|jobs| - 1].applicants, Shortlisted);
    }
  }
}

=== FILE: scoring.dfy ===
/** The fit score: a relative-weight average of the resume and behavioural
    sub-scores, rounded to the nearest integer with halves rounded up. */
module Scoring {
  import opened Base

  /** `calculateFitScore`. `None` stands for the non-finite value that
      JavaScript produces when the two weights add up to zero: NaN when the
      weighted sum is zero as well, an infinity otherwise. */
  function FitScore(resumeScore: int, behaviourScore: int, resumeWeight: int, behaviourWeight: int): (r: Option<int>)
    ensures r.None? <==> resumeWeight + behaviourWeight == 0
    ensures resumeWeight + behaviourWeight > 0 ==>
      var total := resumeWeight + behaviourWeight;
      var weighted := resumeScore * resumeWeight + behaviourScore * behaviourWeight;
      // the nearest integer to weighted / total, halves upward
      r.Some? && total * (2 * r.value - 1) <= 2 * weighted < total * (2 * r.value + 1)
    ensures resumeWeight + behaviourWeight < 0 ==>
      var total := resumeWeight + behaviourWeight;
      var weighted := resumeScore * resumeWeight + behaviourScore * behaviourWeight;
      // the same quotient, written with a positive divisor
      r.Some? && -total * (2 * r.value - 1) <= -2 * weighted < -total * (2 * r.value + 1)
  {
    var total := resumeWeight + behaviourWeight;
    if total == 0 then None
    else Some(RoundQuot(resumeScore * resumeWeight + behaviourScore * behaviourWeight, total))
  }

  /** With non-negative weights the score is undefined only when both are 0,
      and then the weighted sum is 0 too, so the JavaScript value is NaN. */
  lemma FitScoreUndefinedOnlyUnweighted(resumeScore: int, behaviourScore: int, resumeWeight: int, behaviourWeight: int)
    requires resumeWeight >= 0 && behaviourWeight >= 0
    ensures FitScore(resumeScore, behaviourScore, resumeWeight, behaviourWeight).None? <==>
      resumeWeight == 0 && behaviourWeight == 0
    ensures FitScore(resumeScore, behaviourScore, resumeWeight, behaviourWeight).None? ==>
      resumeScore * resumeWeight + behaviourScore * behaviourWeight == 0
  {
  }

  /** Weights that cancel out leave the score undefined even when the
      weighted sum is not zero, where JavaScript gives an infinity: 5 and -5
      with scores 80 and 60. */
  lemma FitScoreCancellingWeights()
    ensures FitScore(80, 60, 5, -5).None?
  {
  }

  function Min(a: int, b: int): int { if a <= b then a else b }
  function Max(a: int, b: int): int { if a <= b then b else a }

  /** For non-negative weights with a positive sum the score lies between the
      two sub-scores. */
  lemma FitScoreBetween(resumeScore: int, behaviourScore: int, resumeWeight: int, behaviourWeight: int)
    requires resumeWeight >= 0 && behaviourWeight >= 0 && resumeWeight + behaviourWeight > 0
    ensures FitScore(resumeScore, behaviourScore, resumeWeight, behaviourWeight).Some?
    ensures var v := FitScore(resumeScore, behaviourScore, resumeWeight, behaviourWeight).value;
      Min(resumeScore, behaviourScore) <= v <= Max(resumeScore, behaviourScore)
  {
    var total := resumeWeight + behaviourWeight;
    var weighted := resumeScore * resumeWeight + behaviourScore * behaviourWeight;
    var lo, hi := Min(resumeScore, behaviourScore), Max(resumeScore, behaviourScore);
    MulLeftMono(resumeWeight, lo, resumeScore);
    MulLeftMono(behaviourWeight, lo, behaviourScore);
    MulLeftMono(resumeWeight, resumeScore, hi);
    MulLeftMono(behaviourWeight, behaviourScore, hi);
    assert total * lo == resumeWeight * lo + behaviourWeight * lo;
    assert total * hi == resumeWeight * hi + behaviourWeight * hi;
    RoundDivBounds(weighted, total, lo, hi);
  }

  /** With equal positive weights the score is (r + b) / 2 rounded half up. */
  lemma FitScoreEqualWeights(resumeScore: int, behaviourScore: int, w: int)
    requires w > 0
    ensures FitScore(resumeScore, behaviourScore, w, w) == Some(RoundDiv(resumeScore + behaviourScore, 2))
  {
    assert resumeScore * w + behaviourScore * w == w * (resumeScore + behaviourScore);
    assert w + w == w * 2;
    RoundDivScale(resumeScore + behaviourScore, 2, w);
  }

  /** A zero weight removes its sub-score entirely. */
  lemma FitScoreSingleWeight(resumeScore: int, behaviourScore: int, w: int)
    requires w > 0
    ensures FitScore(resumeScore, behaviourScore, 0, w) == Some(behaviourScore)
    ensures FitScore(resumeScore, behaviourScore, w, 0) == Some(resumeScore)
  {
    assert resumeScore * 0 + behaviourScore * w == behaviourScore * w;
    RoundDivExact(behaviourScore, w);
    assert resumeScore * w + behaviourScore * 0 == resumeScore * w;
    RoundDivExact(resumeScore, w);
  }

  /** Weights are relative: scaling both by a positive factor changes nothing. */
  lemma FitScoreScale(resumeScore: int, behaviourScore: int, resumeWeight: int, behaviourWeight: int, k: int)
    requires k > 0 && resumeWeight + behaviourWeight != 0
    ensures FitScore(resumeScore, behaviourScore, k * resumeWeight, k * behaviourWeight)
         == FitScore(resumeScore, behaviourScore, resumeWeight, behaviourWeight)
  {
    ScaledQuotient(resumeScore, behaviourScore, resumeWeight, behaviourWeight, k);
  }

  /** The arithmetic behind `FitScoreScale`, kept apart from the score. */
  lemma ScaledQuotient(rs: int, bs: int, rw: int, bw: int, k: int)
    requires k > 0 && rw + bw != 0
    ensures k * rw + k * bw != 0
    ensures RoundQuot(rs * (k * rw) + bs * (k * bw), k * rw + k * bw) == RoundQuot(rs * rw + bs * bw, rw + bw)
  {
    var total, weighted := rw + bw, rs * rw + bs * bw;
    assert k * rw + k * bw == k * total;
    assert rs * (k * rw) == k * (rs * rw);
    assert bs * (k * bw) == k * (bs * bw);
    assert rs * (k * rw) + bs * (k * bw) == k * weighted;
    RoundQuotScale(weighted, total, k);
  }

  /** Swapping the roles of the two sub-scores, weights included, gives the same score. */
  lemma FitScoreSymmetric(resumeScore: int, behaviourScore: int, resumeWeight: int, behaviourWeight: int)
    ensures FitScore(resumeScore, behaviourScore, resumeWeight, behaviourWeight)
         == FitScore(behaviourScore, resumeScore, behaviourWeight, resumeWeight)
  {
  }

  /** A better resume score never lowers the fit score. */
  lemma FitScoreMonotone(r1: int, r2: int, behaviourScore: int, resumeWeight: int, behaviourWeight: int)
    requires r1 <= r2 && resumeWeight >= 0 && resumeWeight + behaviourWeight > 0
    ensures FitScore(r1, behaviourScore, resumeWeight, behaviourWeight).value
         <= FitScore(r2, behaviourScore, resumeWeight, behaviourWeight).value
  {
    var total := resumeWeight + behaviourWeight;
    MulLeftMono(resumeWeight, r1, r2);
    assert r1 * resumeWeight <= r2 * resumeWeight;
    RoundDivMono(r1 * resumeWeight + behaviourScore * behaviourWeight,
                 r2 * resumeWeight + behaviourScore * behaviourWeight, total);
  }

  /** 80 and 60 at weights 50 and 20: 5200 / 70 = 74.28..., which rounds to 74. */
  lemma FitScoreExample()
    ensures FitScore(80, 60, 50, 20) == Some(74)
  {
    RoundDivUnique(5200, 70, 74);
  }
}

=== FILE: seed.dfy ===
/** The three seeded jobs the in-memory store starts from. The personality
    traits of the first two applicants are drawn at random by the mock layer,
    so they are parameters here. */
module Seed {
  import opened Base
  import opened Types
  import Scoring

  /** The fixed skill list the mock resume analyser returns. */
  const GeneratedSkills: seq<ExtractedSkill> := [
    ExtractedSkill("Python", 95, Technical),
    ExtractedSkill("Machine Learning", 90, Technical),
    ExtractedSkill("SQL", 85, Technical),
    ExtractedSkill("TensorFlow", 80, Technical),
    ExtractedSkill("Communication", 75, Soft),
    ExtractedSkill("Problem Solving", 88, Soft),
    ExtractedSkill("Data Analysis", 92, Domain)
  ]

  const GeneratedExperience: seq<ExtractedExperience> := [
    ExtractedExperience("Tech Solutions Inc.", "ML Engineer", "2 years",
      ["Built recommendation engine", "Improved model accuracy by 25%"]),
    ExtractedExperience("DataCorp", "Data Analyst", "1.5 years",
      ["Analyzed customer behavior", "Created dashboards"])
  ]

  const GeneratedEducation: seq<ExtractedEducation> := [
    ExtractedEducation("Stanford University", "M.S.", "Computer Science", "2022"),
    ExtractedEducation("UC Berkeley", "B.S.", "Data Science", "2020")
  ]

  const AliceResumeInsights: string := "Strong ML background, excellent Python skills, published research"
  const AliceBehaviourInsights: string := "Shows leadership qualities, clear communication"
  const AliceMatchExplanation: string := "Strong match due to ML expertise and relevant project experience in NLP systems."

  function Alice(traits: PersonalityTraits): Applicant {
    Applicant(
      "a1", "Alice Johnson", "u3", "2026-01-02 10:30", "alice_resume.pdf", "#",
      88, 82,
      AliceResumeInsights,
      AliceBehaviourInsights,
      UnderReview, false,
      ["Built a recommendation system...", "Use F1 score...", "Data imputation..."],
      Some(85), Some(traits), Some(GeneratedSkills), Some(GeneratedExperience), Some(GeneratedEducation),
      Some(AliceMatchExplanation))
  }

  const BobResumeInsights: string := "Good technical skills, needs more deployment experience"
  const BobBehaviourInsights: string := "Team player, adaptable to change"
  const BobMatchExplanation: string := "Good foundational skills but lacks production experience mentioned in job requirements."

  function Bob(traits: PersonalityTraits): Applicant {
    Applicant(
      "a2", "Bob Smith", "u4", "2026-01-03 14:15", "bob_cv.docx", "#",
      72, 78,
      BobResumeInsights,
      BobBehaviourInsights,
      UnderReview, false,
      ["Worked on image classification...", "Cross-validation...", "Feature engineering..."],
      Some(75), Some(traits),
      Some([ExtractedSkill("Python", 80, Technical), ExtractedSkill("Deep Learning", 70, Technical),
            ExtractedSkill("SQL", 65, Technical)]),
      Some([ExtractedExperience("StartupAI", "Junior ML Developer", "1 year", ["Image classification"])]),
      Some([ExtractedEducation("MIT", "B.S.", "Computer Science", "2023")]),
      Some(BobMatchExplanation))
  }

  const CharlieResumeInsights: string := "PhD in Statistics, extensive industry experience"
  const CharlieBehaviourInsights: string := "Excellent presentation skills, strategic thinker"
  const CharlieMatchExplanation: string := "Exceptional match with PhD credentials and proven industry impact in data science."

  const Charlie: Applicant := Applicant(
    "a3", "Charlie Davis", "u5", "2026-01-04 09:00", "charlie_resume.pdf", "#",
    91, 85,
    CharlieResumeInsights,
    CharlieBehaviourInsights,
    Shortlisted, true,
    ["Start with EDA...", "Use storytelling...", "Identified customer churn..."],
    Some(88), Some(PersonalityTraits(85, 90, 70, 80, 30)),
    Some([ExtractedSkill("Python", 95, Technical), ExtractedSkill("R", 90, Technical),
          ExtractedSkill("Statistics", 95, Domain), ExtractedSkill("Tableau", 85, Technical)]),
    Some([ExtractedExperience("Big Data Inc.", "Senior Data Scientist", "4 years",
          ["Led analytics team", "Reduced churn by 15%"])]),
    Some([ExtractedEducation("Harvard", "Ph.D.", "Statistics", "2019")]),
    Some(CharlieMatchExplanation))

  const AiEngineerDescription: string := "Work on machine learning models, NLP pipelines, and AI-driven applications. You will be responsible for developing cutting-edge AI solutions."

  function AiEngineer(t1: PersonalityTraits, t2: PersonalityTraits): Job {
      Job("1", "AI Engineer", "TechCorp AI",
        AiEngineerDescription,
        "2026-04-15",
        ["Describe a challenging ML project you worked on.",
         "How do you evaluate model performance?",
         "How do you handle noisy or incomplete data?"],
        Weights(50, 20),
        [Alice(t1), Bob(t2)],
        "2026-01-01", "2",
        Some(["Python", "Machine Learning", "TensorFlow", "NLP", "Deep Learning"]))
  }

  const FullStackDeveloperDescription: string := "Build and maintain web applications using React, Node.js, and PostgreSQL. Work in an agile environment with cross-functional teams."

  const FullStackDeveloper: Job :=
      Job("2", "Full Stack Developer", "StartupXYZ",
        FullStackDeveloperDescription,
        "2026-04-28",
        ["What is your approach to writing clean, maintainable code?",
         "Describe a time you had to learn a new technology quickly.",
         "How do you handle disagreements with team members?"],
        Weights(40, 30),
        [],
        "2026-01-02", "2",
        Some(["React", "Node.js", "PostgreSQL", "TypeScript", "REST APIs"]))

  const DataScientistDescription: string := "Analyze large datasets to derive actionable insights. Build predictive models and create data visualizations for stakeholders."

  const DataScientist: Job :=
      Job("3", "Data Scientist", "Analytics Pro",
        DataScientistDescription,
        "2026-05-10",
        ["Walk us through your data analysis workflow.",
         "How do you communicate complex findings to non-technical stakeholders?",
         "Describe a time when your analysis led to a significant business decision."],
        Weights(45, 25),
        [Charlie],
        "2026-01-03", "2",
        Some(["Python", "R", "SQL", "Tableau", "Statistics", "Machine Learning"]))

  /** `mockJobs`, given the two randomly generated trait records. */
  function MockJobs(t1: PersonalityTraits, t2: PersonalityTraits): seq<Job> {
    [AiEngineer(t1, t2), FullStackDeveloper, DataScientist]
  }
}

/** Facts about the seed, stated from outside the module that defines it. */
module SeedFacts {
  import opened Base
  import opened Types
  import opened Seed
  import Scoring

  /** Which seeded applicant applied to which job. */
  lemma SeedApplicants(t1: PersonalityTraits, t2: PersonalityTraits)
    ensures AiEngineer(t1, t2).applicants == [Alice(t1), Bob(t2)]
    ensures FullStackDeveloper.applicants == []
    ensures DataScientist.applicants == [Charlie]
  {
  }

  lemma SeedIds(t1: PersonalityTraits, t2: PersonalityTraits)
    ensures Alice(t1).id == "a1" && Bob(t2).id == "a2" && Charlie.id == "a3"
  {
  }

  /** The seeded decisions: a1 and a2 are undecided and unlocked, a3 is
      shortlisted and locked. */
  lemma SeedDecisions(t1: PersonalityTraits, t2: PersonalityTraits)
    ensures Alice(t1).status == UnderReview && !Alice(t1).locked
    ensures Bob(t2).status == UnderReview && !Bob(t2).locked
    ensures Charlie.status == Shortlisted && Charlie.locked
  {
  }

  /** Hence the seed satisfies the lock invariant. */
  lemma SeedLockConsistent(t1: PersonalityTraits, t2: PersonalityTraits)
    ensures StoreLockConsistent(MockJobs(t1, t2))
  {
    SeedApplicants(t1, t2);
    SeedDecisions(t1, t2);
    var a, c := AiEngineer(t1, t2).applicants, DataScientist.applicants;
    assert LockConsistent(a[0]) && LockConsistent(a[1]) && LockConsistent(c[0]);
    assert JobLockConsistent(AiEngineer(t1, t2)) && JobLockConsistent(DataScientist);
    assert JobLockConsistent(FullStackDeveloper);
  }

  /** The stored seed scores are not the formula's output: a1 stores 85 where
      88 and 82 at weights 50 and 20 give 6040 / 70 = 86.28..., i.e. 86. */
  lemma SeedFitScoreIsNotRecomputed(t1: PersonalityTraits)
    ensures Alice(t1).fitScore == Some(85)
    ensures Scoring.FitScore(Alice(t1).resumeScore, Alice(t1).behaviourScore, 50, 20) == Some(86)
  {
    RoundDivUnique(6040, 70, 86);
  }
}

=== FILE: seqs.dfy ===
/** Sequence helpers shared by the store and the views: the first index
    satisfying a predicate (`findIndex` / `find`), subsequence order, and
    suffix tests on strings. */
module Seqs {
  import opened Base

  /** `Array.prototype.findIndex`, with `None` for -1. */
  function FindIndex<T>(s: seq<T>, p: T -> bool): (r: Option<nat>)
    ensures r.Some? ==> r.value < |s| && p(s[r.value])
    ensures r.Some? ==> forall k :: 0 <= k < r.value ==> !p(s[k])
    ensures r.None? ==> forall k :: 0 <= k < |s| ==> !p(s[k])
  {
    if s == [] then None
    else if p(s[0]) then Some(0)
    else match FindIndex(s[1..], p)
      case None => None
      case Some(i) => Some(i + 1)
  }

  /** The first index depends only on the predicate's verdicts. */
  lemma {:induction false} FindIndexSameVerdicts<T>(s: seq<T>, t: seq<T>, p: T -> bool)
    requires |s| == |t|
    requires forall k :: 0 <= k < |s| ==> p(s[k]) == p(t[k])
    ensures FindIndex(s, p) == FindIndex(t, p)
  {
    if s != [] {
      FindIndexSameVerdicts(s[1..], t[1..], p);
    }
  }

  /** Appending an element only matters when nothing before it matches. */
  lemma {:induction false} FindIndexAppend<T>(s: seq<T>, x: T, p: T -> bool)
    ensures FindIndex(s + [x], p) ==
      if FindIndex(s, p).Some? then FindIndex(s, p) else if p(x) then Some(|s|) else None
  {
    if s != [] {
      assert (s + [x])[1..] == s[1..] + [x];
      FindIndexAppend(s[1..], x, p);
    }
  }

  /** `a` can be obtained from `b` by deleting elements. */
  predicate IsSubseq<T(==)>(a: seq<T>, b: seq<T>)
    decreases |b|
  {
    if a == [] then true
    else if b == [] then false
    else if a[0] == b[0] then IsSubseq(a[1..], b[1..])
    else IsSubseq(a, b[1..])
  }

  /** Prepending an element to the larger sequence keeps a subsequence. */
  lemma {:induction false} SubseqSkip<T>(a: seq<T>, x: T, b: seq<T>)
    requires IsSubseq(a, b)
    ensures IsSubseq(a, [x] + b)
    decreases |b|, 1
  {
    assert ([x] + b)[1..] == b;
    if a != [] && a[0] == x {
      SubseqTail(a, b);
    }
  }

  /** Dropping the first element of a subsequence keeps a subsequence. */
  lemma {:induction false} SubseqTail<T>(a: seq<T>, b: seq<T>)
    requires a != [] && IsSubseq(a, b)
    ensures IsSubseq(a[1..], b)
    decreases |b|, 0
  {
    assert [b[0]] + b[1..] == b;
    if a[0] == b[0] {
      SubseqSkip(a[1..], b[0], b[1..]);
    } else {
      SubseqTail(a, b[1..]);
      SubseqSkip(a[1..], b[0], b[1..]);
    }
  }

  /** A sequence is a subsequence of itself. */
  lemma {:induction false} SubseqRefl<T>(a: seq<T>)
    ensures IsSubseq(a, a)
  {
    if a != [] {
      SubseqRefl(a[1..]);
    }
  }

  /** Every element of a subsequence occurs in the larger sequence. */
  lemma {:induction false} SubseqMember<T>(a: seq<T>, b: seq<T>, x: T)
    requires IsSubseq(a, b) && x in a
    ensures x in b
    decreases |b|
  {
    if a[0] == b[0] {
      if x != a[0] {
        assert x in a[1..];
        SubseqMember(a[1..], b[1..], x);
      }
    } else {
      SubseqMember(a, b[1..], x);
    }
  }

  /** A subsequence is no longer than the sequence it comes from. */
  lemma {:induction false} SubseqLength<T>(a: seq<T>, b: seq<T>)
    requires IsSubseq(a, b)
    ensures |a| <= |b|
    decreases |b|
  {
    if a != [] {
      if a[0] == b[0] { SubseqLength(a[1..], b[1..]); } else { SubseqLength(a, b[1..]); }
    }
  }

  /** `String.prototype.endsWith`: exact, case-sensitive suffix test. */
  predicate EndsWith(s: string, suffix: string) {
    |suffix| <= |s| && s[|s| - |suffix|..] == suffix
  }

  /** `EndsWith` agrees with splitting the string into some prefix and the suffix. */
  lemma EndsWithSplit(s: string, suffix: string)
    ensures EndsWith(s, suffix) <==> exists p: string :: s == p + suffix
  {
    if EndsWith(s, suffix) {
      var p := s[..|s| - |suffix|];
      assert s == p + suffix;
    }
    if exists p: string :: s == p + suffix {
      var p: string :| s == p + suffix;
      assert s[|s| - |suffix|..] == suffix;
    }
  }
}

=== FILE: skill_gap_chart.dfy ===
/** The skill-gap chart: for each required skill of a job, the share of its
    applicants whose extracted skills name it (ignoring letter case), and
    the remaining gap, both as rounded percentages. */
module SkillGapChart {
  import opened Base
  import opened Types

  /** `toLowerCase` on the ASCII letters; other characters are unchanged. */
  function Lower(c: char): (r: char)
    ensures 'A' <= c <= 'Z' ==> r as int == c as int + 32
    ensures !('A' <= c <= 'Z') ==> r == c
  {
    if 'A' <= c <= 'Z' then (c as int + 32) as char else c
  }

  function LowerString(s: string): (r: string)
    ensures |r| == |s| && forall i :: 0 <= i < |s| ==> r[i] == Lower(s[i])
  {
    seq(|s|, i requires 0 <= i < |s| => Lower(s[i]))
  }

  /** Lowering twice is lowering once. */
  lemma LowerStringIdempotent(s: string)
    ensures LowerString(LowerString(s)) == LowerString(s)
  {
  }

  /** The two names compare equal after lowering. */
  predicate SameSkill(a: string, b: string) {
    LowerString(a) == LowerString(b)
  }

  /** `a.extractedSkills?.some(...)`: an applicant without extracted skills
      never has the skill. */
  predicate HasSkill(a: Applicant, skill: string) {
    match a.extractedSkills
    case None => false
    case Some(s) => exists i :: 0 <= i < |s| && SameSkill(s[i].name, skill)
  }

  /** `applicantsWithSkill`: the filter's length. */
  function CountWithSkill(applicants: seq<Applicant>, skill: string): (r: nat)
    ensures r <= |applicants|
    ensures r == 0 <==> forall i :: 0 <= i < |applicants| ==> !HasSkill(applicants[i], skill)
    ensures r == |applicants| <==> forall i :: 0 <= i < |applicants| ==> HasSkill(applicants[i], skill)
  {
    if applicants == [] then 0
    else
      var init := applicants[..|applicants| - 1];
      assert forall i :: 0 <= i < |init| ==> init[i] == applicants[i];
      CountWithSkill(init, skill) + (if HasSkill(applicants[|applicants| - 1], skill) then 1 else 0)
  }

  /** `Math.round(c / n * 100)` and `Math.round(100 - c / n * 100)`, with the
      percentage taken as 0 when there are no applicants. The percentage is
      the exact rational 100c/n. */
  function Percentages(c: int, n: int): (r: (int, int))
    ensures n <= 0 ==> r == (0, 100)
    ensures n > 0 ==> n * (2 * r.0 - 1) <= 200 * c < n * (2 * r.0 + 1)
    ensures n > 0 ==> n * (2 * r.1 - 1) <= 200 * (n - c) < n * (2 * r.1 + 1)
  {
    if n > 0 then
      assert 2 * (100 * n - 100 * c) == 200 * (n - c);
      (RoundDiv(100 * c, n), RoundDiv(100 * n - 100 * c, n))
    else (0, 100)
  }

  /** One bar pair: required is always 100. */
  function Row(job: Job, skill: string): (r: SkillGapAnalysis)
    ensures r.skill == skill && r.required == 100
    ensures (r.available, r.gap) == Percentages(CountWithSkill(job.applicants, skill), |job.applicants|)
  {
    var p := Percentages(CountWithSkill(job.applicants, skill), |job.applicants|);
    SkillGapAnalysis(skill, 100, p.0, p.1)
  }

  /** `(job.requiredSkills || []).map(...)`: one row per required skill, in
      order. */
  function SkillGapData(job: Job): (r: seq<SkillGapAnalysis>)
    ensures |r| == |job.requiredSkills.GetOr([])|
    ensures forall i :: 0 <= i < |r| ==> r[i] == Row(job, job.requiredSkills.GetOr([])[i])
  {
    var skills := job.requiredSkills.GetOr([]);
    seq(|skills|, i requires 0 <= i < |skills| => Row(job, skills[i]))
  }

  /** The chart is replaced by a message exactly when there are no rows:
      no `requiredSkills` or an empty list. */
  lemma NoRowsIffNoRequiredSkills(job: Job)
    ensures SkillGapData(job) == [] <==> job.requiredSkills.None? || job.requiredSkills == Some([])
  {
  }

  /** Both percentages stay within 0..100. */
  lemma PercentagesBetween(c: nat, n: nat)
    requires c <= n
    ensures var r := Percentages(c, n); 0 <= r.0 <= 100 && 0 <= r.1 <= 100
  {
    if n > 0 {
      RoundDivBounds(100 * c, n, 0, 100);
      RoundDivBounds(100 * n - 100 * c, n, 0, 100);
    }
  }

  /** Over exact arithmetic the two bars add up to 100, except that both
      round up, to 101, when the exact percentage ends in one half. In
      JavaScript's doubles such a half can land just below and round down:
      23 of 40 gives 57.49999999999999, so 57 and 43. */
  lemma PercentagesSum(c: nat, n: nat)
    requires n > 0
    ensures var r := Percentages(c, n);
      (r.0 + r.1 == 101 <==> (200 * c) % (2 * n) == n)
      && (r.0 + r.1 == 100 <==> (200 * c) % (2 * n) != n)
  {
    var r := Percentages(c, n);
    var x, y := 200 * c, 200 * (n - c);
    BracketSum(r.0, r.1, n, x, y);
    if (200 * c) % (2 * n) == n {
      HalfRoundsBothUp(r.0, r.1, n, x, y);
    } else if r.0 + r.1 == 101 {
      BothUpMeansHalf(r.0, r.1, n, x, y);
    }
  }

  /** With exact arithmetic 23 applicants of 40 give 57.5 and 42.5, which
      both round up. */
  lemma ExactHalfExample()
    ensures Percentages(23, 40) == (58, 43)
  {
    PercentagesSum(23, 40);
  }

  /** Two rounding brackets whose exact values add up to 100. */
  predicate Brackets(a: int, g: int, n: int, x: int, y: int) {
    && n > 0 && x + y == 200 * n
    && n * (2 * a - 1) <= x < n * (2 * a + 1)
    && n * (2 * g - 1) <= y < n * (2 * g + 1)
  }

  lemma BracketSum(a: int, g: int, n: int, x: int, y: int)
    requires Brackets(a, g, n, x, y)
    ensures 100 <= a + g <= 101
  {
    assert n * (2 * a - 1) + n * (2 * g - 1) == n * (2 * (a + g) - 2);
    assert n * (2 * a + 1) + n * (2 * g + 1) == n * (2 * (a + g) + 2);
    assert n * 200 < n * 201;
    MulLeftStrict(n, 2 * (a + g) - 2, 201);
    MulLeftStrict(n, 200, 2 * (a + g) + 2);
  }

  lemma HalfRoundsBothUp(a: int, g: int, n: int, x: int, y: int)
    requires Brackets(a, g, n, x, y) && x % (2 * n) == n
    ensures a + g == 101
  {
    var k := x / (2 * n);
    assert x == 2 * n * k + n;
    assert x == n * (2 * (k + 1) - 1);
    assert y == n * (2 * (100 - k) - 1);
    BracketUnique(n, x, a, k + 1);
    BracketUnique(n, y, g, 100 - k);
  }

  lemma BothUpMeansHalf(a: int, g: int, n: int, x: int, y: int)
    requires Brackets(a, g, n, x, y) && a + g == 101
    ensures x % (2 * n) == n
  {
    assert n * (2 * g - 1) == n * 200 - n * (2 * a - 1);
    assert x <= n * (2 * a - 1);
    assert x == 2 * n * (a - 1) + n;
    ModUnique(x, 2 * n, a - 1, n);
  }

  /** At most one integer has a given rounding bracket. */
  lemma BracketUnique(n: int, x: int, a: int, b: int)
    requires n > 0
    requires n * (2 * a - 1) <= x < n * (2 * a + 1)
    requires n * (2 * b - 1) <= x < n * (2 * b + 1)
    ensures a == b
  {
    MulLeftStrict(n, 2 * a - 1, 2 * b + 1);
    MulLeftStrict(n, 2 * b - 1, 2 * a + 1);
  }

  /** The remainder is determined by any quotient-remainder split. */
  lemma ModUnique(x: int, m: int, q: int, rem: int)
    requires m > 0 && 0 <= rem < m && x == m * q + rem
    ensures x % m == rem
  {
    var q' := x / m;
    assert x == m * q' + x % m;
    if q' < q {
      MulLeftMono(m, q' + 1, q);
    } else if q' > q {
      MulLeftMono(m, q + 1, q');
    }
  }

  /** A job without applicants shows an empty bar and a full gap for every
      skill. */
  lemma NoApplicantsFullGap(job: Job, skill: string)
    requires job.applicants == []
    ensures Row(job, skill).available == 0 && Row(job, skill).gap == 100
  {
  }

  /** When every applicant has the skill there is no gap. */
  lemma EveryoneHasSkillNoGap(job: Job, skill: string)
    requires |job.applicants| > 0
    requires forall i :: 0 <= i < |job.applicants| ==> HasSkill(job.applicants[i], skill)
    ensures Row(job, skill).available == 100 && Row(job, skill).gap == 0
  {
    var n := |job.applicants|;
    assert 100 * n - 100 * n == 0 * n;
    RoundDivExact(100, n);
    RoundDivExact(0, n);
  }

  /** More applicants with the skill never shrink the bar or widen the gap. */
  lemma PercentagesMonotone(c1: nat, c2: nat, n: nat)
    requires c1 <= c2
    ensures Percentages(c1, n).0 <= Percentages(c2, n).0
    ensures Percentages(c1, n).1 >= Percentages(c2, n).1
  {
    if n > 0 {
      RoundDivMono(100 * c1, 100 * c2, n);
      RoundDivMono(100 * n - 100 * c2, 100 * n - 100 * c1, n);
    }
  }

  /** Skill names that differ only in letter case give identical rows. */
  lemma RowIgnoresCase(job: Job, s1: string, s2: string)
    requires SameSkill(s1, s2)
    ensures Row(job, s1).available == Row(job, s2).available
    ensures Row(job, s1).gap == Row(job, s2).gap
  {
    CountIgnoresCase(job.applicants, s1, s2);
  }

  lemma {:induction false} CountIgnoresCase(applicants: seq<Applicant>, s1: string, s2: string)
    requires SameSkill(s1, s2)
    ensures CountWithSkill(applicants, s1) == CountWithSkill(applicants, s2)
  {
    if applicants != [] {
      CountIgnoresCase(applicants[..|applicants| - 1], s1, s2);
      var a := applicants[|applicants| - 1];
      assert HasSkill(a, s1) == HasSkill(a, s2);
    }
  }

  /** One applicant of eight with the skill: 12.5% rounds to 13 and the gap
      87.5% to 88, so the bars add up to 101. */
  lemma OneOfEightExample()
    ensures Percentages(1, 8) == (13, 88)
  {
    RoundDivUnique(100, 8, 13);
    RoundDivUnique(700, 8, 88);
  }
}

=== FILE: skill_radar_chart.dfy ===
/** The skills overview: extracted skills split into technical, soft and
    domain groups, each shown only when it has a skill. */
module SkillRadarChart {
  import opened Types
  import opened Seqs

  /** `skills.filter(s => s.category === c)`. */
  function OfCategory(skills: seq<ExtractedSkill>, c: Category): (r: seq<ExtractedSkill>)
    ensures forall i :: 0 <= i < |r| ==> r[i].category == c
    ensures IsSubseq(r, skills)
    ensures forall i :: 0 <= i < |skills| && skills[i].category == c ==> skills[i] in r
  {
    if skills == [] then []
    else
      var rest := OfCategory(skills[1..], c);
      assert skills == [skills[0]] + skills[1..];
      assert forall i :: 1 <= i < |skills| ==> skills[i] == skills[1..][i - 1];
      if skills[0].category == c then
        var r := [skills[0]] + rest;
        assert r[1..] == rest;
        r
      else
        SubseqSkip(rest, skills[0], skills[1..]);
        rest
  }

  /** Filtering a list with a first element. */
  lemma OfCategoryCons(x: ExtractedSkill, rest: seq<ExtractedSkill>, c: Category)
    ensures OfCategory([x] + rest, c) == if x.category == c then [x] + OfCategory(rest, c) else OfCategory(rest, c)
  {
    assert ([x] + rest)[0] == x && ([x] + rest)[1..] == rest;
  }

  /** Every skill lands in exactly one group: the three groups together are
      the input, as a multiset. */
  lemma {:induction false} GroupsPartition(skills: seq<ExtractedSkill>)
    ensures multiset(OfCategory(skills, Technical)) + multiset(OfCategory(skills, Soft))
            + multiset(OfCategory(skills, Domain)) == multiset(skills)
  {
    if skills != [] {
      var x, rest := skills[0], skills[1..];
      GroupsPartition(rest);
      assert skills == [x] + rest;
      OfCategoryCons(x, rest, Technical);
      OfCategoryCons(x, rest, Soft);
      OfCategoryCons(x, rest, Domain);
      assert multiset(skills) == multiset{x} + multiset(rest);
    }
  }

  /** Hence the group sizes add up to the number of skills. */
  lemma GroupSizes(skills: seq<ExtractedSkill>)
    ensures |OfCategory(skills, Technical)| + |OfCategory(skills, Soft)| + |OfCategory(skills, Domain)| == |skills|
  {
    GroupsPartition(skills);
    assert |multiset(skills)| == |skills|;
  }

  datatype Group = Group(caption: string, skills: seq<ExtractedSkill>)

  /** `renderSkillGroup` returns nothing for an empty group. */
  function Rendered(g: Group): (r: seq<Group>)
    ensures r == [] <==> g.skills == []
    ensures r != [] ==> r == [g]
  {
    if g.skills == [] then [] else [g]
  }

  function Caption(c: Category): string {
    match c
    case Technical => "Technical Skills"
    case Soft => "Soft Skills"
    case Domain => "Domain Knowledge"
  }

  function GroupOf(skills: seq<ExtractedSkill>, c: Category): Group {
    Group(Caption(c), OfCategory(skills, c))
  }

  /** The groups on screen, in the fixed order technical, soft, domain. */
  function RenderedGroups(skills: seq<ExtractedSkill>): (r: seq<Group>)
    ensures forall i :: 0 <= i < |r| ==> r[i].skills != []
    ensures |r| <= 3
  {
    Rendered(GroupOf(skills, Technical)) + Rendered(GroupOf(skills, Soft)) + Rendered(GroupOf(skills, Domain))
  }

  /** A category's group is on screen exactly when some skill has that
      category. */
  lemma GroupShownIffCategoryPresent(skills: seq<ExtractedSkill>, c: Category)
    ensures GroupOf(skills, c) in RenderedGroups(skills)
            <==> exists i :: 0 <= i < |skills| && skills[i].category == c
  {
    var r := OfCategory(skills, c);
    if exists i :: 0 <= i < |skills| && skills[i].category == c {
      var i :| 0 <= i < |skills| && skills[i].category == c;
      assert skills[i] in r;
    } else if r != [] {
      assert r[0] in r;
      SubseqMember(r, skills, r[0]);
    } else {
      assert GroupOf(skills, c) !in RenderedGroups(skills);
    }
  }
}

=== FILE: store.dfy ===
/** The mock API's in-memory job store. Each asynchronous call is one atomic
    step over an immutable `seq<Job>`; identifiers, timestamps and the mock
    analysers' random draws are parameters. */
module Store {
  import opened Base
  import opened Types
  import opened Seqs
  import Scoring

  // ---------------------------------------------------------------- lookups

  /** `jobs.findIndex(j => j.id === jobId)`. */
  function JobIndex(jobs: seq<Job>, jobId: string): (r: Option<nat>)
    ensures r.Some? ==> r.value < |jobs| && jobs[r.value].id == jobId
    ensures r.Some? ==> forall k :: 0 <= k < r.value ==> jobs[k].id != jobId
    ensures r.None? ==> forall k :: 0 <= k < |jobs| ==> jobs[k].id != jobId
  {
    FindIndex(jobs, (j: Job) => j.id == jobId)
  }

  /** `applicants.find(a => a.id === applicantId)`, as an index. */
  function ApplicantIndex(apps: seq<Applicant>, applicantId: string): (r: Option<nat>)
    ensures r.Some? ==> r.value < |apps| && apps[r.value].id == applicantId
    ensures r.Some? ==> forall k :: 0 <= k < r.value ==> apps[k].id != applicantId
    ensures r.None? ==> forall k :: 0 <= k < |apps| ==> apps[k].id != applicantId
  {
    FindIndex(apps, (a: Applicant) => a.id == applicantId)
  }

  /** `applicants.find(a => a.userId === userId)`, as an index. */
  function UserIndex(apps: seq<Applicant>, userId: string): (r: Option<nat>)
    ensures r.Some? ==> r.value < |apps| && apps[r.value].userId == userId
    ensures r.Some? ==> forall k :: 0 <= k < r.value ==> apps[k].userId != userId
    ensures r.None? ==> forall k :: 0 <= k < |apps| ==> apps[k].userId != userId
  {
    FindIndex(apps, (a: Applicant) => a.userId == userId)
  }

  /** `jobsAPI.getById`: the first job with the id, or null. */
  function GetById(jobs: seq<Job>, jobId: string): (r: Option<Job>)
    ensures r.None? <==> forall k :: 0 <= k < |jobs| ==> jobs[k].id != jobId
    ensures r.Some? ==> exists i :: 0 <= i < |jobs| && jobs[i] == r.value
                           && jobs[i].id == jobId && forall k :: 0 <= k < i ==> jobs[k].id != jobId
  {
    match JobIndex(jobs, jobId)
    case None => None
    case Some(i) => Some(jobs[i])
  }

  /** Where an applicant sits in the store: job index, then applicant index. */
  datatype Position = Position(job: nat, applicant: nat)

  /** The lookup `updateStatus` and `unlockDecision` perform: the first job
      with the id, then the first applicant in it with the id. A matching
      applicant in a later job of the same id is not looked at. */
  function Locate(jobs: seq<Job>, jobId: string, applicantId: string): (r: Option<Position>)
    ensures r.Some? <==> (JobIndex(jobs, jobId).Some?
                          && ApplicantIndex(jobs[JobIndex(jobs, jobId).value].applicants, applicantId).Some?)
    ensures r.Some? ==> (r.value.job == JobIndex(jobs, jobId).value
                         && r.value.applicant == ApplicantIndex(jobs[r.value.job].applicants, applicantId).value)
  {
    match JobIndex(jobs, jobId)
    case None => None
    case Some(i) =>
      match ApplicantIndex(jobs[i].applicants, applicantId)
      case None => None
      case Some(k) => Some(Position(i, k))
  }

  predicate ValidPosition(jobs: seq<Job>, p: Position) {
    p.job < |jobs| && p.applicant < |jobs[p.job].applicants|
  }

  /** `after` differs from `before` at most in the applicant at `p`. */
  predicate OnlyApplicantChanged(before: seq<Job>, after: seq<Job>, p: Position)
    requires ValidPosition(before, p)
  {
    && |after| == |before|
    && (forall j :: 0 <= j < |before| && j != p.job ==> after[j] == before[j])
    && after[p.job].(applicants := before[p.job].applicants) == before[p.job]
    && |after[p.job].applicants| == |before[p.job].applicants|
    && forall m :: 0 <= m < |before[p.job].applicants| && m != p.applicant ==>
         after[p.job].applicants[m] == before[p.job].applicants[m]
  }

  /** In-place replacement of one applicant record. */
  function SetApplicant(jobs: seq<Job>, p: Position, a: Applicant): (r: seq<Job>)
    requires ValidPosition(jobs, p)
    ensures ValidPosition(r, p) && OnlyApplicantChanged(jobs, r, p)
    ensures r[p.job].applicants[p.applicant] == a
    ensures forall j :: 0 <= j < |jobs| ==> r[j].id == jobs[j].id
    ensures forall m :: 0 <= m < |jobs[p.job].applicants| ==>
              r[p.job].applicants[m].id == (if m == p.applicant then a.id else jobs[p.job].applicants[m].id)
  {
    var job := jobs[p.job];
    jobs[p.job := job.(applicants := job.applicants[p.applicant := a])]
  }

  /** Writing back the record already in place changes nothing. */
  lemma SetApplicantSame(jobs: seq<Job>, p: Position)
    requires ValidPosition(jobs, p)
    ensures SetApplicant(jobs, p, jobs[p.job].applicants[p.applicant]) == jobs
  {
    var job := jobs[p.job];
    assert job.applicants[p.applicant := job.applicants[p.applicant]] == job.applicants;
    assert jobs[p.job := job] == jobs;
  }

  /** A second write to the same position erases the first. */
  lemma SetApplicantOverwrite(jobs: seq<Job>, p: Position, a: Applicant, b: Applicant)
    requires ValidPosition(jobs, p)
    ensures SetApplicant(SetApplicant(jobs, p, a), p, b) == SetApplicant(jobs, p, b)
  {
    var job := jobs[p.job];
    assert job.applicants[p.applicant := a][p.applicant := b] == job.applicants[p.applicant := b];
  }

  /** A single-applicant change that keeps that applicant consistent keeps the
      whole store consistent. */
  lemma SetApplicantKeepsLock(jobs: seq<Job>, p: Position, a: Applicant)
    requires ValidPosition(jobs, p) && StoreLockConsistent(jobs) && LockConsistent(a)
    ensures StoreLockConsistent(SetApplicant(jobs, p, a))
  {
    var r := SetApplicant(jobs, p, a);
    forall j | 0 <= j < |r|
      ensures JobLockConsistent(r[j])
    {
      if j == p.job {
        forall m | 0 <= m < |r[j].applicants|
          ensures LockConsistent(r[j].applicants[m])
        {
          if m != p.applicant {
            assert r[j].applicants[m] == jobs[j].applicants[m];
            assert JobLockConsistent(jobs[j]);
          }
        }
      } else {
        assert r[j] == jobs[j];
        assert JobLockConsistent(jobs[j]);
      }
    }
  }

  /** Changing only an applicant's status and lock keeps every id in place,
      so the same lookups find the same positions afterwards. */
  lemma LocateStable(jobs: seq<Job>, p: Position, a: Applicant, jobId: string, applicantId: string)
    requires ValidPosition(jobs, p) && a.id == jobs[p.job].applicants[p.applicant].id
    ensures Locate(SetApplicant(jobs, p, a), jobId, applicantId) == Locate(jobs, jobId, applicantId)
  {
    var r := SetApplicant(jobs, p, a);
    FindIndexSameVerdicts(jobs, r, (j: Job) => j.id == jobId);
    assert JobIndex(r, jobId) == JobIndex(jobs, jobId);
    match JobIndex(jobs, jobId)
    case None =>
    case Some(i) =>
      if i == p.job {
        FindIndexSameVerdicts(jobs[i].applicants, r[i].applicants, (x: Applicant) => x.id == applicantId);
      } else {
        assert r[i] == jobs[i];
      }
  }

  // ---------------------------------------------------------- decisions

  /** `applicationsAPI.updateStatus`. There is no lock check: a locked
      applicant is overwritten like any other. */
  function UpdateStatus(jobs: seq<Job>, jobId: string, applicantId: string, status: Decision): (r: (seq<Job>, bool))
    ensures r.1 <==> Locate(jobs, jobId, applicantId).Some?
    ensures !r.1 ==> r.0 == jobs
    ensures r.1 ==> var p := Locate(jobs, jobId, applicantId).value;
      && ValidPosition(jobs, p) && OnlyApplicantChanged(jobs, r.0, p)
      && r.0[p.job].applicants[p.applicant] == jobs[p.job].applicants[p.applicant].(status := status, locked := true)
    ensures StoreLockConsistent(jobs) ==> StoreLockConsistent(r.0)
  {
    match Locate(jobs, jobId, applicantId)
    case None => (jobs, false)
    case Some(p) =>
      var a := jobs[p.job].applicants[p.applicant];
      var a' := a.(status := status, locked := true);
      if StoreLockConsistent(jobs) then SetApplicantKeepsLock(jobs, p, a'); (SetApplicant(jobs, p, a'), true)
      else (SetApplicant(jobs, p, a'), true)
  }

  /** `applicationsAPI.unlockDecision`: clears the lock, keeps the status. */
  function UnlockDecision(jobs: seq<Job>, jobId: string, applicantId: string): (r: (seq<Job>, bool))
    ensures r.1 <==> Locate(jobs, jobId, applicantId).Some?
    ensures !r.1 ==> r.0 == jobs
    ensures r.1 ==> var p := Locate(jobs, jobId, applicantId).value;
      && ValidPosition(jobs, p) && OnlyApplicantChanged(jobs, r.0, p)
      && r.0[p.job].applicants[p.applicant] == jobs[p.job].applicants[p.applicant].(locked := false)
    ensures StoreLockConsistent(jobs) ==> StoreLockConsistent(r.0)
  {
    match Locate(jobs, jobId, applicantId)
    case None => (jobs, false)
    case Some(p) =>
      var a' := jobs[p.job].applicants[p.applicant].(locked := false);
      if StoreLockConsistent(jobs) then SetApplicantKeepsLock(jobs, p, a'); (SetApplicant(jobs, p, a'), true)
      else (SetApplicant(jobs, p, a'), true)
  }

  /** Unlocking twice is the same as unlocking once. */
  lemma UnlockIdempotent(jobs: seq<Job>, jobId: string, applicantId: string)
    ensures var once := UnlockDecision(jobs, jobId, applicantId);
      UnlockDecision(once.0, jobId, applicantId) == once
  {
    match Locate(jobs, jobId, applicantId)
    case None =>
    case Some(p) =>
      var a' := jobs[p.job].applicants[p.applicant].(locked := false);
      var once := SetApplicant(jobs, p, a');
      LocateStable(jobs, p, a', jobId, applicantId);
      SetApplicantSame(once, p);
  }

  /** Deciding, unlocking and deciding again leaves no trace of the first
      decision: the store equals the one a single second decision gives. */
  lemma RedecideAfterUnlock(jobs: seq<Job>, jobId: string, applicantId: string, first: Decision, second: Decision)
    ensures var s1 := UpdateStatus(jobs, jobId, applicantId, first).0;
            var s2 := UnlockDecision(s1, jobId, applicantId).0;
            UpdateStatus(s2, jobId, applicantId, second) == UpdateStatus(jobs, jobId, applicantId, second)
  {
    match Locate(jobs, jobId, applicantId)
    case None =>
    case Some(p) =>
      var a := jobs[p.job].applicants[p.applicant];
      var s1 := SetApplicant(jobs, p, a.(status := first, locked := true));
      LocateStable(jobs, p, a.(status := first, locked := true), jobId, applicantId);
      var s2 := SetApplicant(s1, p, a.(status := first, locked := false));
      LocateStable(s1, p, a.(status := first, locked := false), jobId, applicantId);
      SetApplicantOverwrite(jobs, p, a.(status := first, locked := true), a.(status := first, locked := false));
      SetApplicantOverwrite(jobs, p, a.(status := first, locked := false), a.(status := second, locked := true));
  }

  /** The decide / unlock / decide path of one applicant: the last decision
      wins and the applicant ends locked. */
  lemma DecideUnlockDecide(jobs: seq<Job>, jobId: string, applicantId: string)
    requires Locate(jobs, jobId, applicantId).Some?
    ensures var s1 := UpdateStatus(jobs, jobId, applicantId, Shortlisted).0;
            var s2 := UnlockDecision(s1, jobId, applicantId).0;
            var s3 := UpdateStatus(s2, jobId, applicantId, Rejected).0;
            var p := Locate(jobs, jobId, applicantId).value;
            ValidPosition(s3, p) && s3[p.job].applicants[p.applicant].status == Rejected
            && s3[p.job].applicants[p.applicant].locked
  {
    RedecideAfterUnlock(jobs, jobId, applicantId, Shortlisted, Rejected);
  }

  // ---------------------------------------------------------- submission

  /** The values the mock layer draws at random or from the environment for
      one submission. */
  datatype Draw = Draw(
    applicantId: string,
    appliedAt: string,
    resumeURL: string,
    behaviourScore: int,
    behaviourInsights: string,
    analysis: ResumeAnalysis,
    traits: PersonalityTraits)

  datatype SubmitResponse = SubmitResponse(success: bool, applicant: Applicant)

  /** `strings.join(sep)`. */
  function Join(parts: seq<string>, sep: string): string {
    if parts == [] then ""
    else if |parts| == 1 then parts[0]
    else parts[0] + sep + Join(parts[1..], sep)
  }

  /** `job?.weights.resume || 50` and `job?.weights.behaviour || 20`. */
  function SubmitWeights(jobs: seq<Job>, jobId: string): (w: Weights)
    ensures w.resume != 0 && w.behaviour != 0
    ensures JobIndex(jobs, jobId).None? ==> w == Weights(50, 20)
    ensures JobIndex(jobs, jobId).Some? ==>
      var jw := jobs[JobIndex(jobs, jobId).value].weights;
      && (jw.resume != 0 ==> w.resume == jw.resume) && (jw.resume == 0 ==> w.resume == 50)
      && (jw.behaviour != 0 ==> w.behaviour == jw.behaviour) && (jw.behaviour == 0 ==> w.behaviour == 20)
  {
    match JobIndex(jobs, jobId)
    case None => Weights(50, 20)
    case Some(i) => Weights(OrElse(Some(jobs[i].weights.resume), 50), OrElse(Some(jobs[i].weights.behaviour), 20))
  }

  function NewApplicant(jobs: seq<Job>, jobId: string, userId: string, userName: string,
                        resumeName: string, answers: seq<string>, d: Draw): Applicant
  {
    var w := SubmitWeights(jobs, jobId);
    var entities := d.analysis.extractedEntities;
    Applicant(
      d.applicantId, userName, userId, d.appliedAt, resumeName, d.resumeURL,
      d.analysis.matchScore, d.behaviourScore,
      Join(d.analysis.strengths, ", "), d.behaviourInsights,
      UnderReview, false, answers,
      Scoring.FitScore(d.analysis.matchScore, d.behaviourScore, w.resume, w.behaviour),
      Some(d.traits),
      if entities.Some? then Some(entities.value.skills) else None,
      if entities.Some? then Some(entities.value.experience) else None,
      if entities.Some? then Some(entities.value.education) else None,
      d.analysis.matchExplanation)
  }

  /** `applicationsAPI.submit`: appends a fresh, undecided, unlocked applicant
      to the first job with the id, and reports success even when no job has
      that id (the store is then unchanged). */
  function Submit(jobs: seq<Job>, jobId: string, userId: string, userName: string,
                  resumeName: string, answers: seq<string>, d: Draw): (r: (seq<Job>, SubmitResponse))
    ensures r.1.success
    ensures var a := r.1.applicant;
      && a.status == UnderReview && !a.locked
      && a.id == d.applicantId && a.userId == userId && a.name == userName
      && a.resumeName == resumeName && a.behaviouralAnswers == answers
      && a.resumeScore == d.analysis.matchScore && a.behaviourScore == d.behaviourScore
    ensures var a, w := r.1.applicant, SubmitWeights(jobs, jobId);
      && a.fitScore == Scoring.FitScore(d.analysis.matchScore, d.behaviourScore, w.resume, w.behaviour)
      && a.appliedAt == d.appliedAt && a.resumeURL == d.resumeURL
      && a.resumeInsights == Join(d.analysis.strengths, ", ") && a.behaviourInsights == d.behaviourInsights
      && a.personalityTraits == Some(d.traits) && a.matchExplanation == d.analysis.matchExplanation
    ensures var a, e := r.1.applicant, d.analysis.extractedEntities;
      && (e.None? ==> a.extractedSkills.None? && a.extractedExperience.None? && a.extractedEducation.None?)
      && (e.Some? ==> a.extractedSkills == Some(e.value.skills) && a.extractedExperience == Some(e.value.experience)
                      && a.extractedEducation == Some(e.value.education))
    ensures JobIndex(jobs, jobId).None? ==> r.0 == jobs
    ensures JobIndex(jobs, jobId).Some? ==>
      var i := JobIndex(jobs, jobId).value;
      && |r.0| == |jobs|
      && (forall k :: 0 <= k < |jobs| && k != i ==> r.0[k] == jobs[k])
      && r.0[i] == jobs[i].(applicants := jobs[i].applicants + [r.1.applicant])
    ensures StoreLockConsistent(jobs) ==> StoreLockConsistent(r.0)
  {
    var a := NewApplicant(jobs, jobId, userId, userName, resumeName, answers, d);
    match JobIndex(jobs, jobId)
    case None => (jobs, SubmitResponse(true, a))
    case Some(i) =>
      var jobs' := jobs[i := jobs[i].(applicants := jobs[i].applicants + [a])];
      assert StoreLockConsistent(jobs) ==> JobLockConsistent(jobs[i]);
      assert StoreLockConsistent(jobs) ==> JobLockConsistent(jobs'[i]);
      (jobs', SubmitResponse(true, a))
  }

  /** The stored fit score of a new applicant is always defined and lies
      between the two sub-scores whenever the matching job's weights are
      non-negative (or no job matches). */
  lemma SubmitFitScoreBetween(jobs: seq<Job>, jobId: string, userId: string, userName: string,
                              resumeName: string, answers: seq<string>, d: Draw)
    requires JobIndex(jobs, jobId).Some? ==>
      var jw := jobs[JobIndex(jobs, jobId).value].weights;
      jw.resume >= 0 && jw.behaviour >= 0
    ensures var a := Submit(jobs, jobId, userId, userName, resumeName, answers, d).1.applicant;
      && a.fitScore.Some?
      && Scoring.Min(d.analysis.matchScore, d.behaviourScore) <= a.fitScore.value
      && a.fitScore.value <= Scoring.Max(d.analysis.matchScore, d.behaviourScore)
  {
    var w := SubmitWeights(jobs, jobId);
    Scoring.FitScoreBetween(d.analysis.matchScore, d.behaviourScore, w.resume, w.behaviour);
  }

  // ------------------------------------------------------------ reading

  /** Application rows returned to a candidate. */
  datatype Application = Application(job: Job, applicant: Applicant)

  /** Number of jobs holding an applicant with the user id. */
  function JobsWithUser(jobs: seq<Job>, userId: string): (n: nat)
    ensures n <= |jobs|
  {
    if jobs == [] then 0
    else (if UserIndex(jobs[0].applicants, userId).Some? then 1 else 0) + JobsWithUser(jobs[1..], userId)
  }

  function JobsOf(apps: seq<Application>): (r: seq<Job>)
    ensures |r| == |apps| && forall n :: 0 <= n < |apps| ==> r[n] == apps[n].job
  {
    seq(|apps|, n requires 0 <= n < |apps| => apps[n].job)
  }

  /** `applicationsAPI.getMyApplications`: one row per job that holds an
      applicant with the user id, carrying that job's FIRST such applicant. */
  function GetMyApplications(jobs: seq<Job>, userId: string): (r: seq<Application>)
    ensures |r| == JobsWithUser(jobs, userId)
    ensures forall n :: 0 <= n < |r| ==>
      var k := UserIndex(r[n].job.applicants, userId);
      k.Some? && r[n].applicant == r[n].job.applicants[k.value]
  {
    if jobs == [] then []
    else
      var j, rest := jobs[0], GetMyApplications(jobs[1..], userId);
      match UserIndex(j.applicants, userId)
      case None => rest
      case Some(k) =>
        var r := [Application(j, j.applicants[k])] + rest;
        assert forall n :: 1 <= n < |r| ==> r[n] == rest[n - 1];
        r
  }

  /** The rows come in store order: their jobs are a subsequence of the
      store. */
  lemma {:induction false} MyApplicationsInStoreOrder(jobs: seq<Job>, userId: string)
    ensures IsSubseq(JobsOf(GetMyApplications(jobs, userId)), jobs)
  {
    if jobs != [] {
      var j, tail := jobs[0], jobs[1..];
      var rest := GetMyApplications(tail, userId);
      MyApplicationsInStoreOrder(tail, userId);
      assert jobs == [j] + tail;
      match UserIndex(j.applicants, userId)
      case None =>
        SubseqSkip(JobsOf(rest), j, tail);
      case Some(k) =>
        var r := GetMyApplications(jobs, userId);
        assert r == [Application(j, j.applicants[k])] + rest;
        assert JobsOf(r)[0] == j && JobsOf(r)[1..] == JobsOf(rest);
    }
  }

  // --------------------------------------------------------------- jobs

  /** The `CreateJobRequest` part of a job. */
  function RequestOf(j: Job): CreateJobRequest {
    CreateJobRequest(j.title, j.company, j.description, j.deadline, j.questions, j.weights, j.requiredSkills)
  }

  /** The job `jobsAPI.create` builds: the request's fields, plus the four
      the API supplies. */
  function JobFromRequest(req: CreateJobRequest, id: string, createdAt: string, createdBy: string): (j: Job)
    ensures RequestOf(j) == req
    ensures j.id == id && j.applicants == [] && j.createdAt == createdAt && j.createdBy == createdBy
  {
    Job(id, req.title, req.company, req.description, req.deadline, req.questions, req.weights,
        [], createdAt, createdBy, req.requiredSkills)
  }

  /** `jobsAPI.create`: prepends the new job, which `getById` then finds. */
  function Create(jobs: seq<Job>, req: CreateJobRequest, id: string, createdAt: string, userId: string): (r: (seq<Job>, Job))
    ensures r.0 == [r.1] + jobs
    ensures RequestOf(r.1) == req && r.1.id == id && r.1.applicants == [] && r.1.createdBy == userId
    ensures r.1.createdAt == createdAt
    ensures GetById(r.0, id) == Some(r.1)
    ensures StoreLockConsistent(jobs) ==> StoreLockConsistent(r.0)
  {
    var j := JobFromRequest(req, id, createdAt, userId);
    var jobs' := [j] + jobs;
    assert StoreLockConsistent(jobs) ==> forall k :: 1 <= k < |jobs'| ==> JobLockConsistent(jobs'[k]) by {
      if StoreLockConsistent(jobs) {
        forall k | 1 <= k < |jobs'| ensures JobLockConsistent(jobs'[k]) {
          assert jobs'[k] == jobs[k - 1];
        }
      }
    }
    (jobs', j)
  }

  function CountId(jobs: seq<Job>, id: string): (n: nat)
    ensures n <= |jobs|
  {
    if jobs == [] then 0 else (if jobs[0].id == id then 1 else 0) + CountId(jobs[1..], id)
  }

  /** `jobsAPI.delete`: removes every job with the id, keeps the others in
      order, and always reports success. */
  function Delete(jobs: seq<Job>, id: string): (r: (seq<Job>, bool))
    ensures r.1
    ensures forall k :: 0 <= k < |r.0| ==> r.0[k].id != id
    ensures IsSubseq(r.0, jobs)
    ensures |r.0| + CountId(jobs, id) == |jobs|
    ensures StoreLockConsistent(jobs) ==> StoreLockConsistent(r.0)
  {
    if jobs == [] then ([], true)
    else
      var rest := Delete(jobs[1..], id).0;
      assert jobs == [jobs[0]] + jobs[1..];
      assert StoreLockConsistent(jobs) ==> StoreLockConsistent(jobs[1..]) by {
        if StoreLockConsistent(jobs) {
          forall k | 0 <= k < |jobs[1..]| ensures JobLockConsistent(jobs[1..][k]) {
            assert jobs[1..][k] == jobs[k + 1];
          }
        }
      }
      if jobs[0].id == id then
        SubseqSkip(rest, jobs[0], jobs[1..]);
        (rest, true)
      else
        var r := [jobs[0]] + rest;
        assert r[1..] == rest;
        assert StoreLockConsistent(jobs) ==> StoreLockConsistent(r) by {
          if StoreLockConsistent(jobs) {
            forall k | 0 <= k < |r| ensures JobLockConsistent(r[k]) {
              if k == 0 { assert JobLockConsistent(jobs[0]); } else { assert r[k] == rest[k - 1]; }
            }
          }
        }
        (r, true)
  }

  /** After a delete no job with the id remains to be found. */
  lemma DeleteThenGetById(jobs: seq<Job>, id: string)
    ensures GetById(Delete(jobs, id).0, id).None?
  {
  }
}

=== FILE: types.dfy ===
/** The records the recruiting platform passes around: jobs, applicants, the
    skills and traits attached to an applicant, and the request and response
    shapes of the mock API. Optional properties of the TypeScript interfaces
    are `Option`s; string-literal unions are datatypes. */
module Types {
  import opened Base

  datatype Role = Candidate | Recruiter

  datatype User = User(id: string, name: string, email: string, role: Role)

  /** The Big Five traits, each nominally 0..100. */
  datatype PersonalityTraits = PersonalityTraits(
    openness: int,
    conscientiousness: int,
    extraversion: int,
    agreeableness: int,
    neuroticism: int)

  /** A skill category is exactly one of these three. */
  datatype Category = Technical | Soft | Domain

  datatype ExtractedSkill = ExtractedSkill(name: string, relevance: int, category: Category)

  datatype ExtractedExperience = ExtractedExperience(
    company: string, role: string, duration: string, highlights: seq<string>)

  datatype ExtractedEducation = ExtractedEducation(
    institution: string, degree: string, field: string, year: string)

  /** Relative weights of the resume and behavioural sub-scores. */
  datatype Weights = Weights(resume: int, behaviour: int)

  /** An applicant's status is exactly one of these three. */
  datatype Status = UnderReview | Shortlisted | Rejected

  /** The statuses a recruiter's decision may set. */
  type Decision = s: Status | s != UnderReview witness Shortlisted

  datatype Applicant = Applicant(
    id: string,
    name: string,
    userId: string,
    appliedAt: string,
    resumeName: string,
    resumeURL: string,
    resumeScore: int,
    behaviourScore: int,
    resumeInsights: string,
    behaviourInsights: string,
    status: Status,
    locked: bool,
    behaviouralAnswers: seq<string>,
    fitScore: Option<int>,
    personalityTraits: Option<PersonalityTraits>,
    extractedSkills: Option<seq<ExtractedSkill>>,
    extractedExperience: Option<seq<ExtractedExperience>>,
    extractedEducation: Option<seq<ExtractedEducation>>,
    matchExplanation: Option<string>)

  datatype Job = Job(
    id: string,
    title: string,
    company: string,
    description: string,
    deadline: string,
    questions: seq<string>,
    weights: Weights,
    applicants: seq<Applicant>,
    createdAt: string,
    createdBy: string,
    requiredSkills: Option<seq<string>>)

  datatype ExtractedEntities = ExtractedEntities(
    skills: seq<ExtractedSkill>,
    experience: seq<ExtractedExperience>,
    education: seq<ExtractedEducation>)

  datatype ResumeAnalysis = ResumeAnalysis(
    matchScore: int,
    strengths: seq<string>,
    improvements: seq<string>,
    skills: seq<string>,
    experience: string,
    education: string,
    extractedEntities: Option<ExtractedEntities>,
    matchExplanation: Option<string>)

  datatype ApplicationStats = ApplicationStats(applied: nat, shortlisted: nat, rejected: nat)

  /** Hiring metrics without the constant floating-point `averageTimeToHire`. */
  datatype HiringMetrics = HiringMetrics(
    totalApplicants: nat,
    shortlisted: nat,
    rejected: nat,
    underReview: nat,
    averageFitScore: int)

  /** One bar pair of the skill-gap chart. */
  datatype SkillGapAnalysis = SkillGapAnalysis(skill: string, required: int, available: int, gap: int)

  datatype LoginRequest = LoginRequest(email: string, password: string, role: Role)

  datatype SignupRequest = SignupRequest(name: string, email: string, password: string, role: Role)

  datatype LoginResponse = LoginResponse(
    success: bool, user: Option<User>, token: Option<string>, message: Option<string>)

  /** Every `Job` field except id, applicants, createdAt and createdBy. */
  datatype CreateJobRequest = CreateJobRequest(
    title: string,
    company: string,
    description: string,
    deadline: string,
    questions: seq<string>,
    weights: Weights,
    requiredSkills: Option<seq<string>>)

  /** The decision-lock invariant: a locked applicant has been decided. */
  predicate LockConsistent(a: Applicant) {
    a.locked ==> a.status != UnderReview
  }

  predicate JobLockConsistent(j: Job) {
    forall i :: 0 <= i < |j.applicants| ==> LockConsistent(j.applicants[i])
  }

  /** The lock invariant over a whole job store. */
  predicate StoreLockConsistent(jobs: seq<Job>) {
    forall i :: 0 <= i < |jobs| ==> JobLockConsistent(jobs[i])
  }

  /** Number of applicants in `s` with status `st`. */
  function CountStatus(s: seq<Applicant>, st: Status): (r: nat)
    ensures r <= |s|
  {
    if s == [] then 0
    else CountStatus(s[..|s| - 1], st) + (if s[|s| - 1].status == st then 1 else 0)
  }

  /** The three status counts of any applicant list add up to its length. */
  lemma {:induction false} StatusPartition(s: seq<Applicant>)
    ensures CountStatus(s, UnderReview) + CountStatus(s, Shortlisted) + CountStatus(s, Rejected) == |s|
  {
    if s != [] {
      StatusPartition(s[..|s| - 1]);
    }
  }

  lemma {:induction false} CountStatusConcat(a: seq<Applicant>, b: seq<Applicant>, st: Status)
    ensures CountStatus(a + b, st) == CountStatus(a, st) + CountStatus(b, st)
  {
    if b != [] {
      assert (a + b)[..|a + b| - 1] == a + b[..|b| - 1];
      CountStatusConcat(a, b[..|b| - 1], st);
    } else {
      assert a + b == a;
    }
  }
  /** `jobs.flatMap(job => job.applicants)`. */
  function AllApplicants(jobs: seq<Job>): (r: seq<Applicant>)
  {
    if jobs == [] then [] else AllApplicants(jobs[..|jobs| - 1]) + jobs[|jobs| - 1].applicants
  }

  /** Flattening distributes over concatenation of job lists. */
  lemma {:induction false} AllApplicantsConcat(a: seq<Job>, b: seq<Job>)
    ensures AllApplicants(a + b) == AllApplicants(a) + AllApplicants(b)
  {
    if b == [] {
      assert a + b == a;
    } else {
      assert (a + b)[..|a + b| - 1] == a + b[..|b| - 1];
      AllApplicantsConcat(a, b[..|b| - 1]);
    }
  }

  /** An applicant is in the flattened list exactly when some job holds it. */
  lemma {:induction false} AllApplicantsMember(jobs: seq<Job>, x: Applicant)
    ensures x in AllApplicants(jobs) <==> exists i :: 0 <= i < |jobs| && x in jobs[i].applicants
  {
    if jobs != [] {
      var init := jobs[..|jobs| - 1];
      AllApplicantsMember(init, x);
      assert forall i :: 0 <= i < |init| ==> init[i] == jobs[i];
    }
  }
}
